=== FILE: README.md ===
# BlueAlly GenAI opportunity calculator, modelled in Dafny

The system is a marketing site that works out what generative AI could save
a company. The model covers three things:

- **The calculation engine** (`server/calculationEngine.ts`):
  - the benchmark tables;
  - company-size buckets;
  - annual labour cost;
  - risk-adjusted automation savings;
  - the five-year cash-flow projection with NPV and payback;
  - the company-wide SG&A opportunity and its split across nine processes.
- **The server around the engine**:
  - the four calculator endpoints of `server/routers.ts`, with their input bounds as preconditions;
  - company research in `server/companyResearch.ts`:
    - domain cleaning;
    - the industry fallback;
    - the default costing of implementation at 15% and maintenance at 10%;
    - the data-quality grade;
    - the top-five process insights and their rationale fallbacks;
    - the fail-closed quick lookup;
    - the research error message.
- **The six interactive chapters** of the client, `Step0Diagnostic` to `Step5PriorityOracle`. For each one the model keeps the arithmetic and state changes behind what is shown:
  - the simulated company profile;
  - the four cost drivers;
  - the friction points and their cost counters;
  - the workflow totals and timeline;
  - the KPI sliders;
  - the priority ranking with its radar and countdown.

Every quantity is an exact `real`. JavaScript's `Math.round` is `Numeric.Round`, which rounds half up (towards +∞), and `Math.ceil` is `Numeric.Ceil`.

The spreadsheet formulas the engine hands to HyperFormula are written as plain arithmetic, cell by cell. The model follows the code and proves the consequences of each formula: bounds, monotonicity, fallbacks, partitions and worked examples.

The following become parameters:

- the language-model replies (`Option` when the call fails);
- `Math.random` draws (values in `[0, 1)`);
- the clock.

Modules follow the source files:

| module | source |
|---|---|
| `Benchmarks`, `CalculationEngine` | the engine |
| `Routers` | the endpoints |
| `CompanyResearch` | research |
| `Step0Diagnostic` … `Step5PriorityOracle` | the chapters |
| `Wrappers` (`Option`, `Result`), `Numeric` (rounding), `Text` (ASCII case, prefixes), `Ranking` | shared |

`Ranking` is a stable descending sort and top-k. It models the array sorts with a numeric comparator: ECMAScript (ECMA-262, since its 2019 edition) requires `Array.prototype.sort` to be stable.

Two places where the code says less than its own wording suggests; the model follows the formulas:

- **Years 3 to 5.** The comment on the cash-flow row (server/calculationEngine.ts:174) reads "3% annual growth". The formulas multiply the savings by 1.03, 1.06 and 1.09, which is a linear uplift and not compounding. `CalculationEngine.CashFlows` states the linear form.
- **Employee count.** `calculateCompanyOpportunity` takes an `employees` parameter (server/calculationEngine.ts:208). Its body (lines 219-254) never reads it. `CalculationEngine.EmployeesIgnored` proves that the count changes no figure.

## Model

| member | source | states |
|---|---|---|
| `Benchmarks.Lookup` | server/calculationEngine.ts:219-220 | looking up a key finds nothing exactly when the key is not in the table; a hit is a row of the table with that key |
| `Benchmarks.SgaTableWellFormed` | server/calculationEngine.ts:26-36 | every industry row has efficient < average < inefficient, industry names are unique, and a Default row exists |
| `Benchmarks.DefaultSgaRatios` | server/calculationEngine.ts:35 | the Default row is what the table holds under "Default", and it is ordered |
| `Benchmarks.IndustryRatios` | server/calculationEngine.ts:219-220 | an unknown industry gets the Default row; a known one gets its own row; the result is always ordered |
| `Benchmarks.IndustryRatiosFractions` | server/calculationEngine.ts:26-36 | whatever the industry name, the three ratios used are ordered fractions strictly between 0 and 1, so the average is never 0 |
| `Benchmarks.TableRowsBounded` | server/calculationEngine.ts:39-50 | every automation-potential row holds fractions strictly between 0 and 1, each no smaller than the 0.30/0.40/0.35 defaults |
| `Benchmarks.ProcessPotential` | server/calculationEngine.ts:119-120 | an unknown process gets the 0.30/0.40/0.35 defaults; a known one gets its table row; either way the ratios are fractions no smaller than the defaults |
| `Benchmarks.IndustryListing` | server/calculationEngine.ts:26-36 | the industry listing names the nine table rows in declaration order, Default last |
| `Numeric.Round` | server/calculationEngine.ts:143-147 | `Math.round`: the result is the integer within half a unit below or above x, ties going up |
| `Numeric.Ceil` | server/calculationEngine.ts:189 | `Math.ceil`: the least integer not below x |
| `Numeric.RoundTenth` | client/src/components/steps/Step4KPIForge.tsx:43 | rounding to one decimal gives a whole number of tenths within 0.05 of x |
| `Numeric.RoundMonotone` | server/calculationEngine.ts:192-199 | rounding never reverses the order of two figures |
| `Text.Lower` | server/companyResearch.ts:83 | lower-casing keeps the length, leaves no ASCII capital behind and changes nothing but capitals |
| `Text.LowerIdempotent` | server/companyResearch.ts:83 | lower-casing twice is lower-casing once, and a string is its own lower case exactly when it holds no capital |
| `Ranking.SortDesc` | client/src/components/steps/Step5PriorityOracle.tsx:60 | the sorted copy is a permutation of the input, ordered by key from highest to lowest |
| `Ranking.SortStable` | client/src/components/steps/Step2FrictionPoints.tsx:109-111 | items with equal keys keep their input order after sorting |
| `Ranking.SortConstant` | server/companyResearch.ts:254-256 | when every key is the same, sorting changes nothing |
| `Ranking.TopK` | server/companyResearch.ts:254-256 | the first k of the stable ranking: min(k, n) items, ordered, drawn from the input, ties cut in input order |
| `Ranking.TopKPartition` | client/src/components/steps/Step5PriorityOracle.tsx:268 | the top k and the rest of the ranking together are the input, and every top item's key is at least every remaining item's |
| `Ranking.HeadIsMaximum` | client/src/components/steps/Step2FrictionPoints.tsx:252 | the first item of a ranking has the largest key |
| `Ranking.RankingUnique` | client/src/components/steps/Step5PriorityOracle.tsx:60 | an ordered permutation equals any strictly decreasing permutation of the same items |
| `Ranking.SortDistinct` | client/src/components/steps/Step5PriorityOracle.tsx:60 | when keys are distinct, the sort yields exactly the strictly decreasing arrangement |
| `CalculationEngine.ClassifyCompanySize` | server/calculationEngine.ts:80-85 | small is exactly below 100 employees, medium exactly [100, 1000), large exactly [1000, 10000), enterprise exactly from 10000; a boundary belongs to the upper bucket |
| `CalculationEngine.SizeMonotone` | server/calculationEngine.ts:80-85 | more employees never give a smaller bucket |
| `CalculationEngine.HourlyRateOrDefault` | server/calculationEngine.ts:93 | an omitted rate means $75; a given rate, even 0, is used as is |
| `CalculationEngine.CalculateAnnualLaborCost` | server/calculationEngine.ts:90-103 | the cost is within half a dollar of hours × people × rate × 52 and is never negative for non-negative inputs |
| `CalculationEngine.LaborCostMonotone` | server/calculationEngine.ts:90-103 | more weekly hours never cost less |
| `CalculationEngine.RiskMultiplier` | server/calculationEngine.ts:122-126 | the risk discount is 0.75 × 0.85 × 0.80 = 0.51; without risk factors it is 1 |
| `CalculationEngine.SavingsCells` | server/calculationEngine.ts:129-148 | labour is the cost × labour ratio, errors are valued at 10% and time at 5% of the cost, each at the multiplier and rounded on its own; the total is the rounded sum; the conservative figure is the rounded 70% of it; the rounded parts add up to the total within 1 |
| `CalculationEngine.CalculateAutomationSavings` | server/calculationEngine.ts:108-149 | the savings are the cells of the process's own ratios (or the defaults) at the chosen risk multiplier: total and conservative figures from the weighted cost, parts within 1 of the total |
| `CalculationEngine.AutomationSavingsParts` | server/calculationEngine.ts:129-147 | labour, error and time savings are each the process's ratio of the labour cost (errors weighted 10%, time 5%) at the multiplier, rounded on its own |
| `CalculationEngine.RoundSumOfThree` | server/calculationEngine.ts:143-146 | rounding three parts separately misses the rounded total by at most 1 |
| `CalculationEngine.RiskDiscountLowersSavings` | server/calculationEngine.ts:122-126 | turning risk factors off never lowers savings, and strictly raises them once the labour cost is $100 or more |
| `CalculationEngine.ExactSavingsMonotoneInCost` | server/calculationEngine.ts:129-137 | at a non-negative multiplier, a larger labour cost never lowers the unrounded savings |
| `CalculationEngine.SavingsPositive` | server/companyResearch.test.ts:59-81 | for any process, known or not, a labour cost of $100 or more gives five positive risk-adjusted figures |
| `CalculationEngine.UnknownProcessUsesDefaults` | server/calculationEngine.ts:119-120 | a process not in the table is costed with the 0.30/0.40/0.35 defaults |
| `CalculationEngine.CashFlows` | server/calculationEngine.ts:172-177 | five yearly flows: year 1 falls short of year 2 by half the savings plus the implementation cost; year k ≥ 3 exceeds year 2 by 3% × (k−2) of savings |
| `CalculationEngine.PaybackMonths` | server/calculationEngine.ts:187-198 | never above 60; 60 when the monthly benefit is not positive; otherwise the least whole number of months whose benefit covers the implementation cost, capped at 60 |
| `CalculationEngine.CeilPaysBack` | server/calculationEngine.ts:189 | Ceil(cost / benefit) months cover the cost and one month fewer does not |
| `CalculationEngine.Calculate5YearRoi` | server/calculationEngine.ts:154-201 | each year is the rounded flow, total ROI the rounded sum, NPV the rounded present value at 10%, and payback as above |
| `CalculationEngine.CashFlowTotals` | server/calculationEngine.ts:175-176 | the total and NPV cells agree with a recursive sum and a recursive present value at 10% |
| `CalculationEngine.RampUp` | server/companyResearch.test.ts:93-116 | year 1 never beats year 2, and is strictly below it once half the savings plus the implementation cost reaches 1 |
| `CalculationEngine.LaterYearsGrow` | server/calculationEngine.ts:174 | years 2 to 5 never fall for non-negative savings |
| `CalculationEngine.DefaultCostsPayBackInFourMonths` | server/routers.ts:89-93 | with implementation at 15% of savings and maintenance at 10% of that, any positive savings pay back in month 4 |
| `CalculationEngine.AllocationsSumToOne` | server/calculationEngine.ts:231-240 | the nine process shares add up to exactly 1 |
| `CalculationEngine.Breakdown` | server/calculationEngine.ts:241-245 | one breakdown row per allocation |
| `CalculationEngine.BreakdownRows` | server/calculationEngine.ts:241-245 | row k carries process k's name and confidence and its rounded share of the target |
| `CalculationEngine.BreakdownTotal` | server/calculationEngine.ts:241-245 | the rounded shares add up to the allocated target within half a dollar per row |
| `CalculationEngine.ActualSga` | server/calculationEngine.ts:222 | an omitted or zero override falls back to the industry average; any other override is used |
| `CalculationEngine.OpportunityCellsConsistent` | server/calculationEngine.ts:223-254 | the reported gap is the difference of the reported spends within $1; the target is 30% of the reported gap within 65 cents; the nine breakdown rows add up to the unrounded target within $4.50 and to the reported target within $5 |
| `CalculationEngine.CalculateCompanyOpportunity` | server/calculationEngine.ts:206-255 | a known industry is measured against its own row, any other against the Default row; there are always nine breakdown rows |
| `CalculationEngine.EmployeesIgnored` | server/calculationEngine.ts:206-255 | the employee count changes no figure |
| `CalculationEngine.ZeroOverrideIsIgnored` | server/calculationEngine.ts:222 | an explicit 0% SG&A gives the same result as no override |
| `CalculationEngine.OpportunityMonotoneInRevenue` | server/companyResearch.test.ts:151-156 | for a share at or above the efficient benchmark, more revenue never lowers the opportunity or the target |
| `CalculationEngine.DefaultShareAboveEfficient` | server/calculationEngine.ts:27-35 | every industry's average exceeds its efficient benchmark, so without an override the gap is never negative |
| `CalculationEngine.ConservativeBelowTotal` | server/companyResearch.test.ts:130-141 | once the gap is at least 2, the conservative target is strictly below the total opportunity |
| `CalculationEngine.SizeExamples` | server/companyResearch.test.ts:36-56 | 50 and 99 are small, 100 and 500 medium, 1000 and 5000 large, 10000 and 50000 enterprise |
| `CalculationEngine.RoiExample` | server/companyResearch.test.ts:93-105 | $10M savings, $2M implementation and $0.5M maintenance ramp up over years 1 to 3, give a positive ROI and pay back in 6 months |
| `CalculationEngine.IndustryRowExamples` | server/calculationEngine.ts:27-30 | looked up by name, Technology is 35% average and 25% efficient, Manufacturing 20% and 15% |
| `CalculationEngine.OpportunityExamples` | server/companyResearch.test.ts:143-156 | at $100M, Technology gives $10M and Manufacturing $5M (different); Technology at $50M gives $5M and at $500M gives $50M |
| `Routers.ProcessSavings` | server/routers.ts:54-80 | the reply carries the labour cost from the team's hours, people and rate (75 when omitted), which is non-negative, and the risk-adjusted savings computed from that very cost |
| `Routers.ProcessSavingsNonNegative` | server/routers.ts:57-59 | within the input bounds the total savings are never negative |
| `Routers.ProcessSavingsMonotoneInHours` | server/routers.ts:54-80 | more hours per week never lower the reported labour cost or the reported savings |
| `Routers.ImplementationCostOrDefault` | server/routers.ts:90 | an omitted or zero implementation cost becomes 15% of the savings |
| `Routers.FiveYearRoi` | server/routers.ts:83-109 | the projection uses maintenance at 10% of the implementation cost actually used; the echoed costs are rounded and never negative |
| `Routers.DefaultRoiPaysBackInFourMonths` | server/routers.ts:89-93 | without an implementation cost, any positive savings pay back in month 4 |
| `Routers.ZeroImplementationCostIsDefault` | server/routers.ts:90 | asking with a zero implementation cost is the same as not giving one |
| `Routers.CompanyOpportunity` | server/routers.ts:112-137 | the endpoint returns the engine's figures; without an override, opportunity and target are never negative |
| `Routers.BenchmarksQuery` | server/routers.ts:140-165 | a non-empty industry gets that industry's row (Default when unknown) with the name echoed; otherwise the listing of all industries, Default included, with the cost assumptions and risk factors; both replies carry the automation table |
| `Routers.BenchmarksQueryAgreesWithListing` | server/routers.ts:140-165 | querying any industry the listing names returns that industry's own table row under that name |
| `CompanyResearch.StripScheme` | server/companyResearch.ts:83 | removes one leading `https://`, else one `http://`, else nothing |
| `CompanyResearch.StripWww` | server/companyResearch.ts:83 | removes one leading `www.` |
| `CompanyResearch.CutPath` | server/companyResearch.ts:83 | keeps a prefix of its input |
| `CompanyResearch.CutPathAtFirstSlash` | server/companyResearch.ts:83 | on a single line, the cut is exactly at the first slash, and a slash-free input is kept whole |
| `CompanyResearch.CleanDomain` | server/companyResearch.ts:83 | the clean domain is a prefix of the lower-cased input with its scheme and `www.` removed |
| `CompanyResearch.CleanDomainIsHost` | server/companyResearch.ts:83 | on a single line the clean domain has no slash and no upper-case letter, and a slash-free input is returned whole |
| `CompanyResearch.CutPathPrefix` | server/companyResearch.ts:83 | a host followed by a one-line path keeps just the host |
| `CompanyResearch.CleanDomainDropsSchemeWwwAndPath` | server/companyResearch.ts:83 | `HTTPS://www.Ab.io/x` cleans to `ab.io` |
| `CompanyResearch.CleanDomainDropsWww` | server/companyResearch.ts:83 | a lower-case host on one line without a path, written behind `www.`, cleans to the host itself |
| `CompanyResearch.CleanDomainOfUrl` | server/companyResearch.ts:83 | any domain that lower-cases to `https://www.` + host + path, with a slash-free host and a path on one line, cleans to the host |
| `CompanyResearch.CleanDomainDropsOneWww` | server/companyResearch.ts:83 | only one `www.` goes: `www.www.a` cleans to `www.a` |
| `CompanyResearch.CleanDomainKeepsSlashBeforeLineBreak` | server/companyResearch.ts:83 | the path pattern does not cross a line break, so `a/b` followed by a newline and `c` is kept whole |
| `CompanyResearch.OverallConfidence` | server/companyResearch.ts:205-207 | High exactly for public data with a public revenue figure, Medium exactly for public data otherwise, Low exactly without public data |
| `CompanyResearch.Rationale` | server/companyResearch.ts:284-297 | never empty; the model's non-empty text at the same index when present, the "Standard … automation benefits apply." sentence otherwise, and the fixed "AI can significantly reduce …" sentence when the call failed |
| `CompanyResearch.ProcessInsights` | server/companyResearch.ts:254-297 | at most five insights, the first five of the ranking in order of opportunity, each with its rationale |
| `CompanyResearch.InsightsAreTheLargest` | server/companyResearch.ts:254-256 | no process left out of the insights has a larger opportunity than one shown, and shown plus left out is the whole breakdown |
| `CompanyResearch.TiedInsightsKeepTableOrder` | server/companyResearch.ts:254-256 | when all opportunities tie, the insights are the first five processes in table order |
| `CompanyResearch.ZeroTargetKeepsTableOrder` | server/companyResearch.ts:254-256 | a zero target makes every share 0, so the insights follow the allocation order |
| `CompanyResearch.ZeroTargetInsights` | server/companyResearch.ts:254-256 | with a zero target there are five insights: the first five processes of the allocation table |
| `CompanyResearch.DefaultCostProjection` | server/companyResearch.ts:184-193 | the projection costs implementation at 15% of the target and maintenance at 10% of that, and a positive target pays back in month 4 |
| `CompanyResearch.Analyse` | server/companyResearch.ts:168-233 | the SG&A share is the industry average (Default when unknown); opportunity and target are the engine's figures for that share; the projection uses default costing; the reply's own fields pass through |
| `CompanyResearch.ResearchCompany` | server/companyResearch.ts:81-237 | fails exactly when the model gives no usable reply, with "Failed to research company: " and the clean domain; otherwise the analysis of the clean domain |
| `CompanyResearch.OverrideIsAverage` | server/companyResearch.ts:172-182 | passing the row's average as the override gives exactly the cells for that average |
| `CompanyResearch.ResearchPaysBackInFourMonths` | server/companyResearch.ts:184-193 | every successful research with a positive target pays back in month 4 |
| `CompanyResearch.QuickCompanyLookup` | server/companyResearch.ts:304-325 | asks about the clean domain; without a parseable reply the answer is "not valid" |
| `CompanyResearch.EntryPointsAgreeOnDomain` | server/companyResearch.ts:309 | research and quick lookup clean a domain identically, so the research domain and error name the same host the lookup asks about |
| `Step0Diagnostic.StripTld` | client/src/components/steps/Step0Diagnostic.tsx:21 | the result is a prefix of the input, shorter by nothing, three or four characters; which suffix goes is stated by `StripTldMatching` |
| `Step0Diagnostic.StripTldMatching` | client/src/components/steps/Step0Diagnostic.tsx:21 | a name ending in any of the five suffixes, in any mix of case, loses exactly that suffix and nothing else |
| `Step0Diagnostic.Split` | client/src/components/steps/Step0Diagnostic.tsx:22 | splitting always yields at least one piece |
| `Step0Diagnostic.SplitCapitalizeJoin` | client/src/components/steps/Step0Diagnostic.tsx:22-24 | split, capitalise each piece and join with spaces equals the character-level title case: separators become spaces, and a letter starting a piece is upper-cased |
| `Step0Diagnostic.CompanyName` | client/src/components/steps/Step0Diagnostic.tsx:20-24 | the name is the title case of the suffix-stripped domain: same length, no `-` or `_`, a space where each separator was |
| `Step0Diagnostic.StripTldRoundTrip` | client/src/components/steps/Step0Diagnostic.tsx:21 | appending any one of the five suffixes and stripping gives back the original |
| `Step0Diagnostic.StripTldKeepsOthers` | client/src/components/steps/Step0Diagnostic.tsx:21 | a name without one of the suffixes, in any case, is left alone |
| `Step0Diagnostic.StripsCom` | client/src/components/steps/Step0Diagnostic.tsx:21 | `a-b.com` strips to `a-b` |
| `Step0Diagnostic.StripsUpperCaseIo` | client/src/components/steps/Step0Diagnostic.tsx:21 | the match ignores case: `a_b.IO` strips to `a_b` |
| `Step0Diagnostic.TitleOfSeparatedWords` | client/src/components/steps/Step0Diagnostic.tsx:22-24 | `a-b` and `a_b` both title to `A B` |
| `Step0Diagnostic.CompanyNameExamples` | client/src/components/steps/Step0Diagnostic.tsx:20-24 | `a-b.com` and `a_b.IO` both name `A B` |
| `Step0Diagnostic.CompetitorIndex` | client/src/components/steps/Step0Diagnostic.tsx:37 | the draw picks one of the four competitors, the one whose quarter of [0, 1) it falls in |
| `Step0Diagnostic.GenerateCompanyData` | client/src/components/steps/Step0Diagnostic.tsx:20-42 | shares reported to one decimal within [18, 26] and [15, 19]; the bleed comes from the unrounded draws and lies in [−5, 55]; the competitor is the one the fourth draw picks; the stock moves and premium are their draws scaled into [5, 13), (−5, −1] and [2.8, 3.6) |
| `Step0Diagnostic.CompetitorQuarters` | client/src/components/steps/Step0Diagnostic.tsx:37 | competitor i is named exactly for draws in [i/4, (i+1)/4) |
| `Step0Diagnostic.BleedRange` | client/src/components/steps/Step0Diagnostic.tsx:26-29 | the drawn share gap is within (−1, 11) points, so the bleed is between −5 and 55 million |
| `Step0Diagnostic.NegativeBleedIsPossible` | client/src/components/steps/Step0Diagnostic.tsx:26-29 | the ranges overlap, so a draw can produce a bleed of −5 |
| `Step0Diagnostic.BleedIsNotFromReportedShares` | client/src/components/steps/Step0Diagnostic.tsx:29-35 | the shown bleed can differ from the one the shown, rounded shares would give (5 against 6) |
| `Step0Diagnostic.DisplayedPhase` | client/src/components/steps/Step0Diagnostic.tsx:190 | the label on screen is the current phase, held at the last label once the loop passes it |
| `Step0Diagnostic.PhasesAllDisplay` | client/src/components/steps/Step0Diagnostic.tsx:190 | every phase shows a valid label; phases 3 and 4 both show the last one |
| `Step0Diagnostic.Analyze` | client/src/components/steps/Step0Diagnostic.tsx:69-86 | with an empty domain or a running analysis nothing changes; otherwise the analysis ends with the generated profile, shown, after the last phase |
| `Step0Diagnostic.AutoAnalysisProceeds` | client/src/components/steps/Step0Diagnostic.tsx:63-67 | a `.com` domain that triggers the analysis on its own always passes the analysis guard |
| `Step0Diagnostic.AnalyzeOnce` | client/src/components/steps/Step0Diagnostic.tsx:63-86 | after an analysis the trigger does not fire again, and continuing hands on that profile |
| `Step0Diagnostic.NothingToContinueInitially` | client/src/components/steps/Step0Diagnostic.tsx:88-92 | before an analysis, continuing hands on nothing |
| `Step1FinancialDetonator.BleedOrDefault` | client/src/components/steps/Step1FinancialDetonator.tsx:41 | a missing or zero bleed becomes 43; the bleed used is never 0 |
| `Step1FinancialDetonator.DriverOf` | client/src/components/steps/Step1FinancialDetonator.tsx:43-80 | each driver's GenAI 1.0 and 2.0 figures are within half a million of its share of the bleed |
| `Step1FinancialDetonator.Drivers` | client/src/components/steps/Step1FinancialDetonator.tsx:43-80 | four drivers with distinct ids, one per ratio row in order, each figure within half a million of its share of the bleed |
| `Step1FinancialDetonator.RecoveryPercent` | client/src/components/steps/Step1FinancialDetonator.tsx:214 | the recovery is within half a point of savings ÷ bleed × 100 |
| `Step1FinancialDetonator.FindDriver` | client/src/components/steps/Step1FinancialDetonator.tsx:82 | finds a driver exactly when one has the id, and what it finds is the first driver with that id |
| `Step1FinancialDetonator.Comparison` | client/src/components/steps/Step1FinancialDetonator.tsx:174 | the comparison panel shows exactly when it is open and the selected id names a driver, and it shows that driver |
| `Step1FinancialDetonator.DriverIdsDistinct` | client/src/components/steps/Step1FinancialDetonator.tsx:43-80 | the four driver ids are distinct |
| `Step1FinancialDetonator.ClickShowsDriver` | client/src/components/steps/Step1FinancialDetonator.tsx:82-88 | clicking driver i shows driver i |
| `Step1FinancialDetonator.Genai2AtLeastGenai1` | client/src/components/steps/Step1FinancialDetonator.tsx:253 | for a non-negative bleed, the "difference … more per year" is never negative |
| `Step1FinancialDetonator.SharesMonotone` | client/src/components/steps/Step1FinancialDetonator.tsx:43-80 | a larger bleed never lowers any driver's figures |
| `Step1FinancialDetonator.TotalNearBleedShare` | client/src/components/steps/Step1FinancialDetonator.tsx:83 | the GenAI 2.0 total is within 2 of 1.615 × the bleed, so from a bleed of 4 up it exceeds the bleed itself |
| `Step1FinancialDetonator.DefaultDrivers` | client/src/components/steps/Step1FinancialDetonator.tsx:41-83 | at the default bleed of 43 the GenAI 2.0 figures are 19, 22, 16 and 12, totalling 69 |
| `Step1FinancialDetonator.DefaultCostRecovery` | client/src/components/steps/Step1FinancialDetonator.tsx:236 | at the default bleed, the Cost driver's GenAI 2.0 recovery shows as 44% |
| `Step2FrictionPoints.TableIdsDistinct` | client/src/components/steps/Step2FrictionPoints.tsx:27-100 | the eight friction points have distinct ids |
| `Step2FrictionPoints.TableCostsPositive` | client/src/components/steps/Step2FrictionPoints.tsx:27-100 | every point costs something per minute |
| `Step2FrictionPoints.CostsSumTo` | client/src/components/steps/Step2FrictionPoints.tsx:27-100 | the per-minute costs add up to $22.50 |
| `Step2FrictionPoints.WeeklyWastes` | client/src/components/steps/Step2FrictionPoints.tsx:223 | the weekly waste of each of the eight points |
| `Step2FrictionPoints.SortedFrictions` | client/src/components/steps/Step2FrictionPoints.tsx:109-111 | the displayed list is a permutation of the table, ordered by weekly waste from highest |
| `Step2FrictionPoints.StrictMaximumFirst` | client/src/components/steps/Step2FrictionPoints.tsx:109-111 | an item with a strictly largest key heads the ranking |
| `Step2FrictionPoints.ItOperationsWastesMost` | client/src/components/steps/Step2FrictionPoints.tsx:27-100 | IT Operations wastes strictly more per week than every other point |
| `Step2FrictionPoints.ItOperationsRanksFirst` | client/src/components/steps/Step2FrictionPoints.tsx:109-111 | IT Operations heads the displayed list |
| `Step2FrictionPoints.BadgeRowWastesMost` | client/src/components/steps/Step2FrictionPoints.tsx:252 | the row with the "highest" badge wastes at least as much as every other row |
| `Step2FrictionPoints.TickSpec` | client/src/components/steps/Step2FrictionPoints.tsx:123-137 | a tick adds each point's per-minute cost to its counter, leaves every other counter alone, and reports the sum of the new readings |
| `Step2FrictionPoints.TickNeverDecreases` | client/src/components/steps/Step2FrictionPoints.tsx:129 | no counter ever goes down, and each point's counter strictly rises |
| `Step2FrictionPoints.TicksOfMultiples` | client/src/components/steps/Step2FrictionPoints.tsx:114-137 | after n ticks from the initial counters, each counter reads n × its cost and the total is n × the cost sum |
| `Step2FrictionPoints.TicksReadings` | client/src/components/steps/Step2FrictionPoints.tsx:128-130 | after n ticks each point's counter reads n × its per-minute cost |
| `Step2FrictionPoints.TotalIsCostMultiple` | client/src/components/steps/Step2FrictionPoints.tsx:127-132 | after n ticks the total burned is n × the cost sum |
| `Step2FrictionPoints.TicksFromZero` | client/src/components/steps/Step2FrictionPoints.tsx:114-137 | for the real table, each counter reads n × its cost after n seconds |
| `Step2FrictionPoints.TotalBurnedFromZero` | client/src/components/steps/Step2FrictionPoints.tsx:127-132 | for the real table, the total after n seconds is $22.50 × n |
| `Step2FrictionPoints.SelectEnablesContinue` | client/src/components/steps/Step2FrictionPoints.tsx:390 | continuing is disabled before a choice and enabled after selecting any table point |
| `Step3WorkflowAutopsy.ProcessName` | client/src/components/steps/Step3WorkflowAutopsy.tsx:34 | never empty; the friction point's name when present and non-empty, and "Procurement" otherwise |
| `Step3WorkflowAutopsy.SavingsPercent` | client/src/components/steps/Step3WorkflowAutopsy.tsx:58 | the savings are within half a point of (1 − ai ÷ manual) × 100 |
| `Step3WorkflowAutopsy.Totals` | client/src/components/steps/Step3WorkflowAutopsy.tsx:50-56 | the manual path costs $550.00 per transaction and the AI path $8.55 |
| `Step3WorkflowAutopsy.SavingsOfTables` | client/src/components/steps/Step3WorkflowAutopsy.tsx:58 | the tables give 98% savings |
| `Step3WorkflowAutopsy.SavingsWithinRange` | client/src/components/steps/Step3WorkflowAutopsy.tsx:58 | when the AI path costs no more than the manual one, the savings are between 0% and 100% |
| `Step3WorkflowAutopsy.Reported` | client/src/components/steps/Step3WorkflowAutopsy.tsx:76-85 | hands on the two totals, 98% savings, 5000 a month, 8% errors and $45 an hour |
| `Step3WorkflowAutopsy.AccumulatedProgress` | client/src/components/steps/Step3WorkflowAutopsy.tsx:69-73 | the accrued cost is 0 at the start and the full total at the end, and never falls as the timeline moves forward |
| `Step3WorkflowAutopsy.ActiveIsPrefix` | client/src/components/steps/Step3WorkflowAutopsy.tsx:153-154 | a step lights only when every earlier step is lit |
| `Step3WorkflowAutopsy.CountBelowIsCeil` | client/src/components/steps/Step3WorkflowAutopsy.tsx:241-242 | the number of lit steps is the ceiling of the progress, capped at the step count, and 0 at no progress |
| `Step3WorkflowAutopsy.CountBelowMonotone` | client/src/components/steps/Step3WorkflowAutopsy.tsx:241-242 | more progress never lights fewer steps |
| `Step3WorkflowAutopsy.ActiveSteps` | client/src/components/steps/Step3WorkflowAutopsy.tsx:153-154 | of four steps none is lit at 0 and all at 100; the count never falls as the slider moves right; exactly the first count steps are lit |
| `Step4KpiForge.BeforeCost` | client/src/components/steps/Step4KPIForge.tsx:33 | the reported manual cost, or $166.80 when it is missing or 0 |
| `Step4KpiForge.AfterCost` | client/src/components/steps/Step4KPIForge.tsx:34 | the reported AI cost, or $5.02 when it is missing or 0 |
| `Step4KpiForge.AnnualSavings` | client/src/components/steps/Step4KPIForge.tsx:38-44 | a whole number of tenths of a million, within 0.05M of the raw sum |
| `Step4KpiForge.InitialSlidersValid` | client/src/components/steps/Step4KPIForge.tsx:29-31 | the opening values 5000, 8 and 45 are stops on their sliders |
| `Step4KpiForge.DefaultPerUnit` | client/src/components/steps/Step4KPIForge.tsx:33-35 | without a report one transaction saves $161.78 |
| `Step4KpiForge.RawClosedForm` | client/src/components/steps/Step4KPIForge.tsx:39-42 | the raw sum is the direct annual part times (1 + rate ÷ 450), plus $6 per transaction per error point |
| `Step4KpiForge.RawMonotoneInVolume` | client/src/components/steps/Step4KPIForge.tsx:39-42 | more volume never lowers the raw sum |
| `Step4KpiForge.RawMonotoneInErrorRate` | client/src/components/steps/Step4KPIForge.tsx:41 | a higher error rate never lowers the raw sum |
| `Step4KpiForge.RawMonotoneInLaborRate` | client/src/components/steps/Step4KPIForge.tsx:42 | a higher labour rate never lowers the raw sum |
| `Step4KpiForge.SavingsMonotone` | client/src/components/steps/Step4KPIForge.tsx:38-44 | moving any slider right never lowers the headline |
| `Step4KpiForge.SavingsWithinSliderCorners` | client/src/components/steps/Step4KPIForge.tsx:148-217 | every reachable headline lies between the all-left and all-right slider settings |
| `Step4KpiForge.DefaultHeadline` | client/src/components/steps/Step4KPIForge.tsx:33-44 | without a report the opening sliders show $10.9M |
| `Step4KpiForge.ReportedHeadline` | client/src/components/steps/Step4KPIForge.tsx:33-44 | with the workflow chapter's report the opening sliders show $36.0M |
| `Step5PriorityOracle.InitialCases` | client/src/components/steps/Step5PriorityOracle.tsx:41 | the given use cases, or the six defaults when none are given |
| `Step5PriorityOracle.ScoreClosedForm` | client/src/components/steps/Step5PriorityOracle.tsx:52-57 | the score is 0.40 value + 25 ÷ months + 20 ÷ effort + 0.15 success |
| `Step5PriorityOracle.ScoreMonotone` | client/src/components/steps/Step5PriorityOracle.tsx:52-57 | more value or success raises the score; a longer wait or more effort lowers it |
| `Step5PriorityOracle.SortedCases` | client/src/components/steps/Step5PriorityOracle.tsx:60 | the ranking is a permutation of the cases, highest score first |
| `Step5PriorityOracle.TiesKeepListOrder` | client/src/components/steps/Step5PriorityOracle.tsx:60 | equal scores keep their list order |
| `Step5PriorityOracle.TopThree` | client/src/components/steps/Step5PriorityOracle.tsx:268 | the first min(3, n) of the ranking |
| `Step5PriorityOracle.TopThreeBeatRest` | client/src/components/steps/Step5PriorityOracle.tsx:268 | every case after the top three scores no higher than each of them, and the two parts make up the list |
| `Step5PriorityOracle.TopThreeOfRanking` | client/src/components/steps/Step5PriorityOracle.tsx:268 | with three or more cases the top three are the ranking's first three |
| `Step5PriorityOracle.DefaultScores` | client/src/components/steps/Step5PriorityOracle.tsx:29-36 | the six default scores, exactly |
| `Step5PriorityOracle.RankingOfDistinctScores` | client/src/components/steps/Step5PriorityOracle.tsx:60 | with distinct scores the ranking is the one strictly decreasing arrangement |
| `Step5PriorityOracle.DefaultRanking` | client/src/components/steps/Step5PriorityOracle.tsx:60 | the defaults rank Invoice Processing, Customer Support, Contract Review, Compliance Audit, HR Onboarding, Sales Forecasting |
| `Step5PriorityOracle.DefaultTopThree` | client/src/components/steps/Step5PriorityOracle.tsx:268 | the default top three are Invoice Processing, Customer Support and Contract Review |
| `Step5PriorityOracle.BlipSize` | client/src/components/steps/Step5PriorityOracle.tsx:174 | at least 20 and at least half the score, and one of the two |
| `Step5PriorityOracle.BlipInsideFrame` | client/src/components/steps/Step5PriorityOracle.tsx:172-173 | a case within 0–15 months and value 0–100 is drawn inside the 10–90 frame |
| `Step5PriorityOracle.CountdownTick` | client/src/components/steps/Step5PriorityOracle.tsx:46 | a thousandth of a day off, stopping at 0 |
| `Step5PriorityOracle.CountdownClosedForm` | client/src/components/steps/Step5PriorityOracle.tsx:44-49 | after n seconds from a non-negative start, the countdown shows max(0, start − n/1000) |
| `Step5PriorityOracle.CountdownRunsDown` | client/src/components/steps/Step5PriorityOracle.tsx:39-49 | the countdown never rises or goes negative; from 47 days it is still positive after 46,999 seconds and 0 after 47,000 |

## Left out

- **Floating point and HyperFormula.** Every figure is an exact real. JavaScript doubles, and HyperFormula's evaluation of the cell formulas, are not modelled. With exact reals the number branch of the engine's `typeof result === 'number'` check (server/calculationEngine.ts:102) is always taken, and its fallback to 0 never fires.
- **Formatting.** `formatCurrency`, `formatPercent`, `toFixed` and `toLocaleString` are display only. The benchmarks endpoint's formatted percentages become the raw ratios.
- **Language-model calls.** The prompts, the JSON schema, the parsing and the markdown extraction are not modelled. Their results are inputs:
  - an optional reply for research;
  - an optional list of optional rationales;
  - a parsed-or-not reply for the quick lookup.
- **Typed-only values.** The rationale text and the reply fields are taken as typed; what an ill-typed reply would do at run time is not modelled.
- **Infrastructure.** The database layer, authentication, the tRPC plumbing and `console.error` are not modelled.
- **React state plumbing.** Effects, timers, intervals, animation and the 800 ms and 300 ms waits are not modelled. A tick of an interval is one function application.
- **Other screens.** The home page, header, footer, `Step6FinancialWaterfall`, `Step7BeforeAfter` and `ConversionTriggers` are not part of this model.
- **Object keys.** Table lookups see only a table's own keys. Inherited object keys such as `constructor` are not modelled.
- **Case mapping.** `toLowerCase` and `toUpperCase` are ASCII only.
- **Line breaks.** The `/\/.*$/` path pattern stops at a line break. The model keeps that, and the "no slash" results assume a one-line domain.
- **In-place sort.** `generateProcessInsights` sorts the breakdown array in place. The model returns a sorted copy, and nothing reads the original afterwards.
- **Randomness.** `Math.random` draws are parameters in `[0, 1)`.
- **Fixed display values.** Step 4's token-cost comparison figures and Step 5's use-case detail panel (`selectedCase`) are fixed text shown on screen.
- **Unused constants.** The cost-assumption fields no code reads are kept as table constants only: token cost, training cost and the implementation timeline.
- `Step5PriorityOracle.SortedCases`: requires every time-to-value and effort to be non-zero. JavaScript would score such a case as Infinity or NaN, and exact reals cannot express that.
- `Step0Diagnostic.Split`: its own contract states only that there is at least one piece. What the pieces are is stated through `SplitCapitalizeJoin`.
- `CompanyResearch.CleanDomainIsHost`: the slash-free and lower-case guarantees are stated for domains without a line break. With one, the source keeps the slash, as `CleanDomainKeepsSlashBeforeLineBreak` shows.

=== FILE: benchmarks.dfy ===
/** The static benchmark tables of the calculation engine
    (`INDUSTRY_BENCHMARKS`) and their lookups with fallback. Tables are
    sequences of (key, row) pairs in declaration order, which is also the
    order `Object.keys` reports. Only a table's own keys are modelled. */
module Benchmarks {
  import opened Wrappers

  /** SG&A as a fraction of revenue. */
  datatype SgaRatios = SgaRatios(avg: real, efficient: real, inefficient: real)

  /** Fractions of labour, errors and time that automation removes. */
  datatype Potential = Potential(laborReduction: real, errorReduction: real, timeReduction: real)

  datatype Timeline = Timeline(pilot: int, phaseOne: int, fullRollout: int, optimization: int)

  datatype CostAssumptions = CostAssumptions(
    avgHourlyLaborCost: real,
    aiTokenCostPer1000: real,
    implementationCostMultiplier: real,
    maintenanceCostAnnual: real,
    trainingCostPerEmployee: real)

  datatype RiskFactors = RiskFactors(adoptionRate: real, technicalSuccess: real, changeManagement: real)

  const DefaultIndustry: string := "Default"

  const SgaByIndustry: seq<(string, SgaRatios)> := [
    ("Technology", SgaRatios(0.35, 0.25, 0.45)),
    ("Financial Services", SgaRatios(0.40, 0.30, 0.50)),
    ("Healthcare", SgaRatios(0.30, 0.22, 0.38)),
    ("Manufacturing", SgaRatios(0.20, 0.15, 0.28)),
    ("Retail", SgaRatios(0.25, 0.18, 0.32)),
    ("Professional Services", SgaRatios(0.45, 0.35, 0.55)),
    ("Energy", SgaRatios(0.15, 0.10, 0.22)),
    ("Telecommunications", SgaRatios(0.28, 0.20, 0.35)),
    (DefaultIndustry, SgaRatios(0.30, 0.22, 0.38))
  ]

  const AutomationPotential: seq<(string, Potential)> := [
    ("Invoice Processing", Potential(0.65, 0.80, 0.70)),
    ("Customer Support", Potential(0.40, 0.50, 0.55)),
    ("Contract Review", Potential(0.50, 0.60, 0.65)),
    ("Compliance Audit", Potential(0.35, 0.70, 0.45)),
    ("HR Onboarding", Potential(0.45, 0.55, 0.50)),
    ("Sales Forecasting", Potential(0.30, 0.40, 0.35)),
    ("Data Entry", Potential(0.75, 0.85, 0.80)),
    ("Report Generation", Potential(0.60, 0.65, 0.70)),
    ("Email Management", Potential(0.35, 0.45, 0.40)),
    ("Document Classification", Potential(0.70, 0.75, 0.75))
  ]

  /** The ratios `calculateAutomationSavings` uses for an unknown process. */
  const DefaultPotential: Potential := Potential(0.30, 0.40, 0.35)

  const ImplementationTimeline: Timeline := Timeline(2, 4, 8, 12)

  const Costs: CostAssumptions := CostAssumptions(75.0, 0.002, 0.15, 0.10, 500.0)

  const Risk: RiskFactors := RiskFactors(0.75, 0.85, 0.80)

  function Keys<V>(table: seq<(string, V)>): (r: seq<string>)
    ensures |r| == |table|
    ensures forall i :: 0 <= i < |table| ==> r[i] == table[i].0
  {
    seq(|table|, i requires 0 <= i < |table| => table[i].0)
  }

  /** The industries in the order the table declares them, Default last. */
  lemma IndustryListing()
    ensures Keys(SgaByIndustry) == ["Technology", "Financial Services", "Healthcare", "Manufacturing",
      "Retail", "Professional Services", "Energy", "Telecommunications", DefaultIndustry]
  {
  }

  /** Object property lookup: the row of the first entry named `key`. */
  function Lookup<V>(table: seq<(string, V)>, key: string): (r: Option<V>)
    ensures r.None? <==> key !in Keys(table)
    ensures r.Some? ==> exists i :: 0 <= i < |table| && table[i] == (key, r.value)
  {
    if |table| == 0 then None
    else if table[0].0 == key then Some(table[0].1)
    else
      var r := Lookup(table[1..], key);
      assert Keys(table) == [table[0].0] + Keys(table[1..]);
      assert r.Some? ==> exists i :: 0 <= i < |table[1..]| && table[1..][i] == (key, r.value);
      r
  }

  /** The row of the first entry with a given name is what a lookup of that
      name finds. */
  lemma {:induction false} LookupFirst<V>(table: seq<(string, V)>, i: nat)
    requires i < |table|
    requires forall j :: 0 <= j < i ==> table[j].0 != table[i].0
    ensures Lookup(table, table[i].0) == Some(table[i].1)
  {
    if i > 0 {
      assert table[1..][i - 1] == table[i];
      LookupFirst(table[1..], i - 1);
    }
  }

  predicate DistinctKeys<V>(table: seq<(string, V)>) {
    forall i, j :: 0 <= i < j < |table| ==> table[i].0 != table[j].0
  }

  predicate Ordered(b: SgaRatios) {
    b.efficient < b.avg < b.inefficient
  }

  /** Every industry row has efficient < average < inefficient, names are
      unique, and a Default row exists. */
  lemma SgaTableWellFormed()
    ensures forall i :: 0 <= i < |SgaByIndustry| ==> Ordered(SgaByIndustry[i].1)
    ensures DistinctKeys(SgaByIndustry)
    ensures DefaultIndustry in Keys(SgaByIndustry)
  {
    assert Keys(SgaByIndustry)[8] == DefaultIndustry;
  }

  /** The default row (also reachable under its own name). */
  function DefaultSgaRatios(): (r: SgaRatios)
    ensures Ordered(r)
    ensures Lookup(SgaByIndustry, DefaultIndustry) == Some(r)
  {
    SgaTableWellFormed();
    LookupFirst(SgaByIndustry, 8);
    SgaByIndustry[8].1
  }

  /** `sgaByIndustry[name] || sgaByIndustry.Default`. */
  function IndustryRatios(name: string): (r: SgaRatios)
    ensures Ordered(r)
    ensures name !in Keys(SgaByIndustry) ==> r == DefaultSgaRatios()
    ensures name in Keys(SgaByIndustry) ==> (name, r) in SgaByIndustry
  {
    SgaTableWellFormed();
    Lookup(SgaByIndustry, name).GetOr(DefaultSgaRatios())
  }

  /** Every industry row's ratios lie strictly between 0 and 1. */
  lemma SgaRowsFractions()
    ensures forall i :: 0 <= i < |SgaByIndustry| ==>
      0.0 < SgaByIndustry[i].1.efficient && SgaByIndustry[i].1.inefficient < 1.0
  {
  }

  /** Whatever the name, the ratios used are ordered fractions, so the
      average is never 0. */
  lemma IndustryRatiosFractions(name: string)
    ensures var r := IndustryRatios(name);
      0.0 < r.efficient < r.avg < r.inefficient < 1.0
  {
    var r := IndustryRatios(name);
    if name in Keys(SgaByIndustry) {
      var i :| 0 <= i < |SgaByIndustry| && SgaByIndustry[i] == (name, r);
      SgaRowsFractions();
    }
  }

  /** Each ratio strictly between 0 and 1. */
  predicate Fractions(p: Potential) {
    0.0 < p.laborReduction < 1.0 && 0.0 < p.errorReduction < 1.0 && 0.0 < p.timeReduction < 1.0
  }

  /** Ratios no smaller, one by one, than the defaults. */
  predicate AtLeastDefault(p: Potential) {
    p.laborReduction >= DefaultPotential.laborReduction
    && p.errorReduction >= DefaultPotential.errorReduction
    && p.timeReduction >= DefaultPotential.timeReduction
  }

  /** Every row of the table holds fractions no smaller than the defaults
      (Sales Forecasting equals them). */
  lemma TableRowsBounded()
    ensures forall i :: 0 <= i < |AutomationPotential| ==>
      Fractions(AutomationPotential[i].1) && AtLeastDefault(AutomationPotential[i].1)
  {
  }

  lemma LookupRowBounded(processType: string)
    ensures var r := Lookup(AutomationPotential, processType);
      r.Some? ==> Fractions(r.value) && AtLeastDefault(r.value)
  {
    var r := Lookup(AutomationPotential, processType);
    TableRowsBounded();
    if r.Some? {
      var i :| 0 <= i < |AutomationPotential| && AutomationPotential[i] == (processType, r.value);
      assert Fractions(AutomationPotential[i].1) && AtLeastDefault(AutomationPotential[i].1);
    }
  }

  /** `automationPotential[processType] || {0.30, 0.40, 0.35}`: the
      defaults are the smallest ratios any process gets. */
  function ProcessPotential(processType: string): (r: Potential)
    ensures processType !in Keys(AutomationPotential) ==> r == DefaultPotential
    ensures processType in Keys(AutomationPotential) ==> (processType, r) in AutomationPotential
    ensures Fractions(r) && AtLeastDefault(r)
  {
    LookupRowBounded(processType);
    Lookup(AutomationPotential, processType).GetOr(DefaultPotential)
  }
}

=== FILE: calculation_engine.dfy ===
/** The deterministic calculation engine: size bucketing, labour cost,
    risk-adjusted automation savings, the five-year cash-flow projection and
    the company-wide SG&A opportunity. The spreadsheet cells of the original
    are written here as direct arithmetic on exact reals; every figure that
    leaves the engine is rounded with `Math.round`. */
module CalculationEngine {
  import opened Wrappers
  import opened Numeric
  import opened Benchmarks

  // ---------------------------------------------------------------- size

  datatype CompanySize = Small | Medium | Large | Enterprise {
    function Rank(): nat {
      match this
      case Small => 0
      case Medium => 1
      case Large => 2
      case Enterprise => 3
    }
  }

  /** Buckets by employee count; a boundary value belongs to the upper bucket. */
  function ClassifyCompanySize(employees: real): (r: CompanySize)
    ensures r == Small <==> employees < 100.0
    ensures r == CompanySize.Medium <==> 100.0 <= employees < 1000.0
    ensures r == Large <==> 1000.0 <= employees < 10000.0
    ensures r == Enterprise <==> 10000.0 <= employees
  {
    if employees < 100.0 then Small
    else if employees < 1000.0 then CompanySize.Medium
    else if employees < 10000.0 then Large
    else Enterprise
  }

  /** More employees never give a smaller bucket. */
  lemma SizeMonotone(a: real, b: real)
    requires a <= b
    ensures ClassifyCompanySize(a).Rank() <= ClassifyCompanySize(b).Rank()
  {
  }

  // ---------------------------------------------------------- labour cost

  /** `hourlyRate` is an optional argument defaulting to the average fully
      loaded rate; only an omitted argument takes the default. */
  function HourlyRateOrDefault(hourlyRate: Option<real>): (r: real)
    ensures hourlyRate.None? ==> r == 75.0
    ensures hourlyRate.Some? ==> r == hourlyRate.value
  {
    hourlyRate.GetOr(Costs.avgHourlyLaborCost)
  }

  /** hours per week x people x rate x 52 weeks, to the nearest dollar. */
  function CalculateAnnualLaborCost(hoursPerWeek: real, employeesInvolved: real, hourlyRate: Option<real>): (r: int)
    ensures var exact := hoursPerWeek * employeesInvolved * HourlyRateOrDefault(hourlyRate) * 52.0;
      exact - 0.5 < r as real <= exact + 0.5
    ensures hoursPerWeek >= 0.0 && employeesInvolved >= 0.0 && HourlyRateOrDefault(hourlyRate) >= 0.0 ==> r >= 0
  {
    var rate := HourlyRateOrDefault(hourlyRate);
    Round(hoursPerWeek * employeesInvolved * rate * 52.0)
  }

  /** More hours never cost less, for a non-negative team and rate. */
  lemma LaborCostMonotone(h1: real, h2: real, employees: real, hourlyRate: Option<real>)
    requires h1 <= h2 && employees >= 0.0 && HourlyRateOrDefault(hourlyRate) >= 0.0
    ensures CalculateAnnualLaborCost(h1, employees, hourlyRate) <= CalculateAnnualLaborCost(h2, employees, hourlyRate)
  {
    var rate := HourlyRateOrDefault(hourlyRate);
    var k := employees * rate * 52.0;
    assert k >= 0.0 by {
      assert employees * rate >= 0.0;
    }
    assert h1 * k <= h2 * k by {
      assert (h2 - h1) * k >= 0.0;
    }
    assert h1 * employees * rate * 52.0 == h1 * k;
    assert h2 * employees * rate * 52.0 == h2 * k;
    RoundMonotone(h1 * employees * rate * 52.0, h2 * employees * rate * 52.0);
  }

  // ------------------------------------------------------ automation savings

  datatype Savings = Savings(
    laborSavings: int,
    errorReductionValue: int,
    timeValue: int,
    totalSavings: int,
    conservativeEstimate: int)

  /** adoption x technical success x change management, or 1 without risk. */
  function RiskMultiplier(applyRiskFactors: bool): (m: real)
    ensures applyRiskFactors ==> m == 0.51
    ensures !applyRiskFactors ==> m == 1.0
  {
    if applyRiskFactors then Risk.adoptionRate * Risk.technicalSuccess * Risk.changeManagement
    else 1.0
  }

  /** Labour, plus errors valued at 10% and time at 5% of labour cost. */
  function SavingsWeight(p: Potential): real {
    p.laborReduction + 0.1 * p.errorReduction + 0.05 * p.timeReduction
  }

  /** Unrounded total savings on a labour cost at a given multiplier. */
  function ExactSavings(annualLaborCost: real, m: real, p: Potential): real {
    annualLaborCost * m * SavingsWeight(p)
  }

  /** The spreadsheet cells for one set of reduction ratios and multiplier. */
  function SavingsCells(annualLaborCost: real, p: Potential, m: real): (r: Savings)
    ensures r.totalSavings == Round(ExactSavings(annualLaborCost, m, p))
    ensures r.conservativeEstimate == Round(0.7 * ExactSavings(annualLaborCost, m, p))
    // the parts: labour, errors valued at 10% and time at 5% of the cost
    ensures r.laborSavings == Round(annualLaborCost * p.laborReduction * m)
    ensures r.errorReductionValue == Round(annualLaborCost * p.errorReduction * 0.1 * m)
    ensures r.timeValue == Round(annualLaborCost * p.timeReduction * 0.05 * m)
    ensures -1 <= r.totalSavings - (r.laborSavings + r.errorReductionValue + r.timeValue) <= 1
  {
    var a2 := annualLaborCost * p.laborReduction * m;
    var b2 := annualLaborCost * p.errorReduction * 0.1 * m;
    var c2 := annualLaborCost * p.timeReduction * 0.05 * m;
    var a3 := a2 + b2 + c2;
    var a4 := a3 * 0.7;
    WeightedShares(annualLaborCost, m, p.laborReduction, p.errorReduction, p.timeReduction);
    RoundSumOfThree(a2, b2, c2);
    Savings(Round(a2), Round(b2), Round(c2), Round(a3), Round(a4))
  }

  function CalculateAutomationSavings(processType: string, annualLaborCost: real, applyRiskFactors: bool): (r: Savings)
    ensures var exact := ExactSavings(annualLaborCost, RiskMultiplier(applyRiskFactors), ProcessPotential(processType));
      && r.totalSavings == Round(exact)
      && r.conservativeEstimate == Round(0.7 * exact)
    // the cells of the process's own ratios (or the defaults) at the chosen multiplier
    ensures r == SavingsCells(annualLaborCost, ProcessPotential(processType), RiskMultiplier(applyRiskFactors))
    // each field is rounded on its own, so the parts may miss the total by one
    ensures -1 <= r.totalSavings - (r.laborSavings + r.errorReductionValue + r.timeValue) <= 1
  {
    SavingsCells(annualLaborCost, ProcessPotential(processType), RiskMultiplier(applyRiskFactors))
  }

  /** Each part of a process's savings is its own ratio of the labour cost
      (errors weighted 10%, time 5%) at the chosen multiplier, rounded on
      its own. */
  lemma AutomationSavingsParts(processType: string, annualLaborCost: real, applyRiskFactors: bool)
    ensures var r := CalculateAutomationSavings(processType, annualLaborCost, applyRiskFactors);
      var p, m := ProcessPotential(processType), RiskMultiplier(applyRiskFactors);
      && r.laborSavings == Round(annualLaborCost * p.laborReduction * m)
      && r.errorReductionValue == Round(annualLaborCost * p.errorReduction * 0.1 * m)
      && r.timeValue == Round(annualLaborCost * p.timeReduction * 0.05 * m)
  {
    CellParts(annualLaborCost, ProcessPotential(processType), RiskMultiplier(applyRiskFactors));
  }

  /** The parts of the cells, restated for an arbitrary ratio row. */
  lemma CellParts(annualLaborCost: real, p: Potential, m: real)
    ensures var r := SavingsCells(annualLaborCost, p, m);
      && r.laborSavings == Round(annualLaborCost * p.laborReduction * m)
      && r.errorReductionValue == Round(annualLaborCost * p.errorReduction * 0.1 * m)
      && r.timeValue == Round(annualLaborCost * p.timeReduction * 0.05 * m)
  {
  }

  lemma WeightedShares(cost: real, m: real, lr: real, er: real, tr: real)
    ensures cost * lr * m + cost * er * 0.1 * m + cost * tr * 0.05 * m
         == cost * m * (lr + 0.1 * er + 0.05 * tr)
  {
  }

  /** Rounding three parts separately misses the rounded whole by at most 1. */
  lemma RoundSumOfThree(a: real, b: real, c: real)
    ensures -1 <= Round(a + b + c) - (Round(a) + Round(b) + Round(c)) <= 1
  {
  }

  /** A larger multiplier never lowers the savings of a non-negative cost. */
  lemma ExactSavingsMonotone(cost: real, m1: real, m2: real, p: Potential)
    requires cost >= 0.0 && m1 <= m2 && SavingsWeight(p) >= 0.0
    ensures ExactSavings(cost, m1, p) <= ExactSavings(cost, m2, p)
    ensures cost >= 100.0 && m2 - m1 >= 0.49 && SavingsWeight(p) >= 0.3575 ==>
      ExactSavings(cost, m1, p) + 1.0 <= ExactSavings(cost, m2, p)
  {
    var w := SavingsWeight(p);
    assert ExactSavings(cost, m2, p) - ExactSavings(cost, m1, p) == cost * w * (m2 - m1);
    assert cost * w >= 0.0;
    if cost >= 100.0 && m2 - m1 >= 0.49 && w >= 0.3575 {
      assert cost * w >= 35.75;
      assert cost * w * (m2 - m1) >= cost * w * 0.49;
    }
  }

  /** A larger labour cost never lowers the unrounded savings. */
  lemma ExactSavingsMonotoneInCost(c1: real, c2: real, m: real, p: Potential)
    requires c1 <= c2 && m >= 0.0 && SavingsWeight(p) >= 0.0
    ensures ExactSavings(c1, m, p) <= ExactSavings(c2, m, p)
  {
    var k := m * SavingsWeight(p);
    assert k >= 0.0;
    MulMonotone(c1, c2, k);
    assert ExactSavings(c1, m, p) == c1 * k;
    assert ExactSavings(c2, m, p) == c2 * k;
  }

  /** Every process's weight is at least the smallest the tables allow. */
  lemma WeightAtLeast(processType: string)
    ensures SavingsWeight(ProcessPotential(processType)) >= 0.3575
  {
  }

  /** Turning the risk discount off never lowers a non-negative cost's
      savings, and for a cost of 100 or more strictly raises them. */
  lemma RiskDiscountLowersSavings(processType: string, annualLaborCost: real)
    requires annualLaborCost >= 0.0
    ensures CalculateAutomationSavings(processType, annualLaborCost, true).totalSavings
         <= CalculateAutomationSavings(processType, annualLaborCost, false).totalSavings
    ensures annualLaborCost >= 100.0 ==>
      CalculateAutomationSavings(processType, annualLaborCost, true).totalSavings
      < CalculateAutomationSavings(processType, annualLaborCost, false).totalSavings
  {
    var p := ProcessPotential(processType);
    WeightAtLeast(processType);
    ExactSavingsMonotone(annualLaborCost, RiskMultiplier(true), RiskMultiplier(false), p);
    var on := ExactSavings(annualLaborCost, RiskMultiplier(true), p);
    var off := ExactSavings(annualLaborCost, RiskMultiplier(false), p);
    RoundMonotone(on, off);
    if annualLaborCost >= 100.0 {
      RoundStrict(on, off);
    }
  }

  /** Positive risk-adjusted figures for a given set of ratios. */
  lemma CellsPositive(cost: real, p: Potential)
    requires cost >= 100.0
    requires AtLeastDefault(p)
    ensures var r := SavingsCells(cost, p, 0.51);
      r.laborSavings > 0 && r.errorReductionValue > 0 && r.timeValue > 0
      && r.totalSavings > 0 && r.conservativeEstimate > 0
  {
    assert cost * p.timeReduction >= 35.0;
    assert cost * p.errorReduction >= 40.0;
    assert cost * p.laborReduction >= 30.0;
    assert ExactSavings(cost, 0.51, p) == cost * 0.51 * SavingsWeight(p);
    assert cost * SavingsWeight(p) >= 35.75;
  }

  /** Any process name, known or not, yields five positive risk-adjusted
      figures once the labour cost is 100 or more. */
  lemma SavingsPositive(processType: string, annualLaborCost: real)
    requires annualLaborCost >= 100.0
    ensures var r := CalculateAutomationSavings(processType, annualLaborCost, true);
      r.laborSavings > 0 && r.errorReductionValue > 0 && r.timeValue > 0
      && r.totalSavings > 0 && r.conservativeEstimate > 0
  {
    CellsPositive(annualLaborCost, ProcessPotential(processType));
  }

  /** An unknown process is costed with the {0.30, 0.40, 0.35} defaults. */
  lemma UnknownProcessUsesDefaults(processType: string, annualLaborCost: real, applyRiskFactors: bool)
    requires processType !in Keys(AutomationPotential)
    ensures CalculateAutomationSavings(processType, annualLaborCost, applyRiskFactors)
         == SavingsCells(annualLaborCost, Potential(0.30, 0.40, 0.35), RiskMultiplier(applyRiskFactors))
  {
  }

  // ------------------------------------------------------ five-year projection

  datatype Projection = Projection(
    year1: int, year2: int, year3: int, year4: int, year5: int,
    totalRoi: int, paybackMonths: int, npv: int)

  /** The five unrounded yearly net cash flows: half the savings in year 1
      with the whole implementation cost, then full savings with a linear
      3%-per-year uplift; maintenance is charged every year. */
  function CashFlows(annualSavings: real, implementationCost: real, maintenanceCostAnnual: real): (c: seq<real>)
    ensures |c| == 5
    ensures c[1] == annualSavings - maintenanceCostAnnual
    ensures c[1] - c[0] == 0.5 * annualSavings + implementationCost
    ensures forall k :: 2 <= k < 5 ==> c[k] - c[1] == 0.03 * (k - 1) as real * annualSavings
  {
    [ annualSavings * 0.5 - implementationCost - maintenanceCostAnnual,
      annualSavings - maintenanceCostAnnual,
      annualSavings * 1.03 - maintenanceCostAnnual,
      annualSavings * 1.06 - maintenanceCostAnnual,
      annualSavings * 1.09 - maintenanceCostAnnual ]
  }

  function Sum(c: seq<real>): real {
    if |c| == 0 then 0.0 else c[0] + Sum(c[1..])
  }

  function Pow(base: real, n: nat): (r: real)
    requires base > 0.0
    ensures r > 0.0
  {
    if n == 0 then 1.0 else base * Pow(base, n - 1)
  }

  /** Present value of cash flows for years start+1, start+2, ... at rate 10%. */
  function PresentValue(c: seq<real>, start: nat): real {
    if |c| == 0 then 0.0 else c[0] / Pow(1.1, start + 1) + PresentValue(c[1..], start + 1)
  }

  /** Net benefit per month in year-1 terms. */
  function MonthlyNetBenefit(annualSavings: real, maintenanceCostAnnual: real): real {
    (annualSavings * 0.5 - maintenanceCostAnnual) / 12.0
  }

  /** Months until the monthly net benefit covers the implementation cost;
      999 when there is no positive benefit; capped at 60. */
  function PaybackMonths(annualSavings: real, implementationCost: real, maintenanceCostAnnual: real): (r: int)
    ensures r <= 60
    ensures var b := MonthlyNetBenefit(annualSavings, maintenanceCostAnnual);
      && (b <= 0.0 ==> r == 60)
      && (b > 0.0 ==> r == MinInt(Ceil(implementationCost / b), 60))
      // below the cap, r is the least whole number of months that pays back
      && (b > 0.0 && r < 60 ==> r as real * b >= implementationCost && (r - 1) as real * b < implementationCost)
    ensures implementationCost >= 0.0 ==> r >= 0
  {
    var b := MonthlyNetBenefit(annualSavings, maintenanceCostAnnual);
    var months := if b > 0.0 then Ceil(implementationCost / b) else 999;
    CeilPaysBack(implementationCost, b);
    MinInt(months, 60)
  }

  /** Ceil(cost / benefit) whole months of a positive benefit cover the
      cost, and one month fewer does not. */
  lemma CeilPaysBack(cost: real, benefit: real)
    ensures benefit > 0.0 ==>
      && Ceil(cost / benefit) as real * benefit >= cost
      && (Ceil(cost / benefit) - 1) as real * benefit < cost
  {
    if benefit > 0.0 {
      var c := Ceil(cost / benefit);
      BelowQuotient(cost, benefit, c as real, (c - 1) as real);
    }
  }

  /** Multiplying back through a positive divisor keeps the order. */
  lemma BelowQuotient(cost: real, benefit: real, above: real, below: real)
    requires benefit > 0.0 && below < cost / benefit <= above
    ensures below * benefit < cost <= above * benefit
  {
    var q := cost / benefit;
    assert q * benefit == cost;
    MulMonotone(q, above, benefit);
    assert cost <= above * benefit;
    MulStrict(below, q, benefit);
    calc {
      below * benefit;
    <  q * benefit;
    == cost;
    }
  }

  function Calculate5YearRoi(annualSavings: real, implementationCost: real, maintenanceCostAnnual: real): (r: Projection)
    ensures var c := CashFlows(annualSavings, implementationCost, maintenanceCostAnnual);
      && r.year1 == Round(c[0]) && r.year2 == Round(c[1]) && r.year3 == Round(c[2])
      && r.year4 == Round(c[3]) && r.year5 == Round(c[4])
      && r.totalRoi == Round(Sum(c))
      && r.npv == Round(PresentValue(c, 0))
    ensures r.paybackMonths == PaybackMonths(annualSavings, implementationCost, maintenanceCostAnnual)
  {
    var d1 := 0.10;
    var a2 := annualSavings * 0.5 - implementationCost - maintenanceCostAnnual;
    var b2 := annualSavings - maintenanceCostAnnual;
    var c2 := annualSavings * 1.03 - maintenanceCostAnnual;
    var d2 := annualSavings * 1.06 - maintenanceCostAnnual;
    var e2 := annualSavings * 1.09 - maintenanceCostAnnual;
    var total := a2 + b2 + c2 + d2 + e2;
    var npv := a2 / Pow(1.0 + d1, 1) + b2 / Pow(1.0 + d1, 2) + c2 / Pow(1.0 + d1, 3)
             + d2 / Pow(1.0 + d1, 4) + e2 / Pow(1.0 + d1, 5);
    CashFlowTotals(annualSavings, implementationCost, maintenanceCostAnnual);
    Projection(Round(a2), Round(b2), Round(c2), Round(d2), Round(e2), Round(total),
               PaybackMonths(annualSavings, implementationCost, maintenanceCostAnnual), Round(npv))
  }

  /** The spreadsheet's total and NPV cells agree with the recursive
      definitions of a sum and of a present value at 10%. */
  lemma CashFlowTotals(s: real, i: real, m: real)
    ensures var c := CashFlows(s, i, m);
      && Sum(c) == c[0] + c[1] + c[2] + c[3] + c[4]
      && PresentValue(c, 0) == c[0] / Pow(1.1, 1) + c[1] / Pow(1.1, 2) + c[2] / Pow(1.1, 3)
                             + c[3] / Pow(1.1, 4) + c[4] / Pow(1.1, 5)
  {
    var c := CashFlows(s, i, m);
    assert c[4..][1..] == [];
    assert c[3..][1..] == c[4..];
    assert c[2..][1..] == c[3..];
    assert c[1..][1..] == c[2..];
    assert Sum(c[4..]) == c[4];
    assert Sum(c[3..]) == c[3] + c[4];
    assert Sum(c[2..]) == c[2] + c[3] + c[4];
    assert Sum(c[1..]) == c[1] + c[2] + c[3] + c[4];
    assert PresentValue(c[4..], 4) == c[4] / Pow(1.1, 5);
    assert PresentValue(c[3..], 3) == c[3] / Pow(1.1, 4) + c[4] / Pow(1.1, 5);
    assert PresentValue(c[2..], 2) == c[2] / Pow(1.1, 3) + c[3] / Pow(1.1, 4) + c[4] / Pow(1.1, 5);
    assert PresentValue(c[1..], 1)
        == c[1] / Pow(1.1, 2) + c[2] / Pow(1.1, 3) + c[3] / Pow(1.1, 4) + c[4] / Pow(1.1, 5);
  }

  /** Ramp-up: with non-negative savings and implementation cost, year 1
      never beats year 2, and falls strictly below it once the gap between
      the unrounded cells, 0.5 x savings + implementation, reaches 1. */
  lemma RampUp(s: real, i: real, m: real)
    requires s >= 0.0 && i >= 0.0
    ensures var r := Calculate5YearRoi(s, i, m);
      && r.year1 <= r.year2
      && (0.5 * s + i >= 1.0 ==> r.year1 < r.year2)
  {
    var c := CashFlows(s, i, m);
    RoundMonotone(c[0], c[1]);
    if 0.5 * s + i >= 1.0 {
      RoundStrict(c[0], c[1]);
    }
  }

  /** Years 3 to 5 grow linearly over year 2, so they never fall for
      non-negative savings. */
  lemma LaterYearsGrow(s: real, i: real, m: real)
    requires s >= 0.0
    ensures var r := Calculate5YearRoi(s, i, m);
      r.year2 <= r.year3 <= r.year4 <= r.year5
  {
    var c := CashFlows(s, i, m);
    assert c[2] - c[1] == 0.03 * s;
    assert c[3] - c[1] == 0.06 * s;
    assert c[4] - c[1] == 0.09 * s;
    RoundMonotone(c[1], c[2]);
    RoundMonotone(c[2], c[3]);
    RoundMonotone(c[3], c[4]);
  }

  /** The default costing used by the API and by research: implementation at
      15% of savings and maintenance at 10% of that always pays back in
      month 4, since 0.15 x 12 / (0.5 - 0.015) is about 3.71. */
  lemma DefaultCostsPayBackInFourMonths(s: real)
    requires s > 0.0
    ensures PaybackMonths(s, s * 0.15, s * 0.15 * 0.10) == 4
  {
    var b := MonthlyNetBenefit(s, s * 0.15 * 0.10);
    assert b == s * 0.485 / 12.0;
    assert b > 0.0;
    var q := (s * 0.15) / b;
    assert q * b == s * 0.15;
    assert q == 360.0 / 97.0 by {
      assert (360.0 / 97.0) * b == s * 0.15;
    }
    assert Ceil(q) == 4;
  }

  // ------------------------------------------------------ company opportunity

  datatype Confidence = High | Medium | Low

  datatype Allocation = Allocation(process: string, allocation: real, confidence: Confidence)

  /** The fixed share of the conservative target each process is credited with. */
  const ProcessAllocations: seq<Allocation> := [
    Allocation("Invoice Processing", 0.12, High),
    Allocation("Customer Support", 0.18, High),
    Allocation("Contract Review", 0.08, Confidence.Medium),
    Allocation("Compliance Audit", 0.10, Confidence.Medium),
    Allocation("HR Onboarding", 0.07, High),
    Allocation("Report Generation", 0.15, High),
    Allocation("Data Entry", 0.10, High),
    Allocation("Email Management", 0.08, Confidence.Medium),
    Allocation("Document Classification", 0.12, High)
  ]

  datatype ProcessOpportunity = ProcessOpportunity(process: string, opportunity: int, confidence: Confidence)

  datatype Opportunity = Opportunity(
    currentSga: int,
    industryBenchmark: int,
    sgaGap: int,
    totalOpportunity: int,
    conservativeTarget: int,
    processBreakdown: seq<ProcessOpportunity>)

  function AllocationTotal(a: seq<Allocation>): real {
    if |a| == 0 then 0.0 else a[0].allocation + AllocationTotal(a[1..])
  }

  function OpportunityTotal(p: seq<ProcessOpportunity>): int {
    if |p| == 0 then 0 else p[0].opportunity + OpportunityTotal(p[1..])
  }

  /** The allocation shares add up to exactly 1. */
  lemma AllocationsSumToOne()
    ensures AllocationTotal(ProcessAllocations) == 1.0
  {
    var a := ProcessAllocations;
    assert AllocationTotal(a[8..]) == 0.12 by { assert a[8..][1..] == []; }
    assert a[7..][1..] == a[8..];
    assert a[6..][1..] == a[7..];
    assert a[5..][1..] == a[6..];
    assert a[4..][1..] == a[5..];
    assert a[3..][1..] == a[4..];
    assert a[2..][1..] == a[3..];
    assert a[1..][1..] == a[2..];
  }

  /** Each process's share of `target`, rounded, in table order. */
  function Breakdown(target: real, allocations: seq<Allocation>): (r: seq<ProcessOpportunity>)
    ensures |r| == |allocations|
  {
    if |allocations| == 0 then []
    else
      var a := allocations[0];
      [ProcessOpportunity(a.process, Round(target * a.allocation), a.confidence)]
      + Breakdown(target, allocations[1..])
  }

  /** Row k of the breakdown is process k's rounded share, with its
      confidence. */
  lemma {:induction false} BreakdownRows(target: real, allocations: seq<Allocation>)
    ensures var r := Breakdown(target, allocations);
      forall k :: 0 <= k < |r| ==>
        && r[k].process == allocations[k].process
        && r[k].confidence == allocations[k].confidence
        && r[k].opportunity == Round(target * allocations[k].allocation)
  {
    if |allocations| > 0 {
      BreakdownRows(target, allocations[1..]);
      assert Breakdown(target, allocations)[1..] == Breakdown(target, allocations[1..]);
    }
  }

  /** The rounded shares account for the whole allocated target up to half
      a dollar per row. */
  lemma {:induction false} BreakdownTotal(target: real, allocations: seq<Allocation>)
    ensures var r := Breakdown(target, allocations);
      -0.5 * |r| as real <= OpportunityTotal(r) as real - target * AllocationTotal(allocations) <= 0.5 * |r| as real
  {
    if |allocations| > 0 {
      var r := Breakdown(target, allocations);
      BreakdownTotal(target, allocations[1..]);
      assert r[1..] == Breakdown(target, allocations[1..]);
      assert target * AllocationTotal(allocations)
          == target * allocations[0].allocation + target * AllocationTotal(allocations[1..]);
    }
  }

  /** `sgaPercent || industryData.avg`: an omitted or zero override falls
      back to the industry average. */
  function ActualSga(ratios: SgaRatios, sgaPercent: Option<real>): (r: real)
    ensures (sgaPercent.None? || sgaPercent == Some(0.0)) ==> r == ratios.avg
    ensures sgaPercent.Some? && sgaPercent.value != 0.0 ==> r == sgaPercent.value
  {
    if sgaPercent.Some? && sgaPercent.value != 0.0 then sgaPercent.value else ratios.avg
  }

  /** The unrounded gap between current and efficient SG&A spend. */
  function SgaGap(revenue: real, actualSga: real, efficient: real): real {
    revenue * (actualSga - efficient)
  }

  /** The spreadsheet cells for an SG&A share and an efficient benchmark. */
  function OpportunityCells(revenue: real, actualSga: real, efficient: real): (r: Opportunity)
    ensures r.currentSga == Round(revenue * actualSga)
    ensures r.industryBenchmark == Round(revenue * efficient)
    // the gap is signed and never clamped; the total opportunity is the gap itself
    ensures r.sgaGap == r.totalOpportunity == Round(SgaGap(revenue, actualSga, efficient))
    ensures r.conservativeTarget == Round(0.3 * SgaGap(revenue, actualSga, efficient))
    ensures r.processBreakdown == Breakdown(0.3 * SgaGap(revenue, actualSga, efficient), ProcessAllocations)
  {
    var currentSgaCost := revenue * actualSga;
    var efficientSgaCost := revenue * efficient;
    // currentSgaCost - efficientSgaCost, factored
    var sgaGap := SgaGap(revenue, actualSga, efficient);
    var conservativeTarget := 0.3 * sgaGap;
    Opportunity(Round(currentSgaCost), Round(efficientSgaCost), Round(sgaGap), Round(sgaGap),
                Round(conservativeTarget), Breakdown(conservativeTarget, ProcessAllocations))
  }

  /** The reported cells agree with each other: the gap is the difference of
      the two reported spends up to a dollar, the target is 30% of the
      reported gap up to 65 cents, and the nine breakdown rows add up to
      the unrounded target within $4.50 and to the reported one within $5. */
  lemma OpportunityCellsConsistent(revenue: real, actualSga: real, efficient: real)
    ensures var r := OpportunityCells(revenue, actualSga, efficient);
      && -1 <= r.sgaGap - (r.currentSga - r.industryBenchmark) <= 1
      && -0.65 <= r.conservativeTarget as real - 0.3 * r.sgaGap as real <= 0.65
      && -4.5 <= OpportunityTotal(r.processBreakdown) as real - 0.3 * SgaGap(revenue, actualSga, efficient) <= 4.5
      && -5 <= OpportunityTotal(r.processBreakdown) - r.conservativeTarget <= 5
  {
    var gap := SgaGap(revenue, actualSga, efficient);
    assert gap == revenue * actualSga - revenue * efficient;
    ProcessBreakdownNearTarget(0.3 * gap);
  }

  /** The breakdown over the nine process allocations adds up to the target within $4.50. */
  lemma ProcessBreakdownNearTarget(target: real)
    ensures -4.5 <= OpportunityTotal(Breakdown(target, ProcessAllocations)) as real - target <= 4.5
  {
    AllocationsSumToOne();
    BreakdownOfUnitShares(target, ProcessAllocations);
  }

  /** Nine rounded shares that sum to one add up to the target within $4.50. */
  lemma BreakdownOfUnitShares(target: real, allocations: seq<Allocation>)
    requires |allocations| == 9 && AllocationTotal(allocations) == 1.0
    ensures -4.5 <= OpportunityTotal(Breakdown(target, allocations)) as real - target <= 4.5
  {
    BreakdownTotal(target, allocations);
  }

  /** The industry's row, or the Default row when it has none; the SG&A
      share is the override when one is given and non-zero. */
  function CalculateCompanyOpportunity(revenue: real, employees: real, industry: string, sgaPercent: Option<real>): (r: Opportunity)
    ensures industry in Keys(SgaByIndustry) ==>
      exists k :: 0 <= k < |SgaByIndustry| && SgaByIndustry[k].0 == industry
        && r == OpportunityCells(revenue, ActualSga(SgaByIndustry[k].1, sgaPercent), SgaByIndustry[k].1.efficient)
    ensures industry !in Keys(SgaByIndustry) ==>
      r == OpportunityCells(revenue, ActualSga(DefaultSgaRatios(), sgaPercent), DefaultSgaRatios().efficient)
    ensures |r.processBreakdown| == |ProcessAllocations|
  {
    var industryData := IndustryRatios(industry);
    OpportunityCells(revenue, ActualSga(industryData, sgaPercent), industryData.efficient)
  }

  /** The employee count has no influence on any figure. */
  lemma EmployeesIgnored(revenue: real, e1: real, e2: real, industry: string, sgaPercent: Option<real>)
    ensures CalculateCompanyOpportunity(revenue, e1, industry, sgaPercent)
         == CalculateCompanyOpportunity(revenue, e2, industry, sgaPercent)
  {
  }

  /** An explicit override of 0 gives the same result as no override. */
  lemma ZeroOverrideIsIgnored(revenue: real, employees: real, industry: string)
    ensures CalculateCompanyOpportunity(revenue, employees, industry, Some(0.0))
         == CalculateCompanyOpportunity(revenue, employees, industry, None)
  {
    var b := IndustryRatios(industry);
    assert ActualSga(b, Some(0.0)) == ActualSga(b, None);
  }

  /** Cells version of revenue monotonicity. */
  lemma CellsMonotoneInRevenue(r1: real, r2: real, actualSga: real, efficient: real)
    requires r1 <= r2 && actualSga >= efficient
    ensures OpportunityCells(r1, actualSga, efficient).totalOpportunity
         <= OpportunityCells(r2, actualSga, efficient).totalOpportunity
    ensures OpportunityCells(r1, actualSga, efficient).conservativeTarget
         <= OpportunityCells(r2, actualSga, efficient).conservativeTarget
  {
    var g1 := SgaGap(r1, actualSga, efficient);
    var g2 := SgaGap(r2, actualSga, efficient);
    MulMonotone(r1, r2, actualSga - efficient);
    assert g1 <= g2;
    RoundMonotone(g1, g2);
    RoundMonotone(0.3 * g1, 0.3 * g2);
  }

  /** For a fixed industry, and an SG&A share no lower than the efficient
      benchmark (always so without an override), more revenue never lowers
      the total opportunity or the conservative target. */
  lemma OpportunityMonotoneInRevenue(r1: real, r2: real, employees: real, industry: string, sgaPercent: Option<real>)
    requires r1 <= r2
    requires ActualSga(IndustryRatios(industry), sgaPercent) >= IndustryRatios(industry).efficient
    ensures CalculateCompanyOpportunity(r1, employees, industry, sgaPercent).totalOpportunity
         <= CalculateCompanyOpportunity(r2, employees, industry, sgaPercent).totalOpportunity
    ensures CalculateCompanyOpportunity(r1, employees, industry, sgaPercent).conservativeTarget
         <= CalculateCompanyOpportunity(r2, employees, industry, sgaPercent).conservativeTarget
  {
    var b := IndustryRatios(industry);
    CellsMonotoneInRevenue(r1, r2, ActualSga(b, sgaPercent), b.efficient);
  }

  /** Without an override the SG&A share is the industry average, which
      always exceeds the efficient benchmark, so the gap is never negative. */
  lemma DefaultShareAboveEfficient(industry: string)
    ensures ActualSga(IndustryRatios(industry), None) > IndustryRatios(industry).efficient
  {
  }

  /** Once the gap is at least 2, the conservative target is strictly below
      the total opportunity. */
  lemma ConservativeBelowTotal(revenue: real, employees: real, industry: string, sgaPercent: Option<real>)
    requires CalculateCompanyOpportunity(revenue, employees, industry, sgaPercent).sgaGap >= 2
    ensures CalculateCompanyOpportunity(revenue, employees, industry, sgaPercent).conservativeTarget
          < CalculateCompanyOpportunity(revenue, employees, industry, sgaPercent).totalOpportunity
  {
    var b := IndustryRatios(industry);
    var g := SgaGap(revenue, ActualSga(b, sgaPercent), b.efficient);
    assert g >= 1.5;
    RoundStrict(0.3 * g, g);
  }

  /** The examples the repository's tests pin. */
  lemma SizeExamples()
    ensures ClassifyCompanySize(50.0) == Small && ClassifyCompanySize(99.0) == Small
    ensures ClassifyCompanySize(100.0) == CompanySize.Medium && ClassifyCompanySize(500.0) == CompanySize.Medium
    ensures ClassifyCompanySize(1000.0) == Large && ClassifyCompanySize(5000.0) == Large
    ensures ClassifyCompanySize(10000.0) == Enterprise && ClassifyCompanySize(50000.0) == Enterprise
  {
  }

  lemma RoiExample()
    ensures var p := Calculate5YearRoi(10000000.0, 2000000.0, 500000.0);
      p.year1 < p.year2 < p.year3 && p.totalRoi > 0 && p.paybackMonths == 6
  {
    assert MonthlyNetBenefit(10000000.0, 500000.0) == 375000.0;
    assert Ceil(2000000.0 / 375000.0) == 6;
  }

  /** Two rows of the industry table, looked up by name. */
  lemma IndustryRowExamples()
    ensures IndustryRatios("Technology") == SgaRatios(0.35, 0.25, 0.45)
    ensures IndustryRatios("Manufacturing") == SgaRatios(0.20, 0.15, 0.28)
  {
    assert Keys(SgaByIndustry)[0] == "Technology";
    assert Keys(SgaByIndustry)[3] == "Manufacturing";
    SgaTableWellFormed();
  }

  lemma CellsExamples()
    ensures OpportunityCells(100000000.0, 0.35, 0.25).totalOpportunity == 10000000
    ensures OpportunityCells(100000000.0, 0.20, 0.15).totalOpportunity == 5000000
    ensures OpportunityCells(50000000.0, 0.35, 0.25).totalOpportunity == 5000000
    ensures OpportunityCells(500000000.0, 0.35, 0.25).totalOpportunity == 50000000
  {
    assert SgaGap(100000000.0, 0.35, 0.25) == 10000000.0;
    assert SgaGap(100000000.0, 0.20, 0.15) == 5000000.0;
    assert SgaGap(50000000.0, 0.35, 0.25) == 5000000.0;
    assert SgaGap(500000000.0, 0.35, 0.25) == 50000000.0;
  }

  lemma OpportunityExamples()
    ensures CalculateCompanyOpportunity(100000000.0, 500.0, "Technology", None).totalOpportunity == 10000000
    ensures CalculateCompanyOpportunity(100000000.0, 500.0, "Manufacturing", None).totalOpportunity == 5000000
    ensures CalculateCompanyOpportunity(50000000.0, 200.0, "Technology", None).totalOpportunity == 5000000
    ensures CalculateCompanyOpportunity(500000000.0, 2000.0, "Technology", None).totalOpportunity == 50000000
  {
    IndustryRowExamples();
    CellsExamples();
  }
}

=== FILE: company_research.dfy ===
/** Company research: the post-processing around the language-model calls.
    Each reply of the model is an input here: `None` stands for a call that
    threw (or a reply that did not parse), and the parsed reply is a record.
    The domain normalisation, the benchmark fallback, the cost derivation,
    the data-quality label, the top-five selection with its rationale
    fallbacks and the fail-closed quick lookup are modelled in full, with
    case mapping limited to ASCII letters. */
module CompanyResearch {
  import opened Wrappers
  import opened Numeric
  import opened Text
  import opened Ranking
  import opened Benchmarks
  import opened CalculationEngine

  // -------------------------------------------------------- domain cleaning

  /** The characters a regular expression's `.` does not match. */
  predicate IsLineTerminator(c: char) {
    c == '\n' || c == '\r' || c == '\U{2028}' || c == '\U{2029}'
  }

  predicate NoLineBreak(s: string) {
    forall i :: 0 <= i < |s| ==> !IsLineTerminator(s[i])
  }

  /** `^(https?:\/\/)?`: at most one leading scheme. */
  function StripScheme(s: string): (r: string)
    ensures StartsWith(s, "https://") ==> r == s[8..]
    ensures !StartsWith(s, "https://") && StartsWith(s, "http://") ==> r == s[7..]
    ensures !StartsWith(s, "https://") && !StartsWith(s, "http://") ==> r == s
  {
    if StartsWith(s, "https://") then s[8..]
    else if StartsWith(s, "http://") then s[7..]
    else s
  }

  /** `(www\.)?` right after the scheme: at most one `www.`. */
  function StripWww(s: string): (r: string)
    ensures StartsWith(s, "www.") ==> r == s[4..]
    ensures !StartsWith(s, "www.") ==> r == s
  {
    if StartsWith(s, "www.") then s[4..] else s
  }

  /** `.replace(/\/.*$/, '')`: the match starts at the leftmost '/' from
      which `.*` can reach the end of the input, that is the leftmost '/'
      with no line terminator after it; everything from there is dropped. */
  function CutPath(s: string): (r: string)
    ensures |r| <= |s| && r == s[..|r|]
  {
    if |s| == 0 then []
    else if s[0] == '/' && NoLineBreak(s[1..]) then []
    else [s[0]] + CutPath(s[1..])
  }

  /** On a single line, the cut happens at the first '/', so what is kept
      has no '/' at all. */
  lemma {:induction false} CutPathAtFirstSlash(s: string)
    requires NoLineBreak(s)
    ensures '/' !in CutPath(s)
    ensures |CutPath(s)| < |s| ==> s[|CutPath(s)|] == '/'
    ensures '/' !in s ==> CutPath(s) == s
  {
    if |s| > 0 && s[0] != '/' {
      CutPathAtFirstSlash(s[1..]);
      assert CutPath(s) == [s[0]] + CutPath(s[1..]);
    }
  }

  /** The normalisation both entry points apply: lower-case, drop one
      scheme, drop one `www.`, drop the path. */
  function CleanDomain(domain: string): (r: string)
    ensures var stripped := StripWww(StripScheme(Lower(domain)));
      |r| <= |stripped| && r == stripped[..|r|]
  {
    CutPath(StripWww(StripScheme(Lower(domain))))
  }

  /** Lower-casing leaves line terminators where they are. */
  lemma LowerKeepsLines(s: string)
    requires NoLineBreak(s)
    ensures NoLineBreak(Lower(s))
  {
  }

  /** Dropping the scheme and one `www.` keeps a suffix of the text. */
  lemma StripsKeepSuffix(s: string)
    ensures var t := StripWww(StripScheme(s)); |t| <= |s| && t == s[|s| - |t|..]
  {
  }

  /** A prefix of a suffix is a slice. */
  lemma SliceOfSuffix(s: string, k: nat, n: nat)
    requires k + n <= |s|
    ensures s[k..][..n] == s[k..k + n]
  {
  }

  /** A slice of a single-line text is on one line. */
  lemma SliceNoLineBreak(s: string, k: nat, n: nat)
    requires NoLineBreak(s) && k <= n <= |s|
    ensures NoLineBreak(s[k..n])
  {
    forall i | 0 <= i < n - k
      ensures !IsLineTerminator(s[k..n][i])
    {
      assert s[k..n][i] == s[k + i];
    }
  }

  /** A slice of a text without ASCII capitals has none either. */
  lemma SliceNoCapital(s: string, k: nat, n: nat)
    requires forall i :: 0 <= i < |s| ==> !('A' <= s[i] <= 'Z')
    requires k <= n <= |s|
    ensures forall i :: 0 <= i < n - k ==> !('A' <= s[k..n][i] <= 'Z')
  {
    forall i | 0 <= i < n - k
      ensures !('A' <= s[k..n][i] <= 'Z')
    {
      assert s[k..n][i] == s[k + i];
    }
  }

  /** A domain on one line is cleaned to its host part: no '/', no ASCII
      capital, and the whole stripped text when it had no path. */
  lemma CleanDomainIsHost(domain: string)
    requires NoLineBreak(domain)
    ensures '/' !in CleanDomain(domain)
    ensures forall i :: 0 <= i < |CleanDomain(domain)| ==> !('A' <= CleanDomain(domain)[i] <= 'Z')
    ensures var stripped := StripWww(StripScheme(Lower(domain)));
      '/' !in stripped ==> CleanDomain(domain) == stripped
  {
    LowerKeepsLines(domain);
    HostOfLowerText(Lower(domain));
  }

  /** The host part of a single-line text without capitals. */
  lemma HostOfLowerText(lower: string)
    requires NoLineBreak(lower)
    requires forall i :: 0 <= i < |lower| ==> !('A' <= lower[i] <= 'Z')
    ensures var stripped := StripWww(StripScheme(lower));
      && '/' !in CutPath(stripped)
      && (forall i :: 0 <= i < |CutPath(stripped)| ==> !('A' <= CutPath(stripped)[i] <= 'Z'))
      && ('/' !in stripped ==> CutPath(stripped) == stripped)
  {
    var stripped := StripWww(StripScheme(lower));
    StripsKeepSuffix(lower);
    var k := |lower| - |stripped|;
    SliceNoLineBreak(lower, k, |lower|);
    CutPathAtFirstSlash(stripped);
    var r := CutPath(stripped);
    assert stripped == lower[k..];
    assert r == stripped[..|r|];
    SliceOfSuffix(lower, k, |r|);
    SliceNoCapital(lower, k, k + |r|);
  }

  /** A URL whose lower case is `https://www.` + host + path, the host
      without '/' and the path on one line, comes out as the host. */
  lemma CleanDomainOfUrl(domain: string, host: string, path: string)
    requires Lower(domain) == "https://www." + host + path
    requires '/' !in host
    requires |path| > 0 && path[0] == '/' && NoLineBreak(path[1..])
    ensures CleanDomain(domain) == host
  {
    var lower := "https://www." + host + path;
    assert lower[..8] == "https://" && lower[8..] == "www." + host + path;
    var rest := lower[8..];
    assert rest[..4] == "www." && rest[4..] == host + path;
    CutPathPrefix(host, path);
  }

  lemma CleanDomainDropsSchemeWwwAndPath()
    ensures CleanDomain("HTTPS://www.Ab.io/x") == "ab.io"
  {
    var s := "HTTPS://www.Ab.io/x";
    var lower := "https://www." + "ab.io" + "/x";
    assert Lower(s) == lower by {
      forall i | 0 <= i < |s|
        ensures Lower(s)[i] == lower[i]
      {
      }
    }
    assert NoLineBreak("/x"[1..]);
    CleanDomainOfUrl(s, "ab.io", "/x");
  }

  /** A text that differs from `prefix` at index `i` does not start with it. */
  lemma DiffersAt(s: string, prefix: string, i: nat)
    requires i < |prefix| && i < |s| && s[i] != prefix[i]
    ensures !StartsWith(s, prefix)
  {
    if |prefix| <= |s| {
      assert s[..|prefix|][i] == s[i];
    }
  }

  /** A lower-case host on one line, without a path, behind `www.` comes
      out as the host. */
  lemma CleanDomainDropsWww(host: string)
    requires NoLineBreak(host) && '/' !in host
    requires forall i :: 0 <= i < |host| ==> !('A' <= host[i] <= 'Z')
    ensures CleanDomain("www." + host) == host
  {
    var s := "www." + host;
    assert s[..4] == "www." && s[4..] == host;
    assert forall i :: 4 <= i < |s| ==> s[i] == host[i - 4];
    assert Lower(s) == s by { LowerIdempotent(s); }
    DiffersAt(s, "https://", 0);
    DiffersAt(s, "http://", 0);
    CleanDomainIsHost(s);
  }

  /** Only one `www.` goes. */
  lemma CleanDomainDropsOneWww()
    ensures CleanDomain("www.www.a") == "www.a"
  {
    assert "www." + "www.a" == "www.www.a";
    CleanDomainDropsWww("www.a");
  }

  /** A '/' with a line break after it is out of the pattern's reach. */
  lemma CleanDomainKeepsSlashBeforeLineBreak()
    ensures CleanDomain("a/b\nc") == "a/b\nc"
  {
    var s := "a/b\nc";
    DiffersAt(s, "www.", 0);
    assert Lower(s) == s;
    assert s[1..][1..] == "b\nc";
    assert !NoLineBreak(s[1..][1..]) by { assert IsLineTerminator(s[1..][1..][1]); }
    assert CutPath(s[1..][1..][1..][1..]) == "c";
    assert CutPath(s[1..][1..][1..]) == "\nc";
    assert CutPath(s[1..][1..]) == "b\nc";
    assert CutPath(s[1..]) == "/b\nc";
  }

  /** Text before the path with no '/' in it passes through the cut. */
  lemma {:induction false} CutPathPrefix(host: string, path: string)
    requires '/' !in host
    requires |path| > 0 && path[0] == '/' && NoLineBreak(path[1..])
    ensures CutPath(host + path) == host
  {
    if |host| > 0 {
      assert (host + path)[1..] == host[1..] + path;
      CutPathPrefix(host[1..], path);
    } else {
      assert host + path == path;
    }
  }

  // ---------------------------------------------------------- the AI reply

  datatype Source = Public | Estimated

  datatype Maturity = Leader | Adopter | Laggard

  datatype Competitor = Competitor(name: string, aiMaturity: Maturity, knownInitiatives: seq<string>)

  /** The parsed reply of the research prompt. */
  datatype CompanyReply = CompanyReply(
    companyName: string,
    industry: string,
    subIndustry: string,
    revenue: real,
    revenueSource: Source,
    employees: real,
    employeesSource: Source,
    competitors: seq<Competitor>,
    publicDataAvailable: bool,
    estimationNotes: Option<seq<string>>)

  // ------------------------------------------------------------ data quality

  datatype DataQuality = DataQuality(overallConfidence: Confidence, publicDataAvailable: bool, estimationNotes: seq<string>)

  /** High for public data with a public revenue figure, Medium for public
      data with an estimated revenue, Low when there is no public data. */
  function OverallConfidence(publicDataAvailable: bool, revenueSource: Source): (r: Confidence)
    ensures r == High <==> publicDataAvailable && revenueSource == Public
    ensures r == Confidence.Medium <==> publicDataAvailable && revenueSource != Public
    ensures r == Low <==> !publicDataAvailable
  {
    if publicDataAvailable && revenueSource == Public then High
    else if publicDataAvailable then Confidence.Medium
    else Low
  }

  function Quality(reply: CompanyReply): (r: DataQuality)
    ensures r.overallConfidence == OverallConfidence(reply.publicDataAvailable, reply.revenueSource)
    ensures r.publicDataAvailable == reply.publicDataAvailable
    // missing notes become an empty list
    ensures reply.estimationNotes.None? ==> r.estimationNotes == []
    ensures reply.estimationNotes.Some? ==> r.estimationNotes == reply.estimationNotes.value
  {
    DataQuality(OverallConfidence(reply.publicDataAvailable, reply.revenueSource),
                reply.publicDataAvailable, reply.estimationNotes.GetOr([]))
  }

  // ------------------------------------------------------ process insights

  datatype Insight = Insight(process: string, opportunity: int, confidence: Confidence, rationale: string)

  function OpportunityOf(p: ProcessOpportunity): real {
    p.opportunity as real
  }

  const FailureRationalePrefix: string := "AI can significantly reduce manual effort in "

  const StandardRationalePrefix: string := "Standard "

  const StandardRationaleSuffix: string := " automation benefits apply."

  /** The model supplied a non-empty rationale at index `i`. */
  predicate HasRationale(rationales: seq<Option<string>>, i: nat) {
    i < |rationales| && rationales[i].Some? && rationales[i].value != ""
  }

  /** The rationale for the `i`-th ranked process: the model's text at the
      same index when it is present and non-empty, a standard sentence
      otherwise, and a fixed sentence for every row when the call failed. */
  function Rationale(process: string, rationales: Option<seq<Option<string>>>, i: nat): (r: string)
    ensures |r| > 0
    ensures rationales.None? ==> r == FailureRationalePrefix + Lower(process) + "."
    ensures rationales.Some? && HasRationale(rationales.value, i) ==> r == rationales.value[i].value
    ensures rationales.Some? && !HasRationale(rationales.value, i)
      ==> r == StandardRationalePrefix + Lower(process) + StandardRationaleSuffix
  {
    if rationales.None? then FailureRationalePrefix + Lower(process) + "."
    else if HasRationale(rationales.value, i) then rationales.value[i].value
    else StandardRationalePrefix + Lower(process) + StandardRationaleSuffix
  }

  /** The five largest opportunities, largest first (ties in table order),
      each with its rationale. */
  function ProcessInsights(breakdown: seq<ProcessOpportunity>, rationales: Option<seq<Option<string>>>): (r: seq<Insight>)
    ensures |r| == if |breakdown| < 5 then |breakdown| else 5
    ensures var top := TopK(breakdown, OpportunityOf, 5);
      forall i :: 0 <= i < |r| ==>
        && r[i].process == top[i].process
        && r[i].opportunity == top[i].opportunity
        && r[i].confidence == top[i].confidence
        && r[i].rationale == Rationale(top[i].process, rationales, i)
    ensures forall i, j :: 0 <= i < j < |r| ==> r[i].opportunity >= r[j].opportunity
    ensures forall i :: 0 <= i < |r| ==> |r[i].rationale| > 0
  {
    var top := TopK(breakdown, OpportunityOf, 5);
    seq(|top|, i requires 0 <= i < |top| =>
      Insight(top[i].process, top[i].opportunity, top[i].confidence, Rationale(top[i].process, rationales, i)))
  }

  /** Every row that is left out has an opportunity no larger than any row
      that is kept, and kept plus left-out rows are exactly the breakdown. */
  lemma InsightsAreTheLargest(breakdown: seq<ProcessOpportunity>, rationales: Option<seq<Option<string>>>)
    ensures var top := TopK(breakdown, OpportunityOf, 5);
      var rest := SortDesc(breakdown, OpportunityOf)[|top|..];
      && multiset(top) + multiset(rest) == multiset(breakdown)
      && forall i, j :: 0 <= i < |top| && 0 <= j < |rest| ==>
           ProcessInsights(breakdown, rationales)[i].opportunity >= rest[j].opportunity
  {
    TopKPartition(breakdown, OpportunityOf, 5);
  }

  /** When every row has the same opportunity (a zero target, say) the
      ranking keeps the table order. */
  lemma TiedInsightsKeepTableOrder(breakdown: seq<ProcessOpportunity>, rationales: Option<seq<Option<string>>>)
    requires forall i :: 0 <= i < |breakdown| ==> breakdown[i].opportunity == breakdown[0].opportunity
    ensures forall i :: 0 <= i < |ProcessInsights(breakdown, rationales)| ==>
      ProcessInsights(breakdown, rationales)[i].process == breakdown[i].process
  {
    if |breakdown| > 0 {
      SortConstant(breakdown, OpportunityOf, breakdown[0].opportunity as real);
    }
  }

  /** With a zero conservative target the insights are the first five
      processes of the allocation table: Invoice Processing, Customer
      Support, Contract Review, Compliance Audit and HR Onboarding. */
  lemma ZeroTargetInsights(rationales: Option<seq<Option<string>>>)
    ensures var r := ProcessInsights(Breakdown(0.0, ProcessAllocations), rationales);
      && |r| == 5
      && forall i :: 0 <= i < |r| ==> r[i].process == ProcessAllocations[i].process
  {
    ZeroTargetKeepsTableOrder(ProcessAllocations, rationales);
  }

  /** A zero target gives every row 0, so the insights follow the table. */
  lemma ZeroTargetKeepsTableOrder(allocations: seq<Allocation>, rationales: Option<seq<Option<string>>>)
    ensures var r := ProcessInsights(Breakdown(0.0, allocations), rationales);
      forall i :: 0 <= i < |r| ==> r[i].process == allocations[i].process
  {
    var b := Breakdown(0.0, allocations);
    BreakdownRows(0.0, allocations);
    assert forall i :: 0 <= i < |b| ==> b[i].opportunity == 0;
    TiedInsightsKeepTableOrder(b, rationales);
  }

  // --------------------------------------------------------------- research

  datatype Research = Research(
    companyName: string,
    domain: string,
    industry: string,
    subIndustry: string,
    revenue: real,
    revenueSource: Source,
    employees: real,
    employeesSource: Source,
    sgaPercent: real,
    industryAvgSga: real,
    annualSgaCost: real,
    competitors: seq<Competitor>,
    totalOpportunity: int,
    conservativeTarget: int,
    topProcesses: seq<Insight>,
    fiveYearProjection: Projection,
    dataQuality: DataQuality,
    researchedAt: int)

  /** Yearly SG&A spend at a share of revenue. */
  function SgaCost(revenue: real, share: real): real {
    revenue * share
  }

  const ResearchErrorPrefix: string := "Failed to research company: "

  /** The projection for a conservative target, with implementation costed
      at 15% of the target and maintenance at 10% of implementation; a
      positive target always pays back in month 4. */
  function DefaultCostProjection(target: int): (r: Projection)
    ensures var t := target as real; r == Calculate5YearRoi(t, t * 0.15, t * 0.15 * 0.10)
    ensures target > 0 ==> r.paybackMonths == 4
  {
    var implementationCost := target as real * 0.15;
    var maintenanceCost := implementationCost * 0.10;
    if target > 0 then
      DefaultCostsPayBackInFourMonths(target as real);
      Calculate5YearRoi(target as real, implementationCost, maintenanceCost)
    else
      Calculate5YearRoi(target as real, implementationCost, maintenanceCost)
  }

  /** The research record built from a successful reply. */
  function Analyse(cleanDomain: string, aiData: CompanyReply,
                   rationales: Option<seq<Option<string>>>, researchedAt: int): (r: Research)
    ensures var b := IndustryRatios(aiData.industry);
      var o := OpportunityCells(aiData.revenue, b.avg, b.efficient);
      && r.domain == cleanDomain
      // the SG&A share is the industry average, from the Default row when
      // the industry is unknown, so the opportunity is the gap between the
      // average and the efficient benchmark
      && r.sgaPercent == r.industryAvgSga == b.avg
      && r.annualSgaCost == SgaCost(aiData.revenue, b.avg)
      && r.totalOpportunity == o.totalOpportunity
      && r.conservativeTarget == o.conservativeTarget
      // implementation is 15% of the target and maintenance 10% of that
      && r.fiveYearProjection == DefaultCostProjection(r.conservativeTarget)
      && r.topProcesses == ProcessInsights(o.processBreakdown, rationales)
      && r.dataQuality == Quality(aiData)
    // the reply's own fields are passed through
    ensures r.companyName == aiData.companyName && r.industry == aiData.industry
      && r.subIndustry == aiData.subIndustry && r.revenue == aiData.revenue
      && r.revenueSource == aiData.revenueSource && r.employees == aiData.employees
      && r.employeesSource == aiData.employeesSource && r.competitors == aiData.competitors
      && r.researchedAt == researchedAt
  {
    var industryBenchmarks := IndustryRatios(aiData.industry);
    var sgaPercent := industryBenchmarks.avg;
    var opportunity := CalculateCompanyOpportunity(aiData.revenue, aiData.employees, aiData.industry, Some(sgaPercent));
    OverrideIsAverage(aiData.revenue, aiData.employees, aiData.industry);
    Research(
      aiData.companyName, cleanDomain, aiData.industry, aiData.subIndustry,
      aiData.revenue, aiData.revenueSource, aiData.employees, aiData.employeesSource,
      sgaPercent, industryBenchmarks.avg, SgaCost(aiData.revenue, sgaPercent), aiData.competitors,
      opportunity.totalOpportunity, opportunity.conservativeTarget,
      ProcessInsights(opportunity.processBreakdown, rationales),
      DefaultCostProjection(opportunity.conservativeTarget),
      Quality(aiData), researchedAt)
  }

  /** The full research of a domain, given the model's research reply, its
      rationale reply and the clock reading: a failed reply becomes an error
      naming the cleaned domain. */
  function ResearchCompany(domain: string, reply: Option<CompanyReply>,
                           rationales: Option<seq<Option<string>>>, researchedAt: int): (r: Result<Research, string>)
    ensures r.Failure? <==> reply.None?
    ensures r.Failure? ==> r.error == ResearchErrorPrefix + CleanDomain(domain)
    ensures r.Success? ==>
      && r.value.domain == CleanDomain(domain)
      && r.value == Analyse(CleanDomain(domain), reply.value, rationales, researchedAt)
  {
    var cleanDomain := CleanDomain(domain);
    match reply
    case None => Failure(ResearchErrorPrefix + cleanDomain)
    case Some(aiData) => Success(Analyse(cleanDomain, aiData, rationales, researchedAt))
  }

  /** Passing the row's own average as the override is the same as passing
      none: no table average is 0. */
  lemma OverrideIsAverage(revenue: real, employees: real, industry: string)
    ensures var b := IndustryRatios(industry);
      CalculateCompanyOpportunity(revenue, employees, industry, Some(b.avg))
      == OpportunityCells(revenue, b.avg, b.efficient)
  {
    IndustryRatiosFractions(industry);
  }

  /** Every successful research with a positive target pays back in month 4. */
  lemma ResearchPaysBackInFourMonths(domain: string, reply: Option<CompanyReply>,
                                     rationales: Option<seq<Option<string>>>, researchedAt: int)
    requires ResearchCompany(domain, reply, rationales, researchedAt).Success?
    requires ResearchCompany(domain, reply, rationales, researchedAt).value.conservativeTarget > 0
    ensures ResearchCompany(domain, reply, rationales, researchedAt).value.fiveYearProjection.paybackMonths == 4
  {
  }

  // ------------------------------------------------------------ quick lookup

  datatype Lookup = Lookup(valid: Option<bool>, companyName: Option<string>, industry: Option<string>)

  /** What the lookup call produced: it threw (or the text did not parse),
      its text held no `{...}` object, or the object it held. */
  datatype LookupReply = LookupThrew | NoObject | Parsed(result: Lookup)

  const NotValid: Lookup := Lookup(Some(false), None, None)

  datatype LookupOutcome = LookupOutcome(askedAbout: string, result: Lookup)

  /** Fails closed: anything but a parsed object is reported as not valid. */
  function QuickCompanyLookup(domain: string, reply: LookupReply): (r: LookupOutcome)
    ensures r.askedAbout == CleanDomain(domain)
    ensures !reply.Parsed? ==> r.result == NotValid && r.result.valid != Some(true)
    ensures reply.Parsed? ==> r.result == reply.result
  {
    var cleanDomain := CleanDomain(domain);
    match reply
    case LookupThrew => LookupOutcome(cleanDomain, Lookup(Some(false), None, None))
    case NoObject => LookupOutcome(cleanDomain, Lookup(Some(false), None, None))
    case Parsed(result) => LookupOutcome(cleanDomain, result)
  }

  /** The research and the quick lookup clean a domain identically, so
      they ask about the same host and report it in the same spelling. */
  lemma EntryPointsAgreeOnDomain(domain: string, reply: Option<CompanyReply>,
                                 rationales: Option<seq<Option<string>>>, researchedAt: int, lookup: LookupReply)
    ensures var r := ResearchCompany(domain, reply, rationales, researchedAt);
      var q := QuickCompanyLookup(domain, lookup).askedAbout;
      && (r.Success? ==> r.value.domain == q)
      && (r.Failure? ==> r.error == ResearchErrorPrefix + q)
  {
  }
}

=== FILE: numeric.dfy ===
/** Rounding and clamping on exact reals, as JavaScript's Math functions
    behave on them. */
module Numeric {

  /** `Math.round`: the nearest integer, halves rounded toward +infinity. */
  function Round(x: real): (r: int)
    ensures r as real - 0.5 <= x < r as real + 0.5
  {
    (x + 0.5).Floor
  }

  /** `Math.ceil`: the least integer not below `x`. */
  function Ceil(x: real): (r: int)
    ensures r as real - 1.0 < x <= r as real
  {
    -((-x).Floor)
  }

  /** `Math.round(x * 10) / 10`: `x` to one decimal place. */
  function RoundTenth(x: real): (r: real)
    ensures (r * 10.0).Floor as real == r * 10.0
    ensures r - 0.05 <= x < r + 0.05
  {
    Round(x * 10.0) as real / 10.0
  }

  function MinInt(a: int, b: int): int { if a <= b then a else b }

  function MaxReal(a: real, b: real): real { if a >= b then a else b }

  /** Rounding never reverses the order of its arguments. */
  lemma RoundMonotone(x: real, y: real)
    requires x <= y
    ensures Round(x) <= Round(y)
  {
  }

  /** Adding a whole number passes through the rounding unchanged. */
  lemma RoundShift(x: real, n: int)
    ensures Round(x + n as real) == Round(x) + n
  {
  }

  /** Two reals at least 1 apart round to different integers. */
  lemma RoundStrict(x: real, y: real)
    requires x + 1.0 <= y
    ensures Round(x) < Round(y)
  {
  }

  lemma RoundTenthMonotone(x: real, y: real)
    requires x <= y
    ensures RoundTenth(x) <= RoundTenth(y)
  {
    RoundMonotone(x * 10.0, y * 10.0);
  }

  /** Multiplying both sides by a non-negative factor keeps their order. */
  lemma MulMonotone(a: real, b: real, k: real)
    requires a <= b && k >= 0.0
    ensures a * k <= b * k
  {
  }

  /** Multiplying both sides by a positive factor keeps a strict order. */
  lemma MulStrict(a: real, b: real, k: real)
    requires a < b && k > 0.0
    ensures a * k < b * k
  {
  }
}

=== FILE: ranking.dfy ===
/** Ranking of a sequence by a numeric key, highest first. This is
    `[...xs].sort((a, b) => key(b) - key(a))` in JavaScript, whose sort is
    stable: items with equal keys keep their original order. The model is a
    stable insertion sort; the lemmas below show that its result is a
    permutation of the input, non-increasing in the key, and keeps every run
    of equal keys in input order, which together fix the result uniquely. */
module Ranking {

  /** Every item of `s` is in the key's domain. */
  ghost predicate Defined<T>(s: seq<T>, key: T --> real) {
    forall i :: 0 <= i < |s| ==> key.requires(s[i])
  }

  predicate NonIncreasing<T>(s: seq<T>, key: T --> real)
    requires Defined(s, key)
  {
    forall i, j :: 0 <= i < j < |s| ==> key(s[i]) >= key(s[j])
  }

  /** The items of `s` whose key is exactly `k`, in order. */
  function Ties<T>(s: seq<T>, key: T --> real, k: real): (r: seq<T>)
    requires Defined(s, key)
    ensures |r| <= |s|
    ensures forall i :: 0 <= i < |r| ==> key.requires(r[i]) && key(r[i]) == k
  {
    if |s| == 0 then []
    else (if key(s[0]) == k then [s[0]] else []) + Ties(s[1..], key, k)
  }

  /** Places `x` before the first item whose key is not above `key(x)`. */
  function Insert<T>(x: T, s: seq<T>, key: T --> real): (r: seq<T>)
    requires key.requires(x) && Defined(s, key)
    ensures |r| == |s| + 1
    ensures Defined(r, key)
    ensures multiset(r) == multiset(s) + multiset{x}
  {
    if |s| == 0 || key(x) >= key(s[0]) then [x] + s
    else
      assert s == [s[0]] + s[1..];
      [s[0]] + Insert(x, s[1..], key)
  }

  /** Inserting into a ranking gives a ranking. */
  lemma {:induction false} InsertSorted<T>(x: T, s: seq<T>, key: T --> real)
    requires key.requires(x) && Defined(s, key)
    requires NonIncreasing(s, key)
    ensures NonIncreasing(Insert(x, s, key), key)
  {
    if |s| > 0 && key(x) < key(s[0]) {
      var tail := s[1..];
      InsertSorted(x, tail, key);
      assert forall j :: 0 <= j < |tail| ==> tail[j] == s[j + 1];
      InsertBelow(x, tail, key, key(s[0]));
      ConsNonIncreasing(s[0], Insert(x, tail, key), key);
    }
  }

  /** Inserting an item no higher than `b` among items no higher than `b`
      leaves every item no higher than `b`. */
  lemma InsertBelow<T>(x: T, t: seq<T>, key: T --> real, b: real)
    requires key.requires(x) && Defined(t, key)
    requires key(x) <= b && forall j :: 0 <= j < |t| ==> key(t[j]) <= b
    ensures forall i :: 0 <= i < |Insert(x, t, key)| ==> key(Insert(x, t, key)[i]) <= b
  {
    var r := Insert(x, t, key);
    forall i | 0 <= i < |r|
      ensures key(r[i]) <= b
    {
      assert r[i] in multiset(r);
      if r[i] != x {
        assert r[i] in multiset(t);
        var j :| 0 <= j < |t| && t[j] == r[i];
      }
    }
  }

  /** An item at least as high as every item of a ranking heads a ranking. */
  lemma ConsNonIncreasing<T>(y: T, rest: seq<T>, key: T --> real)
    requires key.requires(y) && Defined(rest, key) && NonIncreasing(rest, key)
    requires forall i :: 0 <= i < |rest| ==> key(rest[i]) <= key(y)
    ensures NonIncreasing([y] + rest, key)
  {
    var s := [y] + rest;
    assert forall i :: 1 <= i < |s| ==> s[i] == rest[i - 1];
  }

  /** The stable descending sort. */
  function SortDesc<T>(s: seq<T>, key: T --> real): (r: seq<T>)
    requires Defined(s, key)
    ensures |r| == |s|
    ensures Defined(r, key)
    ensures multiset(r) == multiset(s)
    ensures NonIncreasing(r, key)
  {
    if |s| == 0 then []
    else
      assert s == [s[0]] + s[1..];
      var rest := SortDesc(s[1..], key);
      InsertSorted(s[0], rest, key);
      Insert(s[0], rest, key)
  }

  /** The first `k` items of the ranking (all of them when there are fewer). */
  function TopK<T>(s: seq<T>, key: T --> real, k: nat): (r: seq<T>)
    requires Defined(s, key)
    ensures |r| == if k <= |s| then k else |s|
    ensures Defined(r, key)
    ensures NonIncreasing(r, key)
    ensures multiset(r) <= multiset(s)
    // a prefix of the stable ranking, so ties are cut in input order
    ensures r == SortDesc(s, key)[..|r|]
  {
    var sorted := SortDesc(s, key);
    var n := if k <= |s| then k else |s|;
    PrefixMultiset(sorted, n);
    sorted[..n]
  }

  /** A prefix holds no item more often than the whole sequence. */
  lemma PrefixMultiset<T>(s: seq<T>, n: nat)
    requires n <= |s|
    ensures multiset(s[..n]) <= multiset(s)
  {
    assert s == s[..n] + s[n..];
  }

  lemma TiesOfCons<T>(x: T, s: seq<T>, key: T --> real, k: real)
    requires key.requires(x) && Defined(s, key)
    ensures Ties([x] + s, key, k) == (if key(x) == k then [x] else []) + Ties(s, key, k)
  {
    assert ([x] + s)[1..] == s;
  }

  /** Inserting `x` keeps the items of any one key in the order they would
      have if `x` were simply put in front. */
  lemma {:induction false} InsertStable<T>(x: T, s: seq<T>, key: T --> real, k: real)
    requires key.requires(x) && Defined(s, key)
    ensures Ties(Insert(x, s, key), key, k) == Ties([x] + s, key, k)
  {
    if |s| == 0 || key(x) >= key(s[0]) {
    } else {
      var rest := Insert(x, s[1..], key);
      InsertStable(x, s[1..], key, k);
      TiesOfCons(s[0], rest, key, k);
      TiesOfCons(x, s[1..], key, k);
      TiesOfCons(x, s, key, k);
      assert s == [s[0]] + s[1..];
      TiesOfCons(s[0], s[1..], key, k);
    }
  }

  /** Stability: among items with equal keys the ranking keeps input order. */
  lemma {:induction false} SortStable<T>(s: seq<T>, key: T --> real, k: real)
    requires Defined(s, key)
    ensures Ties(SortDesc(s, key), key, k) == Ties(s, key, k)
  {
    if |s| > 0 {
      var rest := SortDesc(s[1..], key);
      SortStable(s[1..], key, k);
      InsertStable(s[0], rest, key, k);
      TiesOfCons(s[0], rest, key, k);
      assert s == [s[0]] + s[1..];
      TiesOfCons(s[0], s[1..], key, k);
    }
  }

  /** When every key is `k`, the per-key filter keeps everything. */
  lemma {:induction false} TiesOfConstant<T>(s: seq<T>, key: T --> real, k: real)
    requires Defined(s, key)
    requires forall i :: 0 <= i < |s| ==> key(s[i]) == k
    ensures Ties(s, key, k) == s
  {
    if |s| > 0 {
      TiesOfConstant(s[1..], key, k);
    }
  }

  /** Ranking items that all tie leaves them in input order. */
  lemma SortConstant<T>(s: seq<T>, key: T --> real, k: real)
    requires Defined(s, key)
    requires forall i :: 0 <= i < |s| ==> key(s[i]) == k
    ensures SortDesc(s, key) == s
  {
    var sorted := SortDesc(s, key);
    forall i | 0 <= i < |sorted|
      ensures key(sorted[i]) == k
    {
      assert sorted[i] in multiset(s);
      var j :| 0 <= j < |s| && s[j] == sorted[i];
    }
    TiesOfConstant(s, key, k);
    TiesOfConstant(sorted, key, k);
    SortStable(s, key, k);
  }

  /** The head of a ranking scores at least as much as every item in it. */
  lemma HeadIsMaximum<T>(s: seq<T>, key: T --> real)
    requires Defined(s, key)
    ensures forall j :: 0 < j < |SortDesc(s, key)| ==> key(SortDesc(s, key)[j]) <= key(SortDesc(s, key)[0])
  {
  }

  /** Cutting a ranking in two keeps its items, and nothing after the cut
      scores above anything before it. */
  lemma CutRanking<T>(sorted: seq<T>, key: T --> real, n: nat)
    requires Defined(sorted, key) && NonIncreasing(sorted, key) && n <= |sorted|
    ensures multiset(sorted[..n]) + multiset(sorted[n..]) == multiset(sorted)
    ensures forall i, j :: 0 <= i < n <= j < |sorted| ==> key(sorted[..n][i]) >= key(sorted[j])
  {
    assert sorted == sorted[..n] + sorted[n..];
  }

  /** The items ranked in and the items left out make up the input, and
      none left out scores above one ranked in. */
  lemma TopKPartition<T>(s: seq<T>, key: T --> real, k: nat)
    requires Defined(s, key)
    ensures var sorted := SortDesc(s, key);
      var top := TopK(s, key, k);
      && multiset(top) + multiset(sorted[|top|..]) == multiset(s)
      && forall i, j :: 0 <= i < |top| && |top| <= j < |sorted| ==> key(top[i]) >= key(sorted[j])
  {
    var sorted := SortDesc(s, key);
    var n := if k <= |s| then k else |s|;
    assert TopK(s, key, k) == sorted[..n];
    CutRanking(sorted, key, n);
  }

  predicate StrictlyDecreasing<T>(s: seq<T>, key: T --> real)
    requires Defined(s, key)
  {
    forall i, j :: 0 <= i < j < |s| ==> key(s[i]) > key(s[j])
  }

  /** Two arrangements of the same items, one non-increasing and one
      strictly decreasing, start with the same item. */
  lemma HeadsAgree<T>(r: seq<T>, t: seq<T>, key: T --> real)
    requires Defined(r, key) && Defined(t, key)
    requires NonIncreasing(r, key) && StrictlyDecreasing(t, key)
    requires multiset(r) == multiset(t) && |r| > 0
    ensures |t| > 0 && r[0] == t[0]
  {
    assert r[0] in multiset(t);
    var k :| 0 <= k < |t| && t[k] == r[0];
    assert t[0] in multiset(r);
    var j :| 0 <= j < |r| && r[j] == t[0];
    assert key(r[0]) >= key(r[j]);
  }

  lemma TailsPermute<T>(r: seq<T>, t: seq<T>)
    requires multiset(r) == multiset(t) && |r| > 0 && |t| > 0 && r[0] == t[0]
    ensures multiset(r[1..]) == multiset(t[1..])
  {
    assert r == [r[0]] + r[1..] && t == [t[0]] + t[1..];
    assert multiset(r[1..]) == multiset(r) - multiset{r[0]};
    assert multiset(t[1..]) == multiset(t) - multiset{t[0]};
  }

  /** A ranking with no two equal keys is determined by its items: any
      non-increasing arrangement of them is that ranking. */
  lemma {:induction false} RankingUnique<T>(r: seq<T>, t: seq<T>, key: T --> real)
    requires Defined(r, key) && Defined(t, key)
    requires NonIncreasing(r, key) && StrictlyDecreasing(t, key)
    requires multiset(r) == multiset(t)
    ensures r == t
  {
    assert |r| == |multiset(r)| == |multiset(t)| == |t|;
    if |r| > 0 {
      HeadsAgree(r, t, key);
      TailsPermute(r, t);
      RankingUnique(r[1..], t[1..], key);
      assert r == [r[0]] + r[1..] && t == [t[0]] + t[1..];
    }
  }

  /** Sorting a sequence that has no equal keys gives the one strictly
      decreasing arrangement of its items. */
  lemma SortDistinct<T>(s: seq<T>, t: seq<T>, key: T --> real)
    requires Defined(s, key) && Defined(t, key)
    requires StrictlyDecreasing(t, key) && multiset(t) == multiset(s)
    ensures SortDesc(s, key) == t
  {
    RankingUnique(SortDesc(s, key), t, key);
  }
}

=== FILE: routers.dfy ===
/** The calculator API: each procedure validates its input (the schema
    bounds are the preconditions here), fills in defaults and calls the
    engine. The formatted display strings that accompany each reply are not
    modelled; the numeric fields are. */
module Routers {
  import opened Wrappers
  import opened Numeric
  import opened Benchmarks
  import opened CalculationEngine

  // ------------------------------------------------------------ processSavings

  datatype SavingsReply = SavingsReply(annualLaborCost: int, savings: Savings)

  /** Labour cost from the team's hours, then risk-adjusted savings on it. */
  function ProcessSavings(processType: string, hoursPerWeek: real, employeesInvolved: real, hourlyRate: Option<real>): (r: SavingsReply)
    requires hoursPerWeek >= 0.0 && employeesInvolved >= 1.0
    requires hourlyRate.Some? ==> hourlyRate.value >= 0.0
    ensures r.annualLaborCost == CalculateAnnualLaborCost(hoursPerWeek, employeesInvolved, hourlyRate)
    ensures r.annualLaborCost >= 0
    // the reply echoes the very labour cost the savings were computed from
    ensures r.savings == CalculateAutomationSavings(processType, r.annualLaborCost as real, true)
    ensures r.savings.totalSavings
         == Round(ExactSavings(r.annualLaborCost as real, 0.51, ProcessPotential(processType)))
  {
    var annualLaborCost := CalculateAnnualLaborCost(hoursPerWeek, employeesInvolved, hourlyRate);
    SavingsReply(annualLaborCost, CalculateAutomationSavings(processType, annualLaborCost as real, true))
  }

  /** Savings reported by the API are never negative. */
  lemma ProcessSavingsNonNegative(processType: string, hoursPerWeek: real, employeesInvolved: real, hourlyRate: Option<real>)
    requires hoursPerWeek >= 0.0 && employeesInvolved >= 1.0
    requires hourlyRate.Some? ==> hourlyRate.value >= 0.0
    ensures ProcessSavings(processType, hoursPerWeek, employeesInvolved, hourlyRate).savings.totalSavings >= 0
  {
    var r := ProcessSavings(processType, hoursPerWeek, employeesInvolved, hourlyRate);
    var p := ProcessPotential(processType);
    WeightAtLeast(processType);
    ExactSavingsMonotone(r.annualLaborCost as real, 0.0, 0.51, p);
    RoundMonotone(ExactSavings(r.annualLaborCost as real, 0.0, p), ExactSavings(r.annualLaborCost as real, 0.51, p));
  }

  /** More hours per week never lower the labour cost or the savings the
      API reports for it. */
  lemma ProcessSavingsMonotoneInHours(processType: string, h1: real, h2: real, employeesInvolved: real, hourlyRate: Option<real>)
    requires 0.0 <= h1 <= h2 && employeesInvolved >= 1.0
    requires hourlyRate.Some? ==> hourlyRate.value >= 0.0
    ensures var r1, r2 := ProcessSavings(processType, h1, employeesInvolved, hourlyRate),
                         ProcessSavings(processType, h2, employeesInvolved, hourlyRate);
      && r1.annualLaborCost <= r2.annualLaborCost
      && r1.savings.totalSavings <= r2.savings.totalSavings
  {
    var r1 := ProcessSavings(processType, h1, employeesInvolved, hourlyRate);
    var r2 := ProcessSavings(processType, h2, employeesInvolved, hourlyRate);
    LaborCostMonotone(h1, h2, employeesInvolved, hourlyRate);
    var c1, c2 := r1.annualLaborCost as real, r2.annualLaborCost as real;
    var p := ProcessPotential(processType);
    WeightAtLeast(processType);
    ExactSavingsMonotoneInCost(c1, c2, 0.51, p);
    RoundMonotone(ExactSavings(c1, 0.51, p), ExactSavings(c2, 0.51, p));
  }

  // ------------------------------------------------------------ fiveYearROI

  /** `implementationCost || annualSavings * 0.15`: an omitted or zero cost
      takes the default of 15% of the savings. */
  function ImplementationCostOrDefault(annualSavings: real, implementationCost: Option<real>): (r: real)
    ensures implementationCost.None? || implementationCost == Some(0.0) ==> r == annualSavings * 0.15
    ensures implementationCost.Some? && implementationCost.value != 0.0 ==> r == implementationCost.value
  {
    if implementationCost.Some? && implementationCost.value != 0.0 then implementationCost.value
    else annualSavings * 0.15
  }

  datatype RoiReply = RoiReply(projection: Projection, implementationCost: int, maintenanceCostAnnual: int)

  function FiveYearRoi(annualSavings: real, implementationCost: Option<real>): (r: RoiReply)
    requires annualSavings >= 0.0
    requires implementationCost.Some? ==> implementationCost.value >= 0.0
    ensures var impl := ImplementationCostOrDefault(annualSavings, implementationCost);
      // maintenance is 10% of whichever implementation cost was used
      && r.projection == Calculate5YearRoi(annualSavings, impl, impl * 0.10)
      // the echoed costs are rounded
      && r.implementationCost == Round(impl)
      && r.maintenanceCostAnnual == Round(impl * 0.10)
    ensures r.implementationCost >= 0 && r.maintenanceCostAnnual >= 0
  {
    var implCost := ImplementationCostOrDefault(annualSavings, implementationCost);
    var maintenanceCost := implCost * 0.10;
    RoundMonotone(0.0, implCost);
    RoundMonotone(0.0, maintenanceCost);
    RoiReply(Calculate5YearRoi(annualSavings, implCost, maintenanceCost), Round(implCost), Round(maintenanceCost))
  }

  /** Without an implementation cost, any positive savings pay back in
      month 4. */
  lemma DefaultRoiPaysBackInFourMonths(annualSavings: real, implementationCost: Option<real>)
    requires annualSavings > 0.0
    requires implementationCost.None? || implementationCost == Some(0.0)
    ensures FiveYearRoi(annualSavings, implementationCost).projection.paybackMonths == 4
  {
    DefaultCostsPayBackInFourMonths(annualSavings);
  }

  /** An explicit cost of 0 is treated exactly as an omitted one. */
  lemma ZeroImplementationCostIsDefault(annualSavings: real)
    requires annualSavings >= 0.0
    ensures FiveYearRoi(annualSavings, Some(0.0)) == FiveYearRoi(annualSavings, None)
  {
  }

  // ------------------------------------------------------ companyOpportunity

  function CompanyOpportunity(revenue: real, employees: real, industry: string, sgaPercent: Option<real>): (r: Opportunity)
    requires revenue >= 0.0 && employees >= 1.0
    requires sgaPercent.Some? ==> 0.0 <= sgaPercent.value <= 1.0
    ensures r == CalculateCompanyOpportunity(revenue, employees, industry, sgaPercent)
    // without an override the gap is measured from the average, which is
    // above the efficient benchmark, so no opportunity is negative
    ensures sgaPercent.None? ==> r.totalOpportunity >= 0 && r.conservativeTarget >= 0
  {
    if sgaPercent.None? then
      var b := IndustryRatios(industry);
      DefaultShareAboveEfficient(industry);
      CellsMonotoneInRevenue(0.0, revenue, ActualSga(b, sgaPercent), b.efficient);
      CalculateCompanyOpportunity(revenue, employees, industry, sgaPercent)
    else
      CalculateCompanyOpportunity(revenue, employees, industry, sgaPercent)
  }

  // ------------------------------------------------------------ benchmarks

  datatype BenchmarksReply =
    | ForIndustry(industry: string, sga: SgaRatios, automationPotential: seq<(string, Potential)>)
    | Listing(industries: seq<string>, automationPotential: seq<(string, Potential)>,
              costAssumptions: CostAssumptions, riskFactors: RiskFactors)

  /** With a non-empty industry name, that industry's SG&A row (the Default
      row for an unknown name) under the name as requested; otherwise the
      list of every industry the table knows. */
  function BenchmarksQuery(industry: Option<string>): (r: BenchmarksReply)
    ensures r.ForIndustry? <==> industry.Some? && industry.value != ""
    ensures r.ForIndustry? ==> r.industry == industry.value
    ensures r.ForIndustry? && r.industry !in Keys(SgaByIndustry) ==> r.sga == DefaultSgaRatios()
    ensures r.ForIndustry? && r.industry in Keys(SgaByIndustry) ==> (r.industry, r.sga) in SgaByIndustry
    ensures r.Listing? ==> r.industries == Keys(SgaByIndustry) && DefaultIndustry in r.industries
    ensures r.Listing? ==> r.costAssumptions == Costs && r.riskFactors == Risk
    ensures r.automationPotential == AutomationPotential
  {
    if industry.Some? && industry.value != "" then
      ForIndustry(industry.value, IndustryRatios(industry.value), AutomationPotential)
    else
      SgaTableWellFormed();
      Listing(Keys(SgaByIndustry), AutomationPotential, Costs, Risk)
  }

  /** The two query forms agree: querying any industry the listing names
      returns that industry's own table row, under that name. */
  lemma BenchmarksQueryAgreesWithListing(i: nat)
    requires i < |BenchmarksQuery(None).industries|
    ensures var name := BenchmarksQuery(None).industries[i];
      BenchmarksQuery(Some(name)) == ForIndustry(name, SgaByIndustry[i].1, AutomationPotential)
  {
    var name := BenchmarksQuery(None).industries[i];
    assert name == SgaByIndustry[i].0;
    assert name != "";
    SgaTableWellFormed();
    LookupFirst(SgaByIndustry, i);
  }
}

=== FILE: step0.dfy ===
/** The opening diagnostic: a company name derived from the domain, a
    simulated SG&A profile drawn at random, and the small state machine
    that runs the analysis once and hands the result on. The random draws
    are parameters, each in [0, 1) as `Math.random` returns them. */
module Step0Diagnostic {
  import opened Wrappers
  import opened Numeric
  import opened Text
  import opened CalculationEngine

  // ------------------------------------------------------------ company name

  /** The suffixes the name pattern removes, in the pattern's order. */
  const Tlds: seq<string> := [".com", ".io", ".co", ".net", ".org"]

  /** `s` ends in `tld`, letters compared without case. */
  predicate HasTld(s: string, tld: string) {
    EndsWith(Lower(s), tld)
  }

  /** Removes one trailing `.com`, `.io`, `.co`, `.net` or `.org`, in any
      case; the pattern is anchored at the end, so at most one goes. */
  function StripTld(s: string): (r: string)
    ensures r <= s
    ensures |s| - |r| in {0, 3, 4}
  {
    if HasTld(s, ".com") then s[..|s| - 4]
    else if HasTld(s, ".io") then s[..|s| - 3]
    else if HasTld(s, ".co") then s[..|s| - 3]
    else if HasTld(s, ".net") then s[..|s| - 4]
    else if HasTld(s, ".org") then s[..|s| - 4]
    else s
  }

  predicate IsSeparator(c: char) {
    c == '-' || c == '_'
  }

  /** `split(/[-_]/)`: the pieces between separators, empty pieces kept. */
  function Split(s: string): (r: seq<string>)
    ensures |r| >= 1
  {
    if |s| == 0 then [""]
    else
      var rest := Split(s[1..]);
      if IsSeparator(s[0]) then [""] + rest
      else [[s[0]] + rest[0]] + rest[1..]
  }

  /** First character upper-cased, the rest untouched. */
  function Capitalize(w: string): string {
    if |w| == 0 then "" else [UpperChar(w[0])] + w[1..]
  }

  function CapitalizeAll(ws: seq<string>): seq<string> {
    seq(|ws|, i requires 0 <= i < |ws| => Capitalize(ws[i]))
  }

  /** Each word preceded by a single space. */
  function Spaced(ws: seq<string>): string {
    if |ws| == 0 then "" else " " + ws[0] + Spaced(ws[1..])
  }

  /** `join(" ")`. */
  function JoinWords(ws: seq<string>): string {
    if |ws| == 0 then "" else ws[0] + Spaced(ws[1..])
  }

  /** Character-by-character reference: separators become spaces and the
      character that starts a piece is upper-cased. `start` says whether
      the first character starts a piece. */
  function Title(s: string, start: bool): string {
    if |s| == 0 then ""
    else [if IsSeparator(s[0]) then ' ' else if start then UpperChar(s[0]) else s[0]]
         + Title(s[1..], IsSeparator(s[0]))
  }

  /** The character title case puts at position `i`. */
  function TitleAt(s: string, start: bool, i: nat): char
    requires i < |s|
  {
    if IsSeparator(s[i]) then ' '
    else if (if i == 0 then start else IsSeparator(s[i - 1])) then UpperChar(s[i])
    else s[i]
  }

  /** Title case position by position: a character is raised exactly when
      it starts a piece, and every separator turns into a space. */
  lemma {:induction false} TitlePointwise(s: string, start: bool)
    ensures |Title(s, start)| == |s|
    ensures forall i :: 0 <= i < |s| ==> Title(s, start)[i] == TitleAt(s, start, i)
  {
    if |s| > 0 {
      var t := s[1..];
      TitlePointwise(t, IsSeparator(s[0]));
      forall i | 1 <= i < |s|
        ensures Title(s, start)[i] == TitleAt(s, start, i)
      {
        assert t[i - 1] == s[i];
        if i > 1 {
          assert t[i - 2] == s[i - 1];
        }
        assert TitleAt(t, IsSeparator(s[0]), i - 1) == TitleAt(s, start, i);
      }
    }
  }

  lemma CapitalizeAllCons(w: string, rest: seq<string>)
    ensures CapitalizeAll([w] + rest) == [Capitalize(w)] + CapitalizeAll(rest)
  {
  }

  /** A non-empty list of words, joined, after a space. */
  lemma SpacedIsSpaceThenJoin(ws: seq<string>)
    requires |ws| > 0
    ensures Spaced(ws) == " " + JoinWords(ws)
  {
    ConcatAssoc(" ", ws[0], Spaced(ws[1..]));
  }

  lemma ConcatAssoc(a: string, b: string, c: string)
    ensures (a + b) + c == a + (b + c)
  {
  }

  /** The induction step when the text opens with a separator. */
  lemma SeparatorStep(s: string)
    requires |s| > 0 && IsSeparator(s[0])
    requires JoinWords(CapitalizeAll(Split(s[1..]))) == Title(s[1..], true)
    ensures JoinWords(CapitalizeAll(Split(s))) == Title(s, true)
    ensures Split(s)[0] + Spaced(CapitalizeAll(Split(s)[1..])) == Title(s, false)
  {
    var rest := Split(s[1..]);
    assert Split(s) == [""] + rest;
    assert ([""] + rest)[1..] == rest;
    CapitalizeAllCons("", rest);
    SpacedIsSpaceThenJoin(CapitalizeAll(rest));
  }

  /** The induction step when the text opens with a character of a piece. */
  lemma LetterStep(s: string)
    requires |s| > 0 && !IsSeparator(s[0])
    requires Split(s[1..])[0] + Spaced(CapitalizeAll(Split(s[1..])[1..])) == Title(s[1..], false)
    ensures JoinWords(CapitalizeAll(Split(s))) == Title(s, true)
    ensures Split(s)[0] + Spaced(CapitalizeAll(Split(s)[1..])) == Title(s, false)
  {
    var rest := Split(s[1..]);
    var first := [s[0]] + rest[0];
    var tail := CapitalizeAll(rest[1..]);
    var u := UpperChar(s[0]);
    assert Split(s) == [first] + rest[1..];
    assert ([first] + rest[1..])[1..] == rest[1..];
    CapitalizeAllCons(first, rest[1..]);
    assert first[1..] == rest[0];
    assert Capitalize(first) == [u] + rest[0];
    assert JoinWords([Capitalize(first)] + tail) == Capitalize(first) + Spaced(tail) by {
      assert ([Capitalize(first)] + tail)[1..] == tail;
    }
    ConcatAssoc([u], rest[0], Spaced(tail));
    ConcatAssoc([s[0]], rest[0], Spaced(tail));
  }

  /** Splitting, capitalizing and joining is the character-wise title case:
      the first piece's initial is raised, and so is every initial after a
      separator. The second conclusion (first piece left as is) carries the
      induction. */
  lemma {:induction false} SplitCapitalizeJoin(s: string)
    ensures JoinWords(CapitalizeAll(Split(s))) == Title(s, true)
    ensures Split(s)[0] + Spaced(CapitalizeAll(Split(s)[1..])) == Title(s, false)
  {
    if |s| > 0 {
      SplitCapitalizeJoin(s[1..]);
      if IsSeparator(s[0]) {
        SeparatorStep(s);
      } else {
        LetterStep(s);
      }
    }
  }

  /** The displayed company name. */
  function CompanyName(domain: string): (r: string)
    ensures r == Title(StripTld(domain), true)
    ensures |r| == |StripTld(domain)|
    ensures forall i :: 0 <= i < |r| ==> !IsSeparator(r[i])
    ensures forall i :: 0 <= i < |r| && IsSeparator(StripTld(domain)[i]) ==> r[i] == ' '
  {
    SplitCapitalizeJoin(StripTld(domain));
    TitlePointwise(StripTld(domain), true);
    JoinWords(CapitalizeAll(Split(StripTld(domain))))
  }

  lemma LowerOfLowercase(t: string)
    requires forall i :: 0 <= i < |t| ==> t[i] == '.' || 'a' <= t[i] <= 'z'
    ensures Lower(t) == t
  {
  }

  lemma SuffixesAreLowercase()
    ensures forall t :: t in Tlds ==> Lower(t) == t
  {
    forall t | t in Tlds
      ensures Lower(t) == t
    {
      LowerOfLowercase(t);
    }
  }

  /** A suffix whose `k`-th character from the end differs is not there. */
  lemma NoTldAt(s: string, tld: string, k: nat)
    requires k < |tld| && k < |s| && LowerChar(s[|s| - 1 - k]) != tld[|tld| - 1 - k]
    ensures !HasTld(s, tld)
  {
    var l := Lower(s);
    if |tld| <= |s| {
      assert l[|s| - |tld|..][|tld| - 1 - k] == l[|s| - 1 - k];
    }
  }

  /** The facts about `base + t` the round trip needs. */
  lemma Appended(base: string, t: string)
    requires Lower(t) == t
    ensures var s := base + t; HasTld(s, t) && s[..|s| - |t|] == base
  {
    var s := base + t;
    assert s[..|base|] == base;
    var l := Lower(s);
    assert l[|s| - |t|..] == t by {
      forall i | 0 <= i < |t|
        ensures l[|s| - |t|..][i] == t[i]
      {
        assert s[|base| + i] == t[i];
        assert LowerChar(t[i]) == Lower(t)[i];
      }
    }
  }

  /** Stripping `base + t` when `t` is the first suffix that matches. */
  lemma StripFirstMatch(s: string, base: string, t: string)
    requires t in Tlds && HasTld(s, t) && s[..|s| - |t|] == base
    requires forall u :: u in Tlds[..IndexOf(t)] ==> !HasTld(s, u)
    ensures StripTld(s) == base
  {
    var i := IndexOf(t);
    if i >= 1 { assert Tlds[0] in Tlds[..i]; }
    if i >= 2 { assert Tlds[1] in Tlds[..i]; }
    if i >= 3 { assert Tlds[2] in Tlds[..i]; }
    if i >= 4 { assert Tlds[3] in Tlds[..i]; }
  }

  function IndexOf(t: string): (i: nat)
    requires t in Tlds
    ensures i < |Tlds| && Tlds[i] == t
  {
    if t == ".com" then 0 else if t == ".io" then 1 else if t == ".co" then 2
    else if t == ".net" then 3 else 4
  }

  /** In a text ending in `t`, the last two characters lower-case to the
      last two of `t`. */
  lemma TldTail(s: string, t: string)
    requires 2 <= |t| && HasTld(s, t)
    ensures |t| <= |s|
    ensures LowerChar(s[|s| - 1]) == t[|t| - 1] && LowerChar(s[|s| - 2]) == t[|t| - 2]
  {
    var l := Lower(s);
    assert l[|s| - |t|..][|t| - 1] == l[|s| - 1];
    assert l[|s| - |t|..][|t| - 2] == l[|s| - 2];
  }

  /** A text whose last two characters lower-case to those of a suffix
      matches none of the suffixes listed before it. */
  lemma EarlierSuffixesAbsent(s: string, t: string)
    requires t in Tlds && |t| <= |s|
    requires LowerChar(s[|s| - 1]) == t[|t| - 1] && LowerChar(s[|s| - 2]) == t[|t| - 2]
    ensures forall u :: u in Tlds[..IndexOf(t)] ==> !HasTld(s, u)
  {
    forall u | u in Tlds[..IndexOf(t)]
      ensures !HasTld(s, u)
    {
      NoTldAt(s, u, if t == ".co" && u == ".io" then 1 else 0);
    }
  }

  /** A text ending in one of the suffixes, in any case, loses exactly
      that suffix. */
  lemma StripTldMatching(s: string, t: string)
    requires t in Tlds && HasTld(s, t)
    ensures StripTld(s) == s[..|s| - |t|]
  {
    TldTail(s, t);
    EarlierSuffixesAbsent(s, t);
    StripFirstMatch(s, s[..|s| - |t|], t);
  }

  /** Appending any of the suffixes and stripping gives the name back. */
  lemma StripTldRoundTrip(base: string, t: string)
    requires t in Tlds
    ensures StripTld(base + t) == base
  {
    SuffixesAreLowercase();
    Appended(base, t);
    StripTldMatching(base + t, t);
  }

  /** A text ending in none of the suffixes passes through unchanged. */
  lemma StripTldKeepsOthers(s: string)
    requires forall t :: t in Tlds ==> !HasTld(s, t)
    ensures StripTld(s) == s
  {
    assert Tlds[0] in Tlds && Tlds[1] in Tlds && Tlds[2] in Tlds && Tlds[3] in Tlds && Tlds[4] in Tlds;
  }

  /** `.com` goes. */
  lemma StripsCom()
    ensures StripTld("a-b.com") == "a-b"
  {
    assert "a-b" + ".com" == "a-b.com";
    StripTldRoundTrip("a-b", ".com");
  }

  /** `.IO` goes too: the suffix is compared without case. */
  lemma StripsUpperCaseIo()
    ensures StripTld("a_b.IO") == "a_b"
  {
    var s := "a_b.IO";
    assert Lower(s)[3..] == ".io" by {
      assert LowerChar('I') == 'i' && LowerChar('O') == 'o';
    }
    StripTldMatching(s, ".io");
  }

  /** Both separators part words. */
  lemma TitleOfSeparatedWords()
    ensures Title("a-b", true) == "A B"
    ensures Title("a_b", true) == "A B"
  {
    assert Title("b", true) == "B" by {
      assert Title("", false) == "";
    }
    assert Title("-b", false) == " B" by {
      assert "-b"[1..] == "b";
    }
    assert Title("_b", false) == " B" by {
      assert "_b"[1..] == "b";
    }
    assert "a-b"[1..] == "-b";
    assert "a_b"[1..] == "_b";
  }

  lemma CompanyNameExamples()
    ensures CompanyName("a-b.com") == "A B"
    ensures CompanyName("a_b.IO") == "A B"
  {
    StripsCom();
    StripsUpperCaseIo();
    TitleOfSeparatedWords();
  }

  // ------------------------------------------------------------ the draws

  /** The seven `Math.random()` values, in the order they are drawn. */
  datatype Draws = Draws(sga: real, industryAvg: real, revenue: real, competitor: real,
                         competitorStock: real, yourStock: real, evPremium: real)

  predicate Unit(u: real) { 0.0 <= u < 1.0 }

  predicate ValidDraws(d: Draws) {
    Unit(d.sga) && Unit(d.industryAvg) && Unit(d.revenue) && Unit(d.competitor)
    && Unit(d.competitorStock) && Unit(d.yourStock) && Unit(d.evPremium)
  }

  /** SG&A share in percent, in [18, 26). */
  function SgaDraw(u: real): real { 18.0 + u * 8.0 }
  /** Industry average in percent, in [15, 19). */
  function AvgDraw(u: real): real { 15.0 + u * 4.0 }
  /** Revenue in millions, in [150, 500). */
  function RevenueDraw(u: real): real { 150.0 + u * 350.0 }

  /** The yearly excess spend in millions: the share gap applied to revenue. */
  function Bleed(sgaPercent: real, industryAvgSga: real, revenue: real): int {
    Round((sgaPercent - industryAvgSga) * revenue / 100.0)
  }

  const Competitors: seq<string> := ["Acme Corp", "TechVenture", "GlobalSoft", "InnovateCo"]

  /** `Math.floor(u * 4)`: which of the four competitors is named. */
  function CompetitorIndex(u: real): (r: int)
    requires Unit(u)
    ensures 0 <= r < |Competitors|
    ensures r as real <= u * 4.0 < r as real + 1.0
  {
    (u * 4.0).Floor
  }

  /** Competitor's stock move in percent, in [5, 13). */
  function CompetitorStockDraw(u: real): real { 5.0 + u * 8.0 }
  /** Own stock move in percent, in (-5, -1]. */
  function OwnStockDraw(u: real): real { -(1.0 + u * 4.0) }
  /** EV multiple premium, in [2.8, 3.6). */
  function PremiumDraw(u: real): real { 2.8 + u * 0.8 }

  datatype CompanyData = CompanyData(
    domain: string,
    companyName: string,
    sgaPercent: real,
    industryAvgSga: real,
    annualBleed: int,
    competitor: string,
    competitorStockChange: real,
    yourStockChange: real,
    evMultiplePremium: real)

  function GenerateCompanyData(domain: string, d: Draws): (r: CompanyData)
    requires ValidDraws(d)
    ensures r.domain == domain
    ensures r.companyName == Title(StripTld(domain), true)
    // the shares are reported to one decimal ...
    ensures r.sgaPercent == RoundTenth(SgaDraw(d.sga)) && 18.0 <= r.sgaPercent <= 26.0
    ensures r.industryAvgSga == RoundTenth(AvgDraw(d.industryAvg)) && 15.0 <= r.industryAvgSga <= 19.0
    // ... while the bleed is computed from the unrounded draws
    ensures r.annualBleed == Bleed(SgaDraw(d.sga), AvgDraw(d.industryAvg), RevenueDraw(d.revenue))
    ensures -5 <= r.annualBleed <= 55
    ensures r.competitor == Competitors[CompetitorIndex(d.competitor)] && r.competitor in Competitors
    ensures r.competitorStockChange == CompetitorStockDraw(d.competitorStock)
    ensures 5.0 <= r.competitorStockChange < 13.0
    ensures r.yourStockChange == OwnStockDraw(d.yourStock)
    ensures -5.0 < r.yourStockChange <= -1.0
    ensures r.evMultiplePremium == PremiumDraw(d.evPremium)
    ensures 2.8 <= r.evMultiplePremium < 3.6
  {
    var sga := SgaDraw(d.sga);
    var avg := AvgDraw(d.industryAvg);
    var revenue := RevenueDraw(d.revenue);
    BleedRange(d.sga, d.industryAvg, d.revenue);
    RoundTenthMonotone(18.0, sga);
    RoundTenthMonotone(sga, 26.0);
    RoundTenthMonotone(15.0, avg);
    RoundTenthMonotone(avg, 19.0);
    assert RoundTenth(18.0) == 18.0 && RoundTenth(26.0) == 26.0;
    assert RoundTenth(15.0) == 15.0 && RoundTenth(19.0) == 19.0;
    CompanyData(domain, CompanyName(domain), RoundTenth(sga), RoundTenth(avg),
                Bleed(sga, avg, revenue), Competitors[CompetitorIndex(d.competitor)],
                CompetitorStockDraw(d.competitorStock), OwnStockDraw(d.yourStock),
                PremiumDraw(d.evPremium))
  }

  /** Each competitor is named for exactly a quarter of the draws: the
      i-th for draws in [i/4, (i+1)/4). */
  lemma CompetitorQuarters(u: real, i: int)
    requires Unit(u) && 0 <= i < |Competitors|
    ensures CompetitorIndex(u) == i <==> i as real / 4.0 <= u < (i + 1) as real / 4.0
  {
  }

  /** The gap between the drawn shares lies in (-1, 11) percentage points,
      so the bleed lies between -5 and 55 million: it can be negative. */
  lemma BleedRange(u1: real, u2: real, u3: real)
    requires Unit(u1) && Unit(u2) && Unit(u3)
    ensures -1.0 < SgaDraw(u1) - AvgDraw(u2) < 11.0
    ensures -5 <= Bleed(SgaDraw(u1), AvgDraw(u2), RevenueDraw(u3)) <= 55
  {
    var gap := SgaDraw(u1) - AvgDraw(u2);
    var revenue := RevenueDraw(u3);
    assert 150.0 <= revenue < 500.0;
    MulStrict(gap, 11.0, revenue);
    assert gap * revenue < 11.0 * revenue;
    MulStrict(-1.0, gap, revenue);
    assert -1.0 * revenue < gap * revenue;
    RoundMonotone(-5.0, gap * revenue / 100.0);
    RoundMonotone(gap * revenue / 100.0, 55.0);
  }

  /** A high industry average against a low own share gives a negative bleed. */
  lemma NegativeBleedIsPossible()
    ensures var d := Draws(0.0, 0.99, 0.99, 0.0, 0.0, 0.0, 0.0);
      ValidDraws(d) && GenerateCompanyData("a.com", d).annualBleed == -5
  {
    assert Bleed(18.0, 18.96, 496.5) == -5;
  }

  /** Recomputing the bleed from the one-decimal shares on screen can give
      another figure than the one reported. */
  lemma BleedIsNotFromReportedShares()
    ensures var d := Draws(0.00625, 0.0, 3.0 / 35.0, 0.0, 0.0, 0.0, 0.0);
      var r := GenerateCompanyData("a.com", d);
      ValidDraws(d) && r.annualBleed == 5
      && Bleed(r.sgaPercent, r.industryAvgSga, RevenueDraw(d.revenue)) == 6
  {
    assert RevenueDraw(3.0 / 35.0) == 180.0;
    assert RoundTenth(18.05) == 18.1;
    assert RoundTenth(15.0) == 15.0;
    assert Bleed(18.05, 15.0, 180.0) == 5;
    assert Bleed(18.1, 15.0, 180.0) == 6;
  }

  // ------------------------------------------------------------ the screen

  datatype Diagnostic = Diagnostic(
    domain: string,
    isAnalyzing: bool,
    analysisPhase: nat,
    companyData: Option<CompanyData>,
    showResults: bool)

  /** The labels shown while the analysis runs. */
  const AnalysisPhases: seq<string> := [
    "Pulling SEC filings...",
    "Calculating your SG&A delta...",
    "Benchmarking against 847 competitors...",
    "Quantifying the damage..."]

  function Initial(): Diagnostic {
    Diagnostic("", false, 0, None, false)
  }

  /** Typing a domain ending in `.com` starts the analysis by itself, unless
      one is running or a result is already there. */
  predicate AutoAnalyzes(st: Diagnostic) {
    EndsWith(Lower(st.domain), ".com") && !st.isAnalyzing && st.companyData.None?
  }

  /** `handleAnalyze` proceeds only with a domain and no analysis running. */
  predicate AnalyzeProceeds(st: Diagnostic) {
    st.domain != "" && !st.isAnalyzing
  }

  /** The label index on screen: the last label once the loop passes it. */
  function DisplayedPhase(phase: nat): (r: nat)
    ensures r < |AnalysisPhases|
    ensures phase < |AnalysisPhases| ==> r == phase
    ensures phase >= |AnalysisPhases| ==> r == |AnalysisPhases| - 1
  {
    MinInt(phase, |AnalysisPhases| - 1)
  }

  /** The phases `handleAnalyze` sets, in order: 0, then 1 up to 4. */
  function PhasesSet(): (r: seq<nat>)
    ensures |r| == |AnalysisPhases| + 1
    ensures forall i :: 0 <= i < |r| ==> r[i] == i
  {
    seq(|AnalysisPhases| + 1, i requires 0 <= i <= |AnalysisPhases| => i)
  }

  /** `handleAnalyze` run to completion: it either does nothing or walks
      the phases, generates the data and shows the results. */
  function Analyze(st: Diagnostic, d: Draws): (r: Diagnostic)
    requires ValidDraws(d)
    ensures !AnalyzeProceeds(st) ==> r == st
    ensures AnalyzeProceeds(st) ==> r == st.(isAnalyzing := false, analysisPhase := |AnalysisPhases|,
      companyData := Some(GenerateCompanyData(st.domain, d)), showResults := true)
  {
    if !AnalyzeProceeds(st) then st
    else
      var started := st.(isAnalyzing := true, analysisPhase := 0);
      var walked := started.(analysisPhase := PhasesSet()[|AnalysisPhases|]);
      walked.(companyData := Some(GenerateCompanyData(st.domain, d)), isAnalyzing := false,
              showResults := true)
  }

  /** `handleContinue`: the data goes forward only once it exists. */
  function Continue(st: Diagnostic): (r: Option<CompanyData>)
    ensures r.Some? <==> st.companyData.Some?
    ensures r.Some? ==> r.value == st.companyData.value
  {
    if st.companyData.Some? then Some(st.companyData.value) else None
  }

  /** Whenever the automatic trigger fires, the analysis does start. */
  lemma AutoAnalysisProceeds(st: Diagnostic)
    requires AutoAnalyzes(st)
    ensures AnalyzeProceeds(st)
  {
    assert |Lower(st.domain)| >= 4;
  }

  /** Every phase set during a run shows a label, the last two the same one. */
  lemma PhasesAllDisplay()
    ensures forall i :: 0 <= i < |PhasesSet()| ==> DisplayedPhase(PhasesSet()[i]) < |AnalysisPhases|
    ensures DisplayedPhase(PhasesSet()[3]) == DisplayedPhase(PhasesSet()[4]) == 3
  {
  }

  /** After one analysis the trigger does not fire again, and continuing
      forwards exactly the generated data. */
  lemma AnalyzeOnce(st: Diagnostic, d: Draws)
    requires ValidDraws(d) && AnalyzeProceeds(st)
    ensures !AutoAnalyzes(Analyze(st, d))
    ensures Continue(Analyze(st, d)) == Some(GenerateCompanyData(st.domain, d))
  {
  }

  /** Nothing is forwarded before an analysis has run. */
  lemma NothingToContinueInitially()
    ensures Continue(Initial()).None?
  {
  }
}

=== FILE: step1.dfy ===
/** Chapter one: the yearly bleed split over four value drivers, each with
    what a first- and a second-generation rollout would recover. */
module Step1FinancialDetonator {
  import opened Wrappers
  import opened Numeric

  /** `companyData?.annualBleed || 43`: a missing or zero bleed becomes 43
      (millions); any other value, negative ones included, is kept. */
  function BleedOrDefault(annualBleed: Option<int>): (r: int)
    ensures r != 0
    ensures annualBleed.None? || annualBleed == Some(0) ==> r == 43
    ensures annualBleed.Some? && annualBleed.value != 0 ==> r == annualBleed.value
  {
    if annualBleed.Some? && annualBleed.value != 0 then annualBleed.value else 43
  }

  /** A driver's two recovery ratios. */
  datatype Ratios = Ratios(id: string, name: string, genai1: real, genai2: real)

  const DriverRatios: seq<Ratios> := [
    Ratios("cost", "Cost", 0.074, 0.435),
    Ratios("revenue", "Revenue", 0.12, 0.52),
    Ratios("capital", "Capital", 0.08, 0.38),
    Ratios("risk", "Risk", 0.05, 0.28)]

  datatype Driver = Driver(id: string, name: string, genai1Savings: int, genai2Savings: int)

  /** A driver's savings: its ratios applied to the bleed, rounded. */
  function DriverOf(bleed: int, ratios: Ratios): (d: Driver)
    ensures d.id == ratios.id && d.name == ratios.name
    ensures bleed as real * ratios.genai1 - 0.5 < d.genai1Savings as real <= bleed as real * ratios.genai1 + 0.5
    ensures bleed as real * ratios.genai2 - 0.5 < d.genai2Savings as real <= bleed as real * ratios.genai2 + 0.5
  {
    Driver(ratios.id, ratios.name, Round(bleed as real * ratios.genai1), Round(bleed as real * ratios.genai2))
  }

  function Drivers(bleed: int): (r: seq<Driver>)
    ensures |r| == |DriverRatios|
    ensures forall i :: 0 <= i < |r| ==> r[i] == DriverOf(bleed, DriverRatios[i])
    // four distinct ids, so a click names at most one driver ...
    ensures forall i, j :: 0 <= i < j < |r| ==> r[i].id != r[j].id
    // ... and each figure is within half a million of its share of the bleed
    ensures forall i :: 0 <= i < |r| ==>
      && bleed as real * DriverRatios[i].genai1 - 0.5 < r[i].genai1Savings as real <= bleed as real * DriverRatios[i].genai1 + 0.5
      && bleed as real * DriverRatios[i].genai2 - 0.5 < r[i].genai2Savings as real <= bleed as real * DriverRatios[i].genai2 + 0.5
  {
    DriverIdsDistinct();
    seq(|DriverRatios|, i requires 0 <= i < |DriverRatios| => DriverOf(bleed, DriverRatios[i]))
  }

  /** The sum of the drivers' second-generation savings. */
  function TotalGenai2(drivers: seq<Driver>): int {
    if |drivers| == 0 then 0 else drivers[0].genai2Savings + TotalGenai2(drivers[1..])
  }

  /** `Math.round(savings / annualBleed * 100)`; the bleed is never 0 (see
      `BleedOrDefault`). */
  function RecoveryPercent(savings: int, bleed: int): (r: int)
    requires bleed != 0
    ensures savings as real / bleed as real * 100.0 - 0.5 < r as real <= savings as real / bleed as real * 100.0 + 0.5
  {
    Round(savings as real / bleed as real * 100.0)
  }

  /** `drivers.find(d => d.id === selectedDriver)`: the first driver with
      that id, if any. */
  function FindDriver(drivers: seq<Driver>, id: string): (r: Option<Driver>)
    ensures r.Some? <==> exists i :: 0 <= i < |drivers| && drivers[i].id == id
    ensures r.Some? ==> r.value in drivers && r.value.id == id
    // the first match: no earlier driver has the id
    ensures r.Some? ==> exists i :: 0 <= i < |drivers| && drivers[i] == r.value
                          && forall j :: 0 <= j < i ==> drivers[j].id != id
  {
    if |drivers| == 0 then None
    else if drivers[0].id == id then Some(drivers[0])
    else
      var r := FindDriver(drivers[1..], id);
      assert forall i :: 1 <= i < |drivers| ==> drivers[i] == drivers[1..][i - 1];
      r
  }

  /** The screen's selection: clicking a driver selects it and opens the
      comparison panel. */
  datatype Selection = Selection(selectedDriver: Option<string>, showComparison: bool)

  function ClickDriver(st: Selection, id: string): (r: Selection)
    ensures r.selectedDriver == Some(id) && r.showComparison
  {
    Selection(Some(id), true)
  }

  /** The panel shows a driver exactly when one was clicked and it is in the
      list; it is the clicked one. */
  function Comparison(st: Selection, drivers: seq<Driver>): (r: Option<Driver>)
    ensures r.Some? <==> st.showComparison && st.selectedDriver.Some?
                         && exists i :: 0 <= i < |drivers| && drivers[i].id == st.selectedDriver.value
    ensures r.Some? ==> r.value.id == st.selectedDriver.value
  {
    if st.showComparison && st.selectedDriver.Some? then FindDriver(drivers, st.selectedDriver.value)
    else None
  }

  // ------------------------------------------------------------ properties

  /** The four ids are distinct, so a click picks one driver. */
  lemma DriverIdsDistinct()
    ensures forall i, j :: 0 <= i < j < |DriverRatios| ==> DriverRatios[i].id != DriverRatios[j].id
  {
  }

  /** Clicking any of the four drivers shows that very driver. */
  lemma ClickShowsDriver(st: Selection, bleed: int, i: nat)
    requires i < |DriverRatios|
    ensures Comparison(ClickDriver(st, DriverRatios[i].id), Drivers(bleed)) == Some(Drivers(bleed)[i])
  {
    var drivers := Drivers(bleed);
    assert drivers[i].id == DriverRatios[i].id;
    DriverIdsDistinct();
    assert drivers[0].id == "cost" && drivers[1].id == "revenue";
    assert drivers[2].id == "capital" && drivers[3].id == "risk";
    assert drivers[1..][1..][1..] == [drivers[3]];
  }

  /** With a non-negative bleed the second generation recovers at least as
      much as the first on every driver, so the difference shown is never
      negative. */
  lemma Genai2AtLeastGenai1(bleed: int)
    requires bleed >= 0
    ensures forall d :: d in Drivers(bleed) ==> d.genai2Savings >= d.genai1Savings
  {
    forall i | 0 <= i < |DriverRatios|
      ensures Drivers(bleed)[i].genai2Savings >= Drivers(bleed)[i].genai1Savings
    {
      var r := DriverRatios[i];
      assert r.genai1 <= r.genai2;
      assert bleed as real * r.genai1 <= bleed as real * r.genai2;
      RoundMonotone(bleed as real * r.genai1, bleed as real * r.genai2);
    }
  }

  /** Every share grows with the bleed. */
  lemma SharesMonotone(b1: int, b2: int)
    requires b1 <= b2
    ensures forall i :: 0 <= i < |DriverRatios| ==>
      Drivers(b1)[i].genai1Savings <= Drivers(b2)[i].genai1Savings
      && Drivers(b1)[i].genai2Savings <= Drivers(b2)[i].genai2Savings
  {
    forall i | 0 <= i < |DriverRatios|
      ensures Drivers(b1)[i].genai1Savings <= Drivers(b2)[i].genai1Savings
      ensures Drivers(b1)[i].genai2Savings <= Drivers(b2)[i].genai2Savings
    {
      RatiosNonNegative();
      DriverOfMonotone(b1, b2, DriverRatios[i]);
    }
  }

  /** No ratio is negative. */
  lemma RatiosNonNegative()
    ensures forall i :: 0 <= i < |DriverRatios| ==> DriverRatios[i].genai1 >= 0.0 && DriverRatios[i].genai2 >= 0.0
  {
  }

  /** One driver's shares grow with the bleed when its ratios are not negative. */
  lemma DriverOfMonotone(b1: int, b2: int, ratios: Ratios)
    requires b1 <= b2 && ratios.genai1 >= 0.0 && ratios.genai2 >= 0.0
    ensures DriverOf(b1, ratios).genai1Savings <= DriverOf(b2, ratios).genai1Savings
    ensures DriverOf(b1, ratios).genai2Savings <= DriverOf(b2, ratios).genai2Savings
  {
    RoundedShareMonotone(b1, b2, ratios.genai1);
    RoundedShareMonotone(b1, b2, ratios.genai2);
  }

  /** A rounded share of the bleed grows with the bleed. */
  lemma RoundedShareMonotone(b1: int, b2: int, ratio: real)
    requires b1 <= b2 && ratio >= 0.0
    ensures Round(b1 as real * ratio) <= Round(b2 as real * ratio)
  {
    MulMonotone(b1 as real, b2 as real, ratio);
    RoundMonotone(b1 as real * ratio, b2 as real * ratio);
  }

  lemma TotalOfFour(drivers: seq<Driver>)
    requires |drivers| == 4
    ensures TotalGenai2(drivers) == drivers[0].genai2Savings + drivers[1].genai2Savings
                                   + drivers[2].genai2Savings + drivers[3].genai2Savings
  {
    assert drivers[3..][1..] == [];
    assert drivers[2..][1..] == drivers[3..];
    assert drivers[1..][1..] == drivers[2..];
    assert TotalGenai2(drivers[3..]) == drivers[3].genai2Savings;
    assert TotalGenai2(drivers[2..]) == drivers[2].genai2Savings + TotalGenai2(drivers[3..]);
    assert TotalGenai2(drivers[1..]) == drivers[1].genai2Savings + TotalGenai2(drivers[2..]);
  }

  /** The total is the bleed times the summed ratios (1.615), give or take
      the four roundings; from a bleed of 4 up it exceeds the bleed itself
      (below that the roundings can eat the margin). */
  lemma TotalNearBleedShare(bleed: int)
    ensures var t := TotalGenai2(Drivers(bleed)) as real;
      bleed as real * 1.615 - 2.0 <= t <= bleed as real * 1.615 + 2.0
    ensures bleed >= 4 ==> TotalGenai2(Drivers(bleed)) > bleed
  {
    var d := Drivers(bleed);
    TotalOfFour(d);
    assert d[0] == DriverOf(bleed, DriverRatios[0]) && d[1] == DriverOf(bleed, DriverRatios[1]);
    assert d[2] == DriverOf(bleed, DriverRatios[2]) && d[3] == DriverOf(bleed, DriverRatios[3]);
  }

  /** With the default bleed of 43 the second-generation savings are 19,
      22, 16 and 12, together 69. */
  lemma DefaultDrivers()
    ensures var d := Drivers(BleedOrDefault(None));
      && d[0].genai2Savings == 19 && d[1].genai2Savings == 22
      && d[2].genai2Savings == 16 && d[3].genai2Savings == 12
      && TotalGenai2(d) == 69
  {
    var d := Drivers(43);
    assert d[0] == DriverOf(43, DriverRatios[0]) && d[1] == DriverOf(43, DriverRatios[1]);
    assert d[2] == DriverOf(43, DriverRatios[2]) && d[3] == DriverOf(43, DriverRatios[3]);
    assert Round(43.0 * 0.435) == 19 && Round(43.0 * 0.52) == 22;
    assert Round(43.0 * 0.38) == 16 && Round(43.0 * 0.28) == 12;
    TotalOfFour(d);
  }

  /** On the default bleed, the cost driver's second-generation savings of
      19 recover 44% of it. */
  lemma DefaultCostRecovery()
    ensures RecoveryPercent(19, BleedOrDefault(None)) == 44
  {
    assert 19.0 / 43.0 * 100.0 == 1900.0 / 43.0;
  }
}

=== FILE: step2.dfy ===
/** Chapter two: eight friction points ranked by the money they waste each
    week, live counters that burn each point's cost per minute on every
    tick, and the choice of one point to carry forward. */
module Step2FrictionPoints {
  import opened Wrappers
  import opened Ranking

  datatype FrictionPoint = FrictionPoint(
    id: string,
    name: string,
    hoursPerWeek: real,
    costPerMinute: real,
    competitorSolvedWeeks: int,
    failedExperiments: seq<string>,
    genai2Accuracy: real)

  const Procurement := FrictionPoint("procurement", "Procurement", 47.0, 2.45, 11,
    ["Claude for POs: 34% hallucination on terms", "GPT-4 wrapper: 2hr latency", "Copilot: No ERP integration"], 98.7)
  const Finance := FrictionPoint("finance", "Finance & Accounting", 62.0, 3.20, 8,
    ["ChatGPT for reconciliation: 12% error rate", "Bard for forecasting: Missed Q3 by 23%"], 99.2)
  const Hr := FrictionPoint("hr", "HR & Talent", 38.0, 1.85, 6,
    ["AI screening: Bias detected", "Chatbot onboarding: 45% abandonment"], 97.8)
  const Legal := FrictionPoint("legal", "Legal & Compliance", 54.0, 4.50, 14,
    ["Contract review AI: Missed liability clauses", "Compliance bot: False positives"], 99.5)
  const Customer := FrictionPoint("customer", "Customer Service", 120.0, 1.20, 4,
    ["Basic chatbot: 67% escalation rate", "Voice AI: Accent failures"], 96.4)
  const Sales := FrictionPoint("sales", "Sales Operations", 45.0, 2.80, 9,
    ["Lead scoring AI: 28% accuracy", "Email gen: Generic, ignored"], 94.2)
  const ItOperations := FrictionPoint("it", "IT Operations", 72.0, 3.60, 7,
    ["Ticket routing: 40% misclassification", "Code assist: Security vulnerabilities"], 98.1)
  const SupplyChain := FrictionPoint("supply", "Supply Chain", 58.0, 2.90, 12,
    ["Demand forecasting: 35% MAPE", "Inventory AI: Stockouts increased"], 97.3)

  /** The table, in declaration order. */
  const FrictionPoints: seq<FrictionPoint> :=
    [Procurement, Finance, Hr, Legal, Customer, Sales, ItOperations, SupplyChain]

  predicate DistinctIds(fs: seq<FrictionPoint>) {
    forall i, j :: 0 <= i < j < |fs| ==> fs[i].id != fs[j].id
  }

  /** Dollars lost per week: hours times the per-minute cost times 60. */
  function WeeklyWaste(f: FrictionPoint): real {
    f.hoursPerWeek * f.costPerMinute * 60.0
  }

  /** The table ranked by weekly waste, highest first (a stable sort of a
      copy; the table itself keeps its order). */
  function SortedFrictions(): (r: seq<FrictionPoint>)
    ensures multiset(r) == multiset(FrictionPoints)
    ensures NonIncreasing(r, WeeklyWaste)
  {
    SortDesc(FrictionPoints, WeeklyWaste)
  }

  /** The "Highest" badge goes on the first row of the ranking only. */
  function HasHighestBadge(index: nat): bool {
    index == 0
  }

  // ------------------------------------------------------------ the counters

  /** The counter for `id`; a missing or zero counter reads as 0 (`|| 0`). */
  function Reading(tickers: map<string, real>, id: string): real {
    if id in tickers then tickers[id] else 0.0
  }

  datatype Counters = Counters(tickers: map<string, real>, totalBurned: real)

  /** The `forEach` of one tick: each point's counter becomes its previous
      reading plus its cost per minute, and the running total adds the new
      value. */
  function TickFrom(fs: seq<FrictionPoint>, prev: map<string, real>, updated: map<string, real>, total: real): Counters {
    if |fs| == 0 then Counters(updated, total)
    else
      var v := Reading(prev, fs[0].id) + fs[0].costPerMinute;
      TickFrom(fs[1..], prev, updated[fs[0].id := v], total + v)
  }

  /** Sum of the points' next readings. */
  function NextSum(fs: seq<FrictionPoint>, prev: map<string, real>): real {
    if |fs| == 0 then 0.0 else Reading(prev, fs[0].id) + fs[0].costPerMinute + NextSum(fs[1..], prev)
  }

  /** The ids of the points. */
  function Ids(fs: seq<FrictionPoint>): (r: set<string>)
    ensures forall f :: f in fs ==> f.id in r
  {
    if |fs| == 0 then {} else {fs[0].id} + Ids(fs[1..])
  }

  lemma {:induction false} IdsOnlyOfPoints(fs: seq<FrictionPoint>, id: string)
    requires id in Ids(fs)
    ensures exists f :: f in fs && f.id == id
  {
    if id != fs[0].id {
      IdsOnlyOfPoints(fs[1..], id);
      var f :| f in fs[1..] && f.id == id;
      assert f in fs;
    }
  }

  /** One tick over a table with distinct ids: every point's counter gains
      its cost per minute, any other counter is untouched, and the total is
      the sum of the new readings. */
  lemma TickFromSpec(fs: seq<FrictionPoint>, prev: map<string, real>, updated: map<string, real>, total: real)
    requires DistinctIds(fs)
    ensures var c := TickFrom(fs, prev, updated, total);
      && c.tickers.Keys == updated.Keys + Ids(fs)
      && (forall f :: f in fs ==> c.tickers[f.id] == Reading(prev, f.id) + f.costPerMinute)
      && (forall id :: id in updated && id !in Ids(fs) ==> c.tickers[id] == updated[id])
      && c.totalBurned == total + NextSum(fs, prev)
  {
    TickFromKeys(fs, prev, updated, total);
    TickFromOthers(fs, prev, updated, total);
    TickFromPoints(fs, prev, updated, total);
  }

  /** The counters after a tick are the old ones plus one per point, and
      the total grows by the sum of the new readings. */
  lemma {:induction false} TickFromKeys(fs: seq<FrictionPoint>, prev: map<string, real>, updated: map<string, real>, total: real)
    ensures var c := TickFrom(fs, prev, updated, total);
      && c.tickers.Keys == updated.Keys + Ids(fs)
      && c.totalBurned == total + NextSum(fs, prev)
  {
    if |fs| > 0 {
      var v := Reading(prev, fs[0].id) + fs[0].costPerMinute;
      TickFromKeys(fs[1..], prev, updated[fs[0].id := v], total + v);
    }
  }

  /** A counter of no point in the table keeps its value. */
  lemma {:induction false} TickFromOthers(fs: seq<FrictionPoint>, prev: map<string, real>, updated: map<string, real>, total: real)
    ensures var c := TickFrom(fs, prev, updated, total);
      forall id :: id in updated && id !in Ids(fs) ==> id in c.tickers && c.tickers[id] == updated[id]
  {
    TickFromKeys(fs, prev, updated, total);
    if |fs| > 0 {
      var v := Reading(prev, fs[0].id) + fs[0].costPerMinute;
      TickFromOthers(fs[1..], prev, updated[fs[0].id := v], total + v);
    }
  }

  /** Each point's counter is its previous reading plus its cost. */
  lemma {:induction false} TickFromPoints(fs: seq<FrictionPoint>, prev: map<string, real>, updated: map<string, real>, total: real)
    requires DistinctIds(fs)
    ensures var c := TickFrom(fs, prev, updated, total);
      forall f :: f in fs ==> f.id in c.tickers && c.tickers[f.id] == Reading(prev, f.id) + f.costPerMinute
  {
    if |fs| > 0 {
      var f := fs[0];
      var rest := fs[1..];
      var v := Reading(prev, f.id) + f.costPerMinute;
      var c := TickFrom(fs, prev, updated, total);
      assert c == TickFrom(rest, prev, updated[f.id := v], total + v);
      DistinctTail(fs);
      TickFromPoints(rest, prev, updated[f.id := v], total + v);
      HeadIdNotInTail(fs);
      TickFromOthers(rest, prev, updated[f.id := v], total + v);
      assert f.id in c.tickers && c.tickers[f.id] == v;
      forall g | g in fs
        ensures g.id in c.tickers && c.tickers[g.id] == Reading(prev, g.id) + g.costPerMinute
      {
        if g != f {
          assert fs == [f] + rest;
          assert g in rest;
        }
      }
    }
  }

  lemma DistinctTail(fs: seq<FrictionPoint>)
    requires |fs| > 0 && DistinctIds(fs)
    ensures DistinctIds(fs[1..])
  {
    forall i, j | 0 <= i < j < |fs[1..]|
      ensures fs[1..][i].id != fs[1..][j].id
    {
      assert fs[1..][i] == fs[i + 1] && fs[1..][j] == fs[j + 1];
    }
  }

  lemma HeadIdNotInTail(fs: seq<FrictionPoint>)
    requires |fs| > 0 && DistinctIds(fs)
    ensures fs[0].id !in Ids(fs[1..])
  {
    forall j | 0 <= j < |fs[1..]|
      ensures fs[1..][j].id != fs[0].id
    {
      assert fs[1..][j] == fs[j + 1];
    }
    NotInIds(fs[1..], fs[0].id);
  }

  lemma {:induction false} NotInIds(fs: seq<FrictionPoint>, id: string)
    requires forall j :: 0 <= j < |fs| ==> fs[j].id != id
    ensures id !in Ids(fs)
  {
    if |fs| > 0 {
      NotInIds(fs[1..], id);
    }
  }

  /** `setCostTickers(prev => ...)`: one tick over the whole table. */
  function Tick(fs: seq<FrictionPoint>, prev: map<string, real>): Counters {
    TickFrom(fs, prev, prev, 0.0)
  }

  /** Over a table with distinct ids, a tick adds each point's cost per
      minute to its counter, leaves every other counter alone, and reports
      the sum of the new readings. */
  lemma TickSpec(fs: seq<FrictionPoint>, prev: map<string, real>)
    requires DistinctIds(fs)
    ensures var r := Tick(fs, prev);
      && r.tickers.Keys == prev.Keys + Ids(fs)
      && (forall f :: f in fs ==> r.tickers[f.id] == Reading(prev, f.id) + f.costPerMinute)
      && (forall id :: id in prev && id !in Ids(fs) ==> r.tickers[id] == prev[id])
      && r.totalBurned == NextSum(fs, prev)
  {
    TickFromSpec(fs, prev, prev, 0.0);
  }

  /** Every counter starts at 0. */
  function InitialTickers(fs: seq<FrictionPoint>): (m: map<string, real>)
    ensures m.Keys == Ids(fs)
    ensures forall id :: id in m ==> m[id] == 0.0
  {
    map id | id in Ids(fs) :: 0.0
  }

  /** The counters after `n` ticks from the start. */
  function Ticks(fs: seq<FrictionPoint>, n: nat): Counters {
    if n == 0 then Counters(InitialTickers(fs), 0.0) else Tick(fs, Ticks(fs, n - 1).tickers)
  }

  /** Summing the per-minute costs. */
  function CostSum(fs: seq<FrictionPoint>): real {
    if |fs| == 0 then 0.0 else fs[0].costPerMinute + CostSum(fs[1..])
  }

  // ------------------------------------------------------------ selection

  datatype Selection = Selection(selectedId: Option<string>, expandedId: Option<string>)

  /** `handleSelect`: the point becomes both selected and expanded, and it is
      handed on to the parent. */
  function Select(st: Selection, f: FrictionPoint): (r: (Selection, FrictionPoint))
    ensures r.0.selectedId == Some(f.id) && r.0.expandedId == Some(f.id)
    ensures r.1 == f
  {
    (Selection(Some(f.id), Some(f.id)), f)
  }

  /** `disabled={!selectedId}`: the button needs a non-empty selected id. */
  predicate ContinueEnabled(st: Selection) {
    st.selectedId.Some? && st.selectedId.value != ""
  }

  // ------------------------------------------------------------ properties

  lemma TableIdsDistinct()
    ensures DistinctIds(FrictionPoints)
    ensures |FrictionPoints| == 8
  {
  }

  /** Weekly wastes of the table, in declaration order. */
  lemma WeeklyWastes()
    ensures WeeklyWaste(Procurement) == 6909.0 && WeeklyWaste(Finance) == 11904.0
    ensures WeeklyWaste(Hr) == 4218.0 && WeeklyWaste(Legal) == 14580.0
    ensures WeeklyWaste(Customer) == 8640.0 && WeeklyWaste(Sales) == 7560.0
    ensures WeeklyWaste(ItOperations) == 15552.0 && WeeklyWaste(SupplyChain) == 10092.0
  {
  }

  /** In a ranking, an item that strictly beats every other item of the
      input comes first. */
  lemma StrictMaximumFirst<T>(s: seq<T>, key: T -> real, k: nat)
    requires k < |s|
    requires forall i :: 0 <= i < |s| && i != k ==> key(s[i]) < key(s[k])
    ensures |SortDesc(s, key)| > 0 && SortDesc(s, key)[0] == s[k]
  {
    var sorted := SortDesc(s, key);
    assert s[k] in multiset(sorted);
    var j :| 0 <= j < |sorted| && sorted[j] == s[k];
    assert key(sorted[0]) >= key(s[k]);
    assert sorted[0] in multiset(s);
    var i :| 0 <= i < |s| && s[i] == sorted[0];
  }

  /** IT Operations wastes strictly more than every other point. */
  lemma ItOperationsWastesMost()
    ensures |FrictionPoints| == 8 && FrictionPoints[6] == ItOperations
    ensures forall i :: 0 <= i < |FrictionPoints| && i != 6 ==>
      WeeklyWaste(FrictionPoints[i]) < WeeklyWaste(FrictionPoints[6])
  {
    WeeklyWastes();
  }

  /** ... so it heads the ranking and carries the badge. */
  lemma ItOperationsRanksFirst()
    ensures |SortedFrictions()| == 8 && SortedFrictions()[0] == ItOperations
  {
    ItOperationsWastesMost();
    StrictMaximumFirst(FrictionPoints, WeeklyWaste, 6);
  }

  /** Whatever carries the badge wastes at least as much as every other row. */
  lemma BadgeRowWastesMost()
    ensures forall j :: 0 <= j < |SortedFrictions()| && !HasHighestBadge(j) ==>
      WeeklyWaste(SortedFrictions()[j]) <= WeeklyWaste(SortedFrictions()[0])
  {
    HeadIsMaximum(FrictionPoints, WeeklyWaste);
  }

  /** The per-minute costs add up to 22.5. */
  lemma CostsSumTo()
    ensures CostSum(FrictionPoints) == 22.5
  {
    var fs := FrictionPoints;
    assert CostSum(fs[8..]) == 0.0;
    assert CostSum(fs[7..]) == 2.90 by { assert fs[7..][1..] == fs[8..]; }
    assert CostSum(fs[6..]) == 6.50 by { assert fs[6..][1..] == fs[7..]; }
    assert CostSum(fs[5..]) == 9.30 by { assert fs[5..][1..] == fs[6..]; }
    assert CostSum(fs[4..]) == 10.50 by { assert fs[4..][1..] == fs[5..]; }
    assert CostSum(fs[3..]) == 15.00 by { assert fs[3..][1..] == fs[4..]; }
    assert CostSum(fs[2..]) == 16.85 by { assert fs[2..][1..] == fs[3..]; }
    assert CostSum(fs[1..]) == 20.05 by { assert fs[1..][1..] == fs[2..]; }
  }

  lemma NextMultiple(k: real, c: real, next: real)
    requires next == k + 1.0
    ensures k * c + c == next * c
  {
  }

  lemma Distribute(k: real, a: real, b: real)
    ensures k * (a + b) == k * a + k * b
  {
  }

  /** When every point reads `k` minutes of its cost, the next readings sum
      to `k + 1` minutes of the total cost. */
  lemma {:induction false} NextSumOfMultiples(fs: seq<FrictionPoint>, prev: map<string, real>, k: real, next: real)
    requires next == k + 1.0
    requires forall i :: 0 <= i < |fs| ==> Reading(prev, fs[i].id) == k * fs[i].costPerMinute
    ensures NextSum(fs, prev) == next * CostSum(fs)
  {
    if |fs| > 0 {
      var rest := fs[1..];
      assert forall i :: 0 <= i < |rest| ==> rest[i] == fs[i + 1];
      NextSumOfMultiples(rest, prev, k, next);
      MultiplesStep(Reading(prev, fs[0].id), fs[0].costPerMinute, NextSum(rest, prev), CostSum(rest), k, next);
    }
  }

  /** The arithmetic of one step: `k c + c + next r == next (c + r)`. */
  lemma MultiplesStep(reading: real, c: real, restSum: real, restCost: real, k: real, next: real)
    requires next == k + 1.0 && reading == k * c && restSum == next * restCost
    ensures reading + c + restSum == next * (c + restCost)
  {
    NextMultiple(k, c, next);
    Distribute(next, c, restCost);
  }

  /** A tick from counters holding `k` minutes of cost leaves them holding
      `k + 1` minutes. */
  lemma TickOfMultiples(fs: seq<FrictionPoint>, prev: map<string, real>, k: real, next: real)
    requires DistinctIds(fs) && next == k + 1.0
    requires prev.Keys == Ids(fs)
    requires forall f :: f in fs ==> prev[f.id] == k * f.costPerMinute
    ensures var c := Tick(fs, prev);
      && c.tickers.Keys == Ids(fs)
      && (forall f :: f in fs ==> c.tickers[f.id] == next * f.costPerMinute)
      && c.totalBurned == next * CostSum(fs)
  {
    var c := Tick(fs, prev);
    TickSpec(fs, prev);
    forall f | f in fs
      ensures c.tickers[f.id] == next * f.costPerMinute
    {
      NextMultiple(k, f.costPerMinute, next);
    }
    assert forall i :: 0 <= i < |fs| ==> fs[i] in fs;
    NextSumOfMultiples(fs, prev, k, next);
  }

  /** The start: every counter reads 0. */
  lemma TicksBase(fs: seq<FrictionPoint>)
    requires DistinctIds(fs)
    ensures var c := Ticks(fs, 0);
      && c.tickers.Keys == Ids(fs)
      && (forall f :: f in fs ==> c.tickers[f.id] == 0.0 * f.costPerMinute)
      && c.totalBurned == 0.0 * CostSum(fs)
  {
  }

  /** After `n` ticks from zero, each counter holds `n` minutes of its cost
      and the total is `n` minutes of the summed costs. */
  lemma {:induction false} TicksOfMultiples(fs: seq<FrictionPoint>, n: nat)
    requires DistinctIds(fs)
    ensures var c := Ticks(fs, n);
      && c.tickers.Keys == Ids(fs)
      && (forall f :: f in fs ==> c.tickers[f.id] == n as real * f.costPerMinute)
      && c.totalBurned == n as real * CostSum(fs)
  {
    if n == 0 {
      TicksBase(fs);
    } else {
      TicksOfMultiples(fs, n - 1);
      TickOfMultiples(fs, Ticks(fs, n - 1).tickers, (n - 1) as real, n as real);
    }
  }

  /** The same, read through `Reading`. */
  lemma TicksReadings(fs: seq<FrictionPoint>, n: nat)
    requires DistinctIds(fs)
    ensures forall f :: f in fs ==> Reading(Ticks(fs, n).tickers, f.id) == n as real * f.costPerMinute
  {
    TicksOfMultiples(fs, n);
  }

  /** After `n` ticks the total is `n` times the summed costs. */
  lemma TotalIsCostMultiple(fs: seq<FrictionPoint>, n: nat)
    requires DistinctIds(fs)
    ensures Ticks(fs, n).totalBurned == n as real * CostSum(fs)
  {
    TicksOfMultiples(fs, n);
  }

  /** On the screen's table, after `n` ticks each counter holds `n` minutes
      of its cost ... */
  lemma TicksFromZero(n: nat)
    ensures DistinctIds(FrictionPoints)
    ensures forall f :: f in FrictionPoints ==> Reading(Ticks(FrictionPoints, n).tickers, f.id) == n as real * f.costPerMinute
  {
    TableIdsDistinct();
    TicksReadings(FrictionPoints, n);
  }

  /** ... and the total burned is 22.5 per tick. */
  lemma TotalBurnedFromZero(n: nat)
    ensures Ticks(FrictionPoints, n).totalBurned == 22.5 * n as real
  {
    TableIdsDistinct();
    TotalIsCostMultiple(FrictionPoints, n);
    CostsSumTo();
  }

  /** No counter ever goes down when every cost per minute is positive. */
  lemma TickNeverDecreases(fs: seq<FrictionPoint>, prev: map<string, real>)
    requires DistinctIds(fs)
    requires forall f :: f in fs ==> f.costPerMinute > 0.0
    requires forall id :: id in prev ==> prev[id] >= 0.0
    ensures forall id :: id in prev ==> Reading(Tick(fs, prev).tickers, id) >= prev[id]
    ensures forall f :: f in fs ==> Reading(Tick(fs, prev).tickers, f.id) > Reading(prev, f.id)
  {
    TickSpec(fs, prev);
    forall id | id in prev
      ensures Reading(Tick(fs, prev).tickers, id) >= prev[id]
    {
      if id in Ids(fs) {
        IdsOnlyOfPoints(fs, id);
        var f :| f in fs && f.id == id;
      }
    }
  }

  /** Every cost per minute of the table is positive. */
  lemma TableCostsPositive()
    ensures forall f :: f in FrictionPoints ==> f.costPerMinute > 0.0
  {
  }

  /** Nothing is selected at first, so the button starts disabled; picking
      any point of the table enables it. */
  lemma SelectEnablesContinue(st: Selection, f: FrictionPoint)
    requires f in FrictionPoints
    ensures !ContinueEnabled(Selection(None, None))
    ensures ContinueEnabled(Select(st, f).0)
  {
  }
}

=== FILE: step3.dfy ===
/** Chapter three: one transaction traced through four manual steps and
    four AI steps, the cost of each path, the savings percentage, and the
    timeline slider that reveals the steps and the cost as it moves. */
module Step3WorkflowAutopsy {
  import opened Wrappers
  import opened Numeric

  datatype ManualStep = ManualStep(name: string, time: string, laborCost: real, errorRate: real,
                                   reworkCost: real, delay: real, opportunityCost: real)

  datatype AiStep = AiStep(name: string, time: string, tokenCost: real, errorRate: real,
                           reworkCost: real, delay: real, opportunityCost: real)

  const ManualSteps: seq<ManualStep> := [
    ManualStep("Data Entry", "12 min", 4.80, 8.0, 42.0, 48.0, 120.0),
    ManualStep("Approval Routing", "24 min", 9.60, 5.0, 28.0, 72.0, 180.0),
    ManualStep("Validation Check", "8 min", 3.20, 12.0, 56.0, 24.0, 60.0),
    ManualStep("System Update", "6 min", 2.40, 3.0, 14.0, 12.0, 30.0)]

  const AiSteps: seq<AiStep> := [
    AiStep("AI Vision + RAG", "18 sec", 0.02, 0.3, 0.0, 2.0, 5.0),
    AiStep("Smart Routing", "3 sec", 0.01, 0.1, 0.0, 0.5, 1.0),
    AiStep("Auto-Validation", "5 sec", 0.015, 0.2, 0.0, 1.0, 2.0),
    AiStep("Sync & Log", "2 sec", 0.005, 0.0, 0.0, 0.5, 0.5)]

  /** `frictionPoint?.name || "Procurement"`: no point, or one with an empty
      name, shows as Procurement. */
  function ProcessName(frictionName: Option<string>): (r: string)
    ensures r != ""
    ensures frictionName.Some? && frictionName.value != "" ==> r == frictionName.value
    ensures frictionName.None? || frictionName.value == "" ==> r == "Procurement"
  {
    if frictionName.Some? && frictionName.value != "" then frictionName.value else "Procurement"
  }

  /** Cost of a manual step: labour, rework and lost opportunity. */
  function ManualCost(s: ManualStep): real {
    s.laborCost + s.reworkCost + s.opportunityCost
  }

  /** Cost of an AI step: tokens, rework and lost opportunity. */
  function AiCost(s: AiStep): real {
    s.tokenCost + s.reworkCost + s.opportunityCost
  }

  function TotalManual(steps: seq<ManualStep>): real {
    if |steps| == 0 then 0.0 else TotalManual(steps[..|steps| - 1]) + ManualCost(steps[|steps| - 1])
  }

  function TotalAi(steps: seq<AiStep>): real {
    if |steps| == 0 then 0.0 else TotalAi(steps[..|steps| - 1]) + AiCost(steps[|steps| - 1])
  }

  /** `Math.round((1 - ai / manual) * 100)`: the share of the manual cost
      the AI path saves, in whole percent. */
  function SavingsPercent(manual: real, ai: real): (r: int)
    requires manual != 0.0
    ensures (1.0 - ai / manual) * 100.0 - 0.5 < r as real <= (1.0 - ai / manual) * 100.0 + 0.5
  {
    Round((1.0 - ai / manual) * 100.0)
  }

  // ------------------------------------------------------------ the timeline

  /** The slider runs over whole positions 0..100. */
  predicate ValidPosition(position: int) {
    0 <= position <= 100
  }

  /** The cost shown so far: the total scaled by how far the timeline is. */
  function Accumulated(total: real, position: int): real {
    total * (position as real / 100.0)
  }

  /** A step lights up once the timeline has passed its share of the path:
      `index < position / 100 * steps`. */
  predicate IsActive(index: nat, position: int, steps: nat) {
    index as real < position as real / 100.0 * steps as real
  }

  /** How many of the first `k` indices are below `x`. */
  function CountBelow(x: real, k: nat): (r: nat)
    ensures r <= k
  {
    if k == 0 then 0 else CountBelow(x, k - 1) + (if ((k - 1) as real) < x then 1 else 0)
  }

  /** The number of lit steps out of `steps`. */
  function ActiveCount(position: int, steps: nat): nat {
    CountBelow(position as real / 100.0 * steps as real, steps)
  }

  // ------------------------------------------------------------ reporting

  datatype WorkflowData = WorkflowData(beforeCost: real, afterCost: real, savingsPercent: int,
                                       volumePerMonth: real, errorRate: real, laborRate: real)

  /** What the chapter hands on: the two totals and the savings, with a
      fixed volume of 5000 a month, an 8% error rate and $45 an hour. */
  function Reported(): (r: WorkflowData)
    ensures r.beforeCost == TotalManual(ManualSteps) && r.afterCost == TotalAi(AiSteps)
    ensures r.savingsPercent == 98
    ensures r.volumePerMonth == 5000.0 && r.errorRate == 8.0 && r.laborRate == 45.0
  {
    Totals();
    SavingsOfTables();
    WorkflowData(TotalManual(ManualSteps), TotalAi(AiSteps),
                 SavingsPercent(TotalManual(ManualSteps), TotalAi(AiSteps)), 5000.0, 8.0, 45.0)
  }

  // ------------------------------------------------------------ properties

  lemma ManualTotal()
    ensures TotalManual(ManualSteps) == 550.0
  {
    var s := ManualSteps;
    assert s[..4][..3] == s[..3] && s[..3][..2] == s[..2] && s[..2][..1] == s[..1] && s[..1][..0] == [];
    assert s[..4] == s;
    assert TotalManual(s[..1]) == 166.80;
    assert TotalManual(s[..2]) == 384.40;
    assert TotalManual(s[..3]) == 503.60;
  }

  lemma AiTotal()
    ensures TotalAi(AiSteps) == 8.55
  {
    var s := AiSteps;
    assert s[..4][..3] == s[..3] && s[..3][..2] == s[..2] && s[..2][..1] == s[..1] && s[..1][..0] == [];
    assert s[..4] == s;
    assert TotalAi(s[..1]) == 5.02;
    assert TotalAi(s[..2]) == 6.03;
    assert TotalAi(s[..3]) == 8.045;
  }

  /** The manual path costs $550.00 per transaction, the AI path $8.55. */
  lemma Totals()
    ensures TotalManual(ManualSteps) == 550.0 && TotalAi(AiSteps) == 8.55
  {
    ManualTotal();
    AiTotal();
  }

  /** 1 - 8.55 / 550 is about 98.45%, shown as 98. */
  lemma SavingsOfTables()
    ensures SavingsPercent(550.0, 8.55) == 98
  {
    assert (1.0 - 8.55 / 550.0) * 100.0 == 54145.0 / 550.0;
  }

  /** When the AI path costs no more than the manual one, the savings lie
      between 0% and 100%. */
  lemma SavingsWithinRange(manual: real, ai: real)
    requires 0.0 <= ai <= manual && manual > 0.0
    ensures 0 <= SavingsPercent(manual, ai) <= 100
  {
    assert 0.0 <= ai / manual <= 1.0;
    RoundMonotone(0.0, (1.0 - ai / manual) * 100.0);
    RoundMonotone((1.0 - ai / manual) * 100.0, 100.0);
  }

  /** Nothing has accrued at the start, the full total at the end, and
      the accrued cost never falls as the timeline advances. */
  lemma AccumulatedProgress(total: real, p: int, q: int)
    requires total >= 0.0 && p <= q
    ensures Accumulated(total, 0) == 0.0 && Accumulated(total, 100) == total
    ensures Accumulated(total, p) <= Accumulated(total, q)
  {
    assert p as real / 100.0 <= q as real / 100.0;
    MulMonotone(p as real / 100.0, q as real / 100.0, total);
  }

  /** The lit steps are always the first ones: a step lights only after
      every step before it. */
  lemma ActiveIsPrefix(i: nat, j: nat, position: int, steps: nat)
    requires j <= i && IsActive(i, position, steps)
    ensures IsActive(j, position, steps)
  {
  }

  /** Counting indices below `x`: none for `x <= 0`, all `k` once `x`
      passes `k - 1`, and `Ceil(x)` in between. */
  lemma {:induction false} CountBelowIsCeil(x: real, k: nat)
    ensures CountBelow(x, k) == if x <= 0.0 then 0 else MinInt(Ceil(x), k)
  {
    if k > 0 {
      CountBelowIsCeil(x, k - 1);
    }
  }

  /** Raising the threshold never lowers the count. */
  lemma {:induction false} CountBelowMonotone(x: real, y: real, k: nat)
    requires x <= y
    ensures CountBelow(x, k) <= CountBelow(y, k)
  {
    if k > 0 {
      CountBelowMonotone(x, y, k - 1);
    }
  }

  /** With four steps no step is lit at position 0, all four at 100, and
      the lit count never falls as the slider moves right. */
  lemma ActiveSteps(p: int, q: int)
    requires ValidPosition(p) && ValidPosition(q) && p <= q
    ensures ActiveCount(0, 4) == 0 && ActiveCount(100, 4) == 4
    ensures ActiveCount(p, 4) <= ActiveCount(q, 4)
    ensures forall i :: 0 <= i < 4 ==> (IsActive(i, p, 4) <==> i < ActiveCount(p, 4))
  {
    CountBelowIsCeil(0.0, 4);
    CountBelowIsCeil(4.0, 4);
    CountBelowIsCeil(p as real / 100.0 * 4.0, 4);
    assert p as real / 100.0 * 4.0 <= q as real / 100.0 * 4.0;
    CountBelowMonotone(p as real / 100.0 * 4.0, q as real / 100.0 * 4.0, 4);
  }
}

=== FILE: step4.dfy ===
/** Chapter four: the yearly savings, in millions to one decimal, from the
    per-transaction saving and three sliders (monthly volume, error rate,
    hourly labour rate). */
module Step4KpiForge {
  import opened Wrappers
  import opened Numeric
  import Step3WorkflowAutopsy

  type WorkflowData = Step3WorkflowAutopsy.WorkflowData

  /** `workflowData?.beforeCost || 166.80`: no report, or a zero cost,
      falls back to Chapter three's first manual step. */
  function BeforeCost(workflow: Option<WorkflowData>): (r: real)
    ensures r != 0.0
    ensures workflow.Some? && workflow.value.beforeCost != 0.0 ==> r == workflow.value.beforeCost
    ensures workflow.None? || workflow.value.beforeCost == 0.0 ==> r == 166.80
  {
    if workflow.Some? && workflow.value.beforeCost != 0.0 then workflow.value.beforeCost else 166.80
  }

  /** `workflowData?.afterCost || 5.02`, the same way. */
  function AfterCost(workflow: Option<WorkflowData>): (r: real)
    ensures r != 0.0
    ensures workflow.Some? && workflow.value.afterCost != 0.0 ==> r == workflow.value.afterCost
    ensures workflow.None? || workflow.value.afterCost == 0.0 ==> r == 5.02
  {
    if workflow.Some? && workflow.value.afterCost != 0.0 then workflow.value.afterCost else 5.02
  }

  /** What one transaction saves. */
  function SavingsPerUnit(workflow: Option<WorkflowData>): real {
    BeforeCost(workflow) - AfterCost(workflow)
  }

  /** A slider: values from `min` to `max` in steps of `step`. */
  datatype Slider = Slider(min: real, max: real, step: real)

  const VolumeSlider := Slider(1000.0, 50000.0, 500.0)
  const ErrorRateSlider := Slider(1.0, 25.0, 0.5)
  const LaborRateSlider := Slider(25.0, 150.0, 5.0)

  /** A value the slider can stop at: inside its range, a whole number of
      steps above its minimum. */
  predicate OnSlider(x: real, s: Slider)
    requires s.step > 0.0
  {
    s.min <= x <= s.max && ((x - s.min) / s.step).Floor as real == (x - s.min) / s.step
  }

  /** The three slider readings. */
  datatype Sliders = Sliders(volume: real, errorRate: real, laborRate: real)

  const InitialSliders := Sliders(5000.0, 8.0, 45.0)

  predicate ValidSliders(s: Sliders) {
    OnSlider(s.volume, VolumeSlider) && OnSlider(s.errorRate, ErrorRateSlider)
    && OnSlider(s.laborRate, LaborRateSlider)
  }

  /** The direct part: the per-unit saving over a year's transactions. */
  function Annual(volume: real, perUnit: real): real {
    volume * perUnit * 12.0
  }

  /** Avoided errors: $50 each, at the error rate, over a year. */
  function ErrorImpact(volume: real, errorRate: real): real {
    errorRate / 100.0 * volume * 50.0 * 12.0
  }

  /** Labour arbitrage: a tenth of the direct part, scaled by the labour
      rate against the $45 baseline. */
  function LaborImpact(laborRate: real, annual: real): real {
    laborRate / 45.0 * annual * 0.1
  }

  /** The sum in dollars before rounding. */
  function RawSavings(s: Sliders, perUnit: real): real {
    var annual := Annual(s.volume, perUnit);
    annual + ErrorImpact(s.volume, s.errorRate) + LaborImpact(s.laborRate, annual)
  }

  /** The headline figure: the dollars in millions, rounded to one decimal. */
  function AnnualSavings(s: Sliders, perUnit: real): (r: real)
    ensures (r * 10.0).Floor as real == r * 10.0
    ensures r - 0.05 <= RawSavings(s, perUnit) / 1000000.0 < r + 0.05
  {
    RoundTenth(RawSavings(s, perUnit) / 1000000.0)
  }

  // ------------------------------------------------------------ properties

  /** The opening slider positions are stops on their sliders. */
  lemma InitialSlidersValid()
    ensures ValidSliders(InitialSliders)
  {
    assert (5000.0 - 1000.0) / 500.0 == 8.0;
    assert (8.0 - 1.0) / 0.5 == 14.0;
    assert (45.0 - 25.0) / 5.0 == 4.0;
  }

  /** Without a report the unit saving is $166.80 - $5.02 = $161.78. */
  lemma DefaultPerUnit()
    ensures SavingsPerUnit(None) == 161.78
  {
  }

  /** The raw sum in closed form: the direct part grows by the labour
      factor, and avoided errors cost $6 per transaction per point of
      error rate. */
  lemma RawClosedForm(s: Sliders, perUnit: real)
    ensures RawSavings(s, perUnit)
         == s.volume * perUnit * 12.0 * (1.0 + s.laborRate / 450.0) + 6.0 * s.errorRate * s.volume
  {
  }

  /** More transactions never lower the raw sum. */
  lemma RawMonotoneInVolume(s: Sliders, v: real, perUnit: real)
    requires perUnit >= 0.0 && s.errorRate >= 0.0 && s.laborRate >= 0.0 && s.volume <= v
    ensures RawSavings(s, perUnit) <= RawSavings(s.(volume := v), perUnit)
  {
    RawClosedForm(s, perUnit);
    RawClosedForm(s.(volume := v), perUnit);
    var k := perUnit * 12.0 * (1.0 + s.laborRate / 450.0) + 6.0 * s.errorRate;
    assert k >= 0.0 by {
      MulMonotone(0.0, perUnit * 12.0, 1.0 + s.laborRate / 450.0);
    }
    assert RawSavings(s, perUnit) == s.volume * k;
    assert RawSavings(s.(volume := v), perUnit) == v * k;
    MulMonotone(s.volume, v, k);
  }

  /** A higher error rate never lowers the raw sum. */
  lemma RawMonotoneInErrorRate(s: Sliders, e: real, perUnit: real)
    requires s.volume >= 0.0 && s.errorRate <= e
    ensures RawSavings(s, perUnit) <= RawSavings(s.(errorRate := e), perUnit)
  {
    RawClosedForm(s, perUnit);
    RawClosedForm(s.(errorRate := e), perUnit);
    MulMonotone(6.0 * s.errorRate, 6.0 * e, s.volume);
  }

  /** A higher labour rate never lowers the raw sum while the direct part
      is not negative. */
  lemma RawMonotoneInLaborRate(s: Sliders, l: real, perUnit: real)
    requires s.volume >= 0.0 && perUnit >= 0.0 && s.laborRate <= l
    ensures RawSavings(s, perUnit) <= RawSavings(s.(laborRate := l), perUnit)
  {
    RawClosedForm(s, perUnit);
    RawClosedForm(s.(laborRate := l), perUnit);
    var a := s.volume * perUnit * 12.0;
    assert a >= 0.0 by {
      MulMonotone(0.0, s.volume, perUnit);
    }
    MulMonotone(1.0 + s.laborRate / 450.0, 1.0 + l / 450.0, a);
  }

  /** Moving any slider to the right never lowers the headline figure, as
      long as a transaction saves something. */
  lemma SavingsMonotone(s: Sliders, t: Sliders, perUnit: real)
    requires perUnit >= 0.0
    requires ValidSliders(s) && ValidSliders(t)
    requires s.volume <= t.volume && s.errorRate <= t.errorRate && s.laborRate <= t.laborRate
    ensures AnnualSavings(s, perUnit) <= AnnualSavings(t, perUnit)
  {
    var s1 := s.(volume := t.volume);
    var s2 := s1.(errorRate := t.errorRate);
    assert s2.(laborRate := t.laborRate) == t;
    RawMonotoneInVolume(s, t.volume, perUnit);
    RawMonotoneInErrorRate(s1, t.errorRate, perUnit);
    RawMonotoneInLaborRate(s2, t.laborRate, perUnit);
    RoundTenthMonotone(RawSavings(s, perUnit) / 1000000.0, RawSavings(t, perUnit) / 1000000.0);
  }

  /** Every reachable figure lies between the one with all three sliders
      at their left ends and the one with all three at their right ends. */
  lemma SavingsWithinSliderCorners(s: Sliders, perUnit: real)
    requires perUnit >= 0.0 && ValidSliders(s)
    ensures AnnualSavings(Sliders(1000.0, 1.0, 25.0), perUnit) <= AnnualSavings(s, perUnit)
    ensures AnnualSavings(s, perUnit) <= AnnualSavings(Sliders(50000.0, 25.0, 150.0), perUnit)
  {
    assert ValidSliders(Sliders(1000.0, 1.0, 25.0)) by {
      assert (1000.0 - 1000.0) / 500.0 == 0.0;
      assert (1.0 - 1.0) / 0.5 == 0.0;
      assert (25.0 - 25.0) / 5.0 == 0.0;
    }
    assert ValidSliders(Sliders(50000.0, 25.0, 150.0)) by {
      assert (50000.0 - 1000.0) / 500.0 == 98.0;
      assert (25.0 - 1.0) / 0.5 == 48.0;
      assert (150.0 - 25.0) / 5.0 == 25.0;
    }
    SavingsMonotone(Sliders(1000.0, 1.0, 25.0), s, perUnit);
    SavingsMonotone(s, Sliders(50000.0, 25.0, 150.0), perUnit);
  }

  /** Without a report, the opening sliders show $10.9M: 10,917,480
      dollars. */
  lemma DefaultHeadline()
    ensures AnnualSavings(InitialSliders, SavingsPerUnit(None)) == 10.9
  {
    DefaultPerUnit();
    assert RawSavings(InitialSliders, 161.78) == 10917480.0;
    assert RawSavings(InitialSliders, 161.78) / 1000000.0 * 10.0 == 109.17480;
  }

  /** With Chapter three's report ($550.00 before, $8.55 after) the opening
      sliders show $36.0M: 35,975,700 dollars. */
  lemma ReportedHeadline()
    ensures AnnualSavings(InitialSliders, SavingsPerUnit(Some(Step3WorkflowAutopsy.Reported()))) == 36.0
  {
    var w := Step3WorkflowAutopsy.Reported();
    assert w.beforeCost == 550.0 && w.afterCost == 8.55 by {
      Step3WorkflowAutopsy.Totals();
    }
    assert SavingsPerUnit(Some(w)) == 541.45;
    assert RawSavings(InitialSliders, 541.45) == 35975700.0;
    assert RawSavings(InitialSliders, 541.45) / 1000000.0 * 10.0 == 359.757;
  }
}

=== FILE: step5.dfy ===
/** Chapter five: use cases scored by a weighted formula, ranked highest
    first, the top three singled out, each drawn as a blip on a radar, and
    a countdown that runs down beside them. */
module Step5PriorityOracle {
  import opened Numeric
  import opened Ranking

  datatype UseCase = UseCase(id: string, name: string, value: real, timeToValue: real,
                             effort: real, successProb: real, tokenBurn: real)

  const InvoiceProcessing := UseCase("1", "Invoice Processing", 92.0, 6.0, 3.0, 89.0, 2400.0)
  const ContractReview := UseCase("2", "Contract Review", 85.0, 8.0, 5.0, 82.0, 3800.0)
  const CustomerSupport := UseCase("3", "Customer Support", 78.0, 4.0, 4.0, 91.0, 5200.0)
  const SalesForecasting := UseCase("4", "Sales Forecasting", 71.0, 10.0, 6.0, 74.0, 1800.0)
  const ComplianceAudit := UseCase("5", "Compliance Audit", 88.0, 12.0, 7.0, 86.0, 2100.0)
  const HrOnboarding := UseCase("6", "HR Onboarding", 65.0, 5.0, 3.0, 93.0, 1200.0)

  const DefaultUseCases: seq<UseCase> :=
    [InvoiceProcessing, ContractReview, CustomerSupport, SalesForecasting, ComplianceAudit, HrOnboarding]

  /** The list the chapter works on, and reports back unchanged and
      unsorted: the one handed in, or the six defaults when it is empty. */
  function InitialCases(useCases: seq<UseCase>): (r: seq<UseCase>)
    ensures |r| > 0
    ensures |useCases| > 0 ==> r == useCases
    ensures |useCases| == 0 ==> r == DefaultUseCases
  {
    if |useCases| > 0 then useCases else DefaultUseCases
  }

  /** The score divides by the time to value and the effort. */
  predicate Scorable(u: UseCase) {
    u.timeToValue != 0.0 && u.effort != 0.0
  }

  predicate AllScorable(cases: seq<UseCase>) {
    forall i :: 0 <= i < |cases| ==> Scorable(cases[i])
  }

  /** The priority score: 40% of the value, 25 points over the months to
      value, 20 points over the effort, 15% of the success chance. */
  function Score(u: UseCase): real
    requires Scorable(u)
  {
    (u.value * 0.40) + ((1.0 / u.timeToValue) * 100.0 * 0.25)
    + ((1.0 / u.effort) * 100.0 * 0.20) + (u.successProb * 0.15)
  }

  /** The ranking: a sorted copy, highest score first, ties in list order. */
  function SortedCases(cases: seq<UseCase>): (r: seq<UseCase>)
    requires AllScorable(cases)
    ensures multiset(r) == multiset(cases)
    ensures forall i, j :: 0 <= i < j < |r| ==> Scorable(r[i]) && Scorable(r[j]) && Score(r[i]) >= Score(r[j])
  {
    var r := SortDesc(cases, Score);
    assert NonIncreasing(r, Score);
    r
  }

  /** The "Top 3 Moves" and the highlighted blips: `index < 3`. */
  predicate IsTopThree(index: nat) {
    index < 3
  }

  function TopThree(cases: seq<UseCase>): (r: seq<UseCase>)
    requires AllScorable(cases)
    ensures |r| == MinInt(3, |cases|)
    ensures multiset(r) <= multiset(cases)
    ensures r == SortedCases(cases)[..|r|]
    ensures forall i :: 0 <= i < |r| ==> IsTopThree(i)
  {
    TopK(cases, Score, 3)
  }

  // ------------------------------------------------------------ the radar

  /** Horizontal position in percent: 0 to 15 months maps to 10..90. */
  function BlipX(u: UseCase): real {
    (u.timeToValue / 15.0) * 80.0 + 10.0
  }

  /** Vertical position in percent: value 100 at the top (10), 0 at the
      bottom (90). */
  function BlipY(u: UseCase): real {
    100.0 - (u.value / 100.0) * 80.0 - 10.0
  }

  /** Blip diameter: half the score, never under 20. */
  function BlipSize(score: real): (r: real)
    ensures r >= 20.0 && r >= score / 2.0
    ensures r == 20.0 || r == score / 2.0
  {
    MaxReal(20.0, score / 2.0)
  }

  // ------------------------------------------------------------ the countdown

  const InitialDoomsdayDays := 47.0

  /** One second of the countdown: a thousandth of a day, floored at 0. */
  function CountdownTick(days: real): (r: real)
    ensures r >= 0.0
    ensures days >= 0.001 ==> r == days - 0.001
    ensures days < 0.001 ==> r == 0.0
  {
    MaxReal(0.0, days - 0.001)
  }

  function Countdown(days: real, n: nat): real {
    if n == 0 then days else CountdownTick(Countdown(days, n - 1))
  }

  // ------------------------------------------------------------ properties

  /** The score in plain terms: `0.40 v + 25 / t + 20 / e + 0.15 p`. */
  lemma ScoreClosedForm(u: UseCase)
    requires Scorable(u)
    ensures Score(u) == 0.40 * u.value + 25.0 / u.timeToValue + 20.0 / u.effort + 0.15 * u.successProb
  {
  }

  lemma ReciprocalDecreasing(a: real, b: real)
    requires 0.0 < a < b
    ensures 1.0 / b < 1.0 / a
  {
    var rb := 1.0 / b;
    assert rb * a < rb * b == 1.0;
    assert rb == rb * a / a;
  }

  /** More value or a likelier success raises the score; a longer wait or
      more effort lowers it. */
  lemma ScoreMonotone(u: UseCase, more: real)
    requires Scorable(u) && more > 0.0
    requires u.timeToValue > 0.0 && u.effort > 0.0
    ensures Score(u) < Score(u.(value := u.value + more))
    ensures Score(u) < Score(u.(successProb := u.successProb + more))
    ensures Score(u.(timeToValue := u.timeToValue + more)) < Score(u)
    ensures Score(u.(effort := u.effort + more)) < Score(u)
  {
    ReciprocalDecreasing(u.timeToValue, u.timeToValue + more);
    ReciprocalDecreasing(u.effort, u.effort + more);
  }

  /** Every use case that ranks after the top three scores no higher than
      each of them, and the top three with the rest make up the list. */
  lemma TopThreeBeatRest(cases: seq<UseCase>)
    requires AllScorable(cases)
    ensures var sorted := SortedCases(cases);
      var top := TopThree(cases);
      && multiset(top) + multiset(sorted[|top|..]) == multiset(cases)
      && forall i, j :: 0 <= i < |top| && |top| <= j < |sorted| ==>
           Scorable(top[i]) && Scorable(sorted[j]) && Score(top[i]) >= Score(sorted[j])
  {
    TopKPartition(cases, Score, 3);
  }

  /** Use cases with equal scores keep their list order in the ranking. */
  lemma TiesKeepListOrder(cases: seq<UseCase>, k: real)
    requires AllScorable(cases)
    ensures Ties(SortedCases(cases), Score, k) == Ties(cases, Score, k)
  {
    SortStable(cases, Score, k);
  }

  /** The default scores: about 60.98, 53.43, 56.1, 45.33, 53.04, 51.62. */
  lemma DefaultScores()
    ensures Score(InvoiceProcessing) == 3659.0 / 60.0
    ensures Score(ContractReview) == 53.425
    ensures Score(CustomerSupport) == 56.1
    ensures Score(SalesForecasting) == 136.0 / 3.0
    ensures Score(ComplianceAudit) == 22277.0 / 420.0
    ensures Score(HrOnboarding) == 3097.0 / 60.0
  {
  }

  /** The default table in score order. */
  const RankedDefaults: seq<UseCase> :=
    [InvoiceProcessing, CustomerSupport, ContractReview, ComplianceAudit, HrOnboarding, SalesForecasting]

  lemma RankedDefaultsStrict()
    ensures AllScorable(RankedDefaults)
    ensures StrictlyDecreasing(RankedDefaults, Score)
  {
    DefaultScores();
  }

  /** Swapping the second and third items and rotating the last three keeps the items. */
  lemma PermuteSix<T>(s: seq<T>)
    requires |s| == 6
    ensures multiset([s[0], s[2], s[1], s[4], s[5], s[3]]) == multiset(s)
  {
    assert [s[0], s[2], s[1], s[4], s[5], s[3]] == [s[0]] + [s[2], s[1]] + [s[4], s[5], s[3]];
    assert s == [s[0]] + [s[1], s[2]] + [s[3], s[4], s[5]];
    SwapPair(s[1], s[2]);
    RotateTriple(s[3], s[4], s[5]);
  }

  /** Two items in either order. */
  lemma SwapPair<T>(a: T, b: T)
    ensures multiset([b, a]) == multiset([a, b])
  {
  }

  /** Three items rotated by one place. */
  lemma RotateTriple<T>(a: T, b: T, c: T)
    ensures multiset([b, c, a]) == multiset([a, b, c])
  {
  }

  lemma RankedDefaultsPermute()
    ensures AllScorable(DefaultUseCases)
    ensures multiset(RankedDefaults) == multiset(DefaultUseCases)
  {
    var s := DefaultUseCases;
    assert RankedDefaults == [s[0], s[2], s[1], s[4], s[5], s[3]];
    PermuteSix(s);
  }

  /** With no use cases handed in, the ranking is Invoice Processing,
      Customer Support, Contract Review, Compliance Audit, HR Onboarding,
      Sales Forecasting. */
  lemma DefaultRanking()
    ensures AllScorable(InitialCases([]))
    ensures SortedCases(InitialCases([])) == RankedDefaults
  {
    RankedDefaultsStrict();
    RankedDefaultsPermute();
    RankingOfDistinctScores(DefaultUseCases, RankedDefaults);
  }

  /** When no two use cases score the same, the ranking is the one strictly
      decreasing arrangement of them. */
  lemma RankingOfDistinctScores(cases: seq<UseCase>, ranking: seq<UseCase>)
    requires AllScorable(cases) && AllScorable(ranking)
    requires StrictlyDecreasing(ranking, Score) && multiset(ranking) == multiset(cases)
    ensures SortedCases(cases) == ranking
  {
    SortDistinct(cases, ranking, Score);
  }

  /** ... so the top three are Invoice Processing (about 60.98), Customer
      Support (56.1) and Contract Review (about 53.43). */
  lemma DefaultTopThree()
    ensures AllScorable(InitialCases([]))
    ensures TopThree(InitialCases([])) == [InvoiceProcessing, CustomerSupport, ContractReview]
  {
    assert RankedDefaults[..3] == [InvoiceProcessing, CustomerSupport, ContractReview];
    DefaultRanking();
    TopThreeOfRanking(InitialCases([]), RankedDefaults);
  }

  /** The top three are the first three of the ranking. */
  lemma TopThreeOfRanking(cases: seq<UseCase>, ranking: seq<UseCase>)
    requires AllScorable(cases) && |cases| >= 3
    requires SortedCases(cases) == ranking
    ensures TopThree(cases) == ranking[..3]
  {
  }

  /** A use case within the radar's scales (0 to 15 months, value 0 to
      100) is drawn inside the 10..90 frame. */
  lemma BlipInsideFrame(u: UseCase)
    requires 0.0 <= u.timeToValue <= 15.0 && 0.0 <= u.value <= 100.0
    ensures 10.0 <= BlipX(u) <= 90.0 && 10.0 <= BlipY(u) <= 90.0
  {
  }

  /** From a non-negative start, `n` seconds take off `n` thousandths of a
      day, stopping at 0. */
  lemma {:induction false} CountdownClosedForm(days: real, n: nat)
    requires days >= 0.0
    ensures Countdown(days, n) == MaxReal(0.0, days - n as real * 0.001)
  {
    if n > 0 {
      CountdownClosedForm(days, n - 1);
    }
  }

  /** The countdown never rises and never goes below 0; from 47 days it
      reaches 0 after exactly 47,000 seconds. */
  lemma CountdownRunsDown(days: real, n: nat)
    requires days >= 0.0
    ensures 0.0 <= Countdown(days, n + 1) <= Countdown(days, n)
    ensures Countdown(InitialDoomsdayDays, 46999) > 0.0
    ensures Countdown(InitialDoomsdayDays, 47000) == 0.0
  {
    CountdownClosedForm(days, n);
    CountdownClosedForm(days, n + 1);
    CountdownClosedForm(InitialDoomsdayDays, 46999);
    CountdownClosedForm(InitialDoomsdayDays, 47000);
  }
}

=== FILE: text.dfy ===
/** String helpers. Case mapping covers ASCII letters only. */
module Text {

  function LowerChar(c: char): (r: char)
    ensures 'A' <= c <= 'Z' ==> r as int == c as int + 32
    ensures !('A' <= c <= 'Z') ==> r == c
  {
    if 'A' <= c <= 'Z' then (c as int + 32) as char else c
  }

  function UpperChar(c: char): (r: char)
    ensures 'a' <= c <= 'z' ==> r as int == c as int - 32
    ensures !('a' <= c <= 'z') ==> r == c
  {
    if 'a' <= c <= 'z' then (c as int - 32) as char else c
  }

  /** `toLowerCase()`, restricted to ASCII. */
  function Lower(s: string): (r: string)
    ensures |r| == |s|
    ensures forall i :: 0 <= i < |s| ==> r[i] == LowerChar(s[i])
    // no capital survives, and nothing but capitals changes
    ensures forall i :: 0 <= i < |r| ==> !('A' <= r[i] <= 'Z')
    ensures forall i :: 0 <= i < |s| && !('A' <= s[i] <= 'Z') ==> r[i] == s[i]
  {
    seq(|s|, i requires 0 <= i < |s| => LowerChar(s[i]))
  }

  /** Lower-casing twice is lower-casing once, and a string is its own
      lower case exactly when it holds no ASCII capital. */
  lemma LowerIdempotent(s: string)
    ensures Lower(Lower(s)) == Lower(s)
    ensures Lower(s) == s <==> forall i :: 0 <= i < |s| ==> !('A' <= s[i] <= 'Z')
  {
    if Lower(s) == s {
      forall i | 0 <= i < |s|
        ensures !('A' <= s[i] <= 'Z')
      {
        assert Lower(s)[i] == s[i];
      }
    }
  }

  predicate StartsWith(s: string, prefix: string) {
    |prefix| <= |s| && s[..|prefix|] == prefix
  }

  predicate EndsWith(s: string, suffix: string) {
    |suffix| <= |s| && s[|s| - |suffix|..] == suffix
  }
}

=== FILE: wrappers.dfy ===
/** Optional values and results, used for JavaScript's `undefined` / optional
    fields and for calls that can throw. */
module Wrappers {

  datatype Option<+T> = None | Some(value: T) {

    /** The carried value, or `default` when there is none. */
    function GetOr(default: T): T {
      match this
      case Some(v) => v
      case None => default
    }
  }

  datatype Result<+R, +E> = Success(value: R) | Failure(error: E)
}
